=== FILE: README.md ===
# Booking and subscription ledger — a Dafny model

This project models the server core of a studio's booking system. The studio runs
one-off master-class **events** and recurring **groups**. A group has a weekly
schedule, from which dated **group sessions** are generated. Clients hold prepaid
**subscriptions**, which are money balances. The model covers:

- **Bookings.** A booking takes seats on an event or a session. It is paid from a
  subscription or on site, and it can be cancelled within a 24-hour window.
- **Group enrollments.** A client enrolls in a group and can pause, resume or
  cancel the enrollment. Every enrollment is fanned out into one confirmed booking
  per upcoming session.
- **Session generation and groups.** The schedule is walked day by day in the
  business time zone, UTC+7 (Krasnoyarsk), creating sessions. Sessions can be
  cancelled and deleted. A group update with a changed schedule tears down future
  sessions and regenerates them.
- **Subscriptions.** Purchase merges into an active subscription or creates one.
  Rollback, top-up and total balance are also modelled.
- **Shop orders and products.** An order takes stock and may debit a subscription.
  Cancelling an order restocks it and refunds the subscription.
- **Payments.** The card gateway's signed `Init` request is built and a pending
  payment is recorded. The gateway's signed notifications (the webhook) then buy or
  roll back a subscription, at most once each.
- **The bookings HTTP controller.** It normalises the status filter and takes the
  user from the authenticated caller.
- **Krasnoyarsk time utilities.** Start of day, day of week, and building a
  date-time from `HH:MM`.

## How it is modelled

The whole database is one immutable `Ledger` value (`ledger.dfy`).

- **Tables.** Every table is a `seq<Option<T>>` indexed by its auto-increment id.
  Deleting a row leaves `None`, so ids are never reused. A query such as
  `findFirst` is a scan over the table. Its contract is relational: the result is
  eligible, and no eligible row is strictly better under the query's `orderBy`.
- **Operations.** Every service method is a pure function, or a method when it
  loops. It returns `Result<…, Error>`, and an `Err` means the store is unchanged.
  "Nothing else changes" is stated as `r == L.(field := r.field)`.
- **Time.** Instants are integer milliseconds since the epoch. `now` is a field of
  the ledger.
- **Money.** Amounts are exact `real`s. The 10% subscription discount is
  `price * 0.9`.
- **Parameters.** SHA-256, the gateway's reply to `Init` and the
  configuration (terminal key, password, URLs, payment bypass) are parameters.
- **The webhook's lookup.** `Payments.Webhook` takes a `Fallback`. With
  `ByRecordKey`, a notification's OrderId is compared with the record's own id, as
  the service does. With `ByGatewayOrderId`, it is compared with the order id the
  gateway was given (see Findings). Its lemmas hold for both.
- **Modules.** There is one module per service:
  - `KrasnoyarskTime`
  - `Subscriptions`, from the users service
  - `Products`
  - `Orders`
  - `Bookings`
  - `BookingsController`
  - `GroupBookings`, the fan-out booking shared by enrollments and sessions
  - `Enrollments`
  - `GroupSessions`
  - `Groups`
  - `Payments`

  They are supported by `Wrappers` (`Option`, `Result`), `Ledger` and `Sorting`.

Some behaviours of the services are kept exactly as they are, even where another design
would be possible:

- The fan-out of an enrollment or a session neither debits the subscription nor checks
  the session's capacity.
- Resuming an enrollment does not check for another active enrollment in the same group.
  The lemma `ResumeCanDuplicateActive` exhibits this.
- A cancelled order is refunded to the user's most recently updated subscription, which
  need not be the one that paid.
- A top-up goes to the active subscription with the most remaining balance.

## Model

| member | source | states |
|---|---|---|
| KrasnoyarskTime.StartOfDay | services/api/src/utils/krasnoyarsk-time.ts:30-36 | the result is a local midnight (aligned to the day at UTC+7) and the instant lies in the 24 hours that follow it |
| KrasnoyarskTime.StartOfDayUnique | services/api/src/utils/krasnoyarsk-time.ts:30-36 | any local midnight whose day contains the instant is the start of day, so the start of day is the only such value |
| KrasnoyarskTime.StartOfDayIdempotent | services/api/src/utils/krasnoyarsk-time.ts:30-36 | taking the start of day twice gives the same midnight |
| KrasnoyarskTime.StartOfDayOfAligned | services/api/src/utils/krasnoyarsk-time.ts:30-36 | a value that is already a local midnight is its own start of day |
| KrasnoyarskTime.StartOfDayNextDay | services/api/src/utils/krasnoyarsk-time.ts:30-40 | adding one day and then taking the start of day is the same as taking the start of day and then adding one day |
| KrasnoyarskTime.DayOfWeek | services/api/src/utils/krasnoyarsk-time.ts:55-59 | the local weekday is always in 0..6 |
| KrasnoyarskTime.DayOfWeekOfEpochDay | services/api/src/utils/krasnoyarsk-time.ts:55-59 | the local day of 1 January 1970 is a Thursday (4), which anchors the weekday to the calendar |
| KrasnoyarskTime.DayOfWeekNextDay | services/api/src/utils/krasnoyarsk-time.ts:38-40 | one day later is the next weekday, modulo 7 |
| KrasnoyarskTime.DayOfWeekOfStartOfDay | services/api/src/utils/krasnoyarsk-time.ts:30-36 | an instant and its local midnight fall on the same weekday |
| KrasnoyarskTime.Trim | services/api/src/utils/krasnoyarsk-time.ts:17 | the trimmed text has no JavaScript white space at either end, and it is empty exactly when the text is all white space |
| KrasnoyarskTime.TrimOfTrimmed | apps/admin/src/lib/krasnoyarsk-time.ts:31 | trimming text that has no white space at its ends changes nothing |
| KrasnoyarskTime.IndexOf | services/api/src/utils/krasnoyarsk-time.ts:42-53 | the result is the first position of the character, or the length of the text when it does not occur |
| KrasnoyarskTime.BuildDateTimeForDay | services/api/src/utils/krasnoyarsk-time.ts:42-53 | a date-time is built exactly when the time text parses, and it is the local midnight plus that wall-clock time |
| KrasnoyarskTime.ParseTimeOfHHMM | services/api/src/utils/krasnoyarsk-time.ts:42-53 | reading a two-digit `HH:MM` text gives back the hour and minute it was written from |
| KrasnoyarskTime.JsNumberOfDigits | services/api/src/utils/krasnoyarsk-time.ts:43-45 | a run of decimal digits reads as its value |
| KrasnoyarskTime.JsNumberTruncates | services/api/src/utils/krasnoyarsk-time.ts:43-52 | an hour or minute with a fraction counts as its whole part, as `Date.UTC` truncates it |
| KrasnoyarskTime.JsNumberNegates | services/api/src/utils/krasnoyarsk-time.ts:43-52 | a leading minus before any decimal text negates the value that text reads as, so a negative hour or minute is also truncated toward zero |
| KrasnoyarskTime.BuildDateTimeForValidTime | services/api/src/utils/krasnoyarsk-time.ts:42-53 | for every valid hour and minute, `HH:MM` yields the local midnight plus that time |
| KrasnoyarskTime.BuildDateTimeSameDay | services/api/src/utils/krasnoyarsk-time.ts:42-53 | a date-time built from a valid `HH:MM` lies on the same local day it was built for |
| KrasnoyarskTime.ParsedTimeSameDay | services/api/src/utils/krasnoyarsk-time.ts:42-53 | any time text that parses to a valid hour and minute keeps the built date-time on the requested day |
| KrasnoyarskTime.OffsetIsSuffix | services/api/src/utils/krasnoyarsk-time.ts:4-7 | text ending in `+07:00` is recognised as carrying a time-zone suffix |
| KrasnoyarskTime.ToOffsetDateTime | apps/admin/src/lib/krasnoyarsk-time.ts:30-36 | blank input gives blank output; otherwise the output carries a time-zone suffix, and text that already had one is only trimmed |
| KrasnoyarskTime.ToOffsetDateTimeIdempotent | apps/admin/src/lib/krasnoyarsk-time.ts:30-36 | applying the admin conversion twice is the same as applying it once |
| KrasnoyarskTime.ParseKrasnoyarskDateTime | services/api/src/utils/krasnoyarsk-time.ts:15-25 | a Date is kept as it is, blank text is an invalid date, and text with a suffix is parsed unchanged; whatever is parsed always carries a suffix |
| KrasnoyarskTime.ServerAndAdminAgree | apps/admin/src/lib/krasnoyarsk-time.ts:30-36 | the server reads text as the instant that the admin's conversion of the same text denotes (partner of ToOffsetDateTime) |
| Subscriptions.BetterIsStrictWeakOrder | services/api/src/users/users.service.ts:238-246 | each query's `orderBy` preference is asymmetric and negatively transitive, so the "best row" a query returns is well defined |
| Subscriptions.Select | services/api/src/users/users.service.ts:135-183 | the chosen row is eligible and no eligible row is strictly better; among equally good rows the lowest id is chosen; none is chosen only when no row is eligible |
| Subscriptions.Query | services/api/src/users/users.service.ts:238-246 | a query returns an eligible row that no eligible row beats, and returns nothing exactly when no row is eligible |
| Subscriptions.Debit | services/api/src/bookings/bookings.service.ts:264-291 | the balance drops by the amount and the status becomes DEPLETED exactly when it reaches zero; all other fields are kept |
| Subscriptions.Credit | services/api/src/bookings/bookings.service.ts:80-100 | the balance rises by the amount; a DEPLETED subscription that is positive again becomes ACTIVE, and any other status is kept |
| Subscriptions.CreditUndoesDebit | services/api/src/bookings/bookings.service.ts:80-100 | crediting back what was debited from a positive ACTIVE subscription restores it entirely, apart from its update stamp (partner of Debit) |
| Subscriptions.ExtendedExpiry | services/api/src/users/users.service.ts:265-279 | a zero duration keeps the expiry; otherwise the expiry is extended from the later of the current expiry and now |
| Subscriptions.Merge | services/api/src/users/users.service.ts:249-288 | the purchased amount is added to both balances so the spent part is unchanged; the result is ACTIVE, named as merged unless already marked, with the expiry extended by the type's duration and the update time now; no other field changes |
| Subscriptions.PurchaseRaisesTotalBalance | services/api/src/users/users.service.ts:214-317 | a purchase raises the user's total balance over ACTIVE subscriptions by exactly the type's amount, whether it merges or opens a subscription |
| Subscriptions.Purchase | services/api/src/users/users.service.ts:214-317 | a purchase needs the payment bypass or a missing gateway, and an active type; it merges into the user's richest active subscription if there is one and otherwise adds a new one; nothing else changes |
| Subscriptions.RollbackTarget | services/api/src/users/users.service.ts:328-346 | a named subscription is used only if it belongs to the user; otherwise the user's most recently updated one is used |
| Subscriptions.Reduced | services/api/src/users/users.service.ts:348-377 | both balances drop by the amount, floored at zero, and remaining ≤ total is preserved |
| Subscriptions.Rollback | services/api/src/users/users.service.ts:319-392 | a non-positive amount is refused and a missing target is not found; otherwise only that subscription is reduced, deleted or cancelled |
| Subscriptions.RollbackKeepsRemainingWithinTotal | services/api/src/users/users.service.ts:348-377 | rollback keeps every subscription's remaining balance within its total (an invariant of Rollback) |
| Subscriptions.FirstActiveType | services/api/src/users/users.service.ts:587-592 | the result is the lowest-id active subscription type, or nothing when no type is active |
| Subscriptions.TopUp | services/api/src/users/users.service.ts:526-617 | an unknown user is the only failure; the amount goes to the richest active subscription or to a new one, and nothing else changes |
| Subscriptions.Holdings | services/api/src/users/users.service.ts:185-204 | the sum is the total of the remaining balances of the user's ACTIVE subscriptions with a positive balance, and the count is the number of those subscriptions; the sum is non-negative and zero exactly when none is counted |
| Subscriptions.TotalBalance | services/api/src/users/users.service.ts:185-204 | `totalBalance` is the total of the remaining balances of the user's ACTIVE subscriptions with a positive balance and `subscriptionsCount` is their number; the total is positive exactly when such a subscription exists |
| Subscriptions.HoldingsOfPut | services/api/src/users/users.service.ts:185-212 | replacing one subscription changes the total by the difference of the two rows' shares |
| Subscriptions.HoldingsOfAppend | services/api/src/users/users.service.ts:185-212 | a row added after the counted range does not change the total |
| Subscriptions.TopUpRaisesTotalBalance | services/api/src/users/users.service.ts:526-617 | a positive top-up raises the user's total balance by exactly the amount (partner of TopUp and TotalBalance) |
| Subscriptions.TopUpOfHeld | services/api/src/users/users.service.ts:550-564 | crediting a held active subscription raises the holdings by the amount |
| Subscriptions.TopUpOfNew | services/api/src/users/users.service.ts:584-600 | a new active subscription holding the amount raises the holdings by the amount |
| Products.DecreaseStock | services/api/src/products/products.service.ts:105-120 | succeeds exactly when the product exists with enough stock, moves only that product's stock down by the quantity, and never leaves it negative |
| Products.IncreaseStock | services/api/src/products/products.service.ts:122-131 | succeeds exactly when the product exists and moves only its stock up by the quantity |
| Products.IncreaseUndoesDecrease | services/api/src/products/products.service.ts:105-131 | returning the stock that was taken restores the shop exactly (partner of DecreaseStock) |
| Products.OfferedAmong | services/api/src/products/products.service.ts:27-42 | exactly the active products with stock in the range are listed, newest first |
| Products.FindAvailable | services/api/src/products/products.service.ts:27-42 | lists exactly the products on offer, each once, newest first |
| Products.Remove | services/api/src/products/products.service.ts:86-103 | a product referenced by an order is only archived (inactive, no stock); an unreferenced one is deleted; no other product changes |
| Products.RemovedIsNotOffered | services/api/src/products/products.service.ts:86-103 | a removed product is no longer offered (partner of FindAvailable) |
| Products.RemoveKeepsOrderLinesResolvable | services/api/src/products/products.service.ts:95-99 | removal keeps the invariant that every order line names an existing product |
| Orders.Unstock | services/api/src/orders/orders.service.ts:95-97 | stock is taken line by line; when no line fails, every product has lost exactly its demand |
| Orders.Restock | services/api/src/orders/orders.service.ts:166-168 | restocking succeeds exactly when all products exist, and then every product regains its demand |
| Orders.UnstockSucceedsIff | services/api/src/orders/orders.service.ts:95-97 | taking the lines one by one fails nowhere exactly when, for every product, the stock covers the total quantity of all its lines |
| Orders.LineRefusal | services/api/src/orders/orders.service.ts:19-27 | a line is refused exactly when its product is missing or inactive, or its stock falls short of the demand the screen counts |
| Orders.Screen | services/api/src/orders/orders.service.ts:19-27 | the screen passes exactly when no line from the given one on is refused |
| Orders.CumulativeScreenIsCoverable | services/api/src/orders/orders.service.ts:19-27 | a screen that counts all earlier lines of the same product passes only coverable orders (partner of UnstockSucceedsIff) |
| Orders.Charge | services/api/src/orders/orders.service.ts:34-67 | the amount is debited from the soonest-expiring active subscription that covers it, and nothing is charged when none does |
| Orders.Place | services/api/src/orders/orders.service.ts:15-92 | a refused line or ONLINE payment fails with no change; otherwise the order is appended PENDING, after a debit for subscription payment, with stock untouched |
| Orders.CreateAsWritten | services/api/src/orders/orders.service.ts:15-106 | the service as written: after a passed per-line screen, the order and the debit stay even when a later stock decrement fails |
| Orders.Create | services/api/src/orders/orders.service.ts:15-106 | corrected creation: it fails with no change, or it records the order and takes each product's total demand out of stock |
| Orders.AsWrittenAgreesWhenCoverable | services/api/src/orders/orders.service.ts:15-106 | whenever stock covers the whole order, the service as written and the corrected creation give the same store |
| Orders.RepeatedLineOverdraws | services/api/src/orders/orders.service.ts:19-27 | two lines of two mugs against a stock of three pass the per-line screen and leave a failed order behind, while the corrected screen refuses it |
| Orders.Refund | services/api/src/orders/orders.service.ts:171-195 | the refund goes to the user's most recently updated ACTIVE or DEPLETED subscription, and nothing is refunded without one |
| Orders.UpdateStatus | services/api/src/orders/orders.service.ts:160-212 | only a move into CANCELLED from another status restocks and refunds; every other update writes only the status |
| Orders.CancelIsIdempotent | services/api/src/orders/orders.service.ts:164 | cancelling an already cancelled order changes nothing |
| Orders.CreateThenCancelRestoresStock | services/api/src/orders/orders.service.ts:160-212 | cancelling a freshly created order restores every product exactly (partner of Create) |
| Orders.ProductsRestored | services/api/src/orders/orders.service.ts:166-168 | two stock-only moves that leave every stock level as it was leave the product table unchanged |
| Bookings.MoveSeats | services/api/src/bookings/bookings.service.ts:333-351 | only the target's seat count moves, by exactly the amount |
| Bookings.Refusal | services/api/src/bookings/bookings.service.ts:138-184 | no refusal exactly when the target is bookable: a PUBLISHED event, or a session that is not CANCELLED, is paid by subscription and belongs to an existing active group; a missing event, session or group is not found |
| Bookings.ChooseSubscription | services/api/src/bookings/bookings.service.ts:201-262 | a subscription is chosen only if it is payable: the asked-for one when it is the user's own, ACTIVE and covers the discounted price, otherwise the user's ACTIVE one with the most remaining balance among those covering it; none is chosen when none is payable (expiry is not consulted) |
| Bookings.ActiveHoldings | services/api/src/bookings/bookings.service.ts:240-258 | the quoted balance is the sum of the remaining balances of the user's ACTIVE subscriptions, and the quoted count is the number of those subscriptions; no such subscription means a zero balance |
| Bookings.Create | services/api/src/bookings/bookings.service.ts:108-396 | malformed requests, missing or unbookable targets and missing seats are refused in that order; only admitted requests are paid for |
| Bookings.Pay | services/api/src/bookings/bookings.service.ts:196-351 | a PENDING booking is appended and seats move by the headcount; subscription payment debits the discounted price from a payable subscription, or fails as unauthenticated, or as insufficient quoting the price due with the sum and count of the user's ACTIVE subscriptions |
| Bookings.Record | services/api/src/bookings/bookings.service.ts:293-351 | the booking is appended under the next id and the target's seats move by its headcount |
| Bookings.CancelInternal | services/api/src/bookings/bookings.service.ts:12-106 | cancelling twice is a no-op; the 24-hour window is enforced only when asked; seats are released and a subscription payment is credited back |
| Bookings.UpdateStatus | services/api/src/bookings/bookings.service.ts:520-535 | a move of a live booking into CANCELLED is a cancellation with the time window enforced; any other change, or a booking already CANCELLED, only writes the status |
| Bookings.Cancel | services/api/src/bookings/bookings.service.ts:537-539 | a user cancel inside 24 hours of the start fails; a successful one leaves the booking CANCELLED |
| Bookings.AdminCancel | services/api/src/bookings/bookings.service.ts:541-544 | an admin cancel ignores the window and fails only for a missing booking |
| Bookings.CreatePreservesSeatBounds | services/api/src/bookings/bookings.service.ts:187-193 | booking keeps every event's and session's seat count between zero and capacity |
| Bookings.CancelPreservesSeatBounds | services/api/src/bookings/bookings.service.ts:45-78 | cancelling keeps every seat count between zero and capacity |
| Bookings.CreateThenAdminCancelRestores | services/api/src/bookings/bookings.service.ts:12-396 | an admin cancel of a new booking restores the seat count and the paying subscription's balance (partner of Create) |
| Bookings.CancelIsIdempotent | services/api/src/bookings/bookings.service.ts:17-19 | a second user cancel of the same booking changes nothing |
| Bookings.CollectUpcoming | services/api/src/bookings/bookings.service.ts:546-580 | the result holds each upcoming booking in the range exactly once, sorted by start |
| Bookings.UpcomingUserBookings | services/api/src/bookings/bookings.service.ts:546-580 | lists exactly the user's live bookings on future events, each once, ordered by start |
| BookingsController.NormalizeStatus | services/api/src/bookings/bookings.controller.ts:24-29 | a status is accepted exactly when it is one of the known names, and it maps to the status of that name |
| BookingsController.NormalizeStatusRoundTrip | services/api/src/bookings/bookings.controller.ts:24-29 | every status's name normalises back to the same status |
| BookingsController.ToRequest | services/api/src/bookings/bookings.controller.ts:52-55 | the booking's user is the authenticated caller, whatever the body claims |
| BookingsController.CreateBooking | services/api/src/bookings/bookings.controller.ts:31-56 | subscription payment without a caller is unauthenticated, and a created booking belongs to the caller |
| BookingsController.CreateBookingIgnoresBodyUser | services/api/src/bookings/bookings.controller.ts:52-55 | the user id in the body has no effect on the outcome |
| BookingsController.PaginatedQuery | services/api/src/bookings/bookings.controller.ts:63-77 | `eventOnly` is on exactly for "true" or "1", "all" means no status filter, and page and limit default to 1 and 20 |
| BookingsController.MyUpcomingBookings | services/api/src/bookings/bookings.controller.ts:103-110 | no caller gives an empty list; otherwise exactly the caller's upcoming bookings, ordered by start |
| GroupBookings.Headcount | services/api/src/group-sessions/group-sessions.service.ts:342-343 | a fan-out booking counts its participants, and at least one |
| GroupBookings.FanOutBooking | services/api/src/group-enrollments/group-enrollments.service.ts:344-377 | a fan-out booking is CONFIRMED, paid by the enrollment's subscription at the discounted price per head, and tied to the enrollment |
| GroupBookings.SeatsFromAppend | services/api/src/group-sessions/group-sessions.service.ts:351-358 | a new booking on a session adds its headcount to that session's seats counted from a point on |
| GroupBookings.SeatsFromElsewhere | services/api/src/group-sessions/group-sessions.service.ts:351-358 | bookings on other sessions count no seats for it |
| GroupBookings.SeatsFromExtend | services/api/src/group-sessions/group-sessions.service.ts:351-358 | bookings added on other sessions do not change a session's count |
| GroupBookings.SeatsFromSkip | services/api/src/group-sessions/group-sessions.service.ts:351-358 | a prefix of bookings on other sessions can be skipped |
| GroupBookings.BookSession | services/api/src/group-sessions/group-sessions.service.ts:342-358 | one booking is appended and only that session's seats grow by its headcount; the set of (session, user) pairs with a booking grows by exactly this one |
| Enrollments.Visit | services/api/src/group-enrollments/group-enrollments.service.ts:344-377 | a session is either left alone or booked for the enrollment |
| Enrollments.BookKeepsSeatCounts | services/api/src/group-enrollments/group-enrollments.service.ts:344-377 | each fan-out booking keeps every session's seats equal to its old count plus the fan-out headcounts on it |
| Enrollments.BookKeepsProgress | services/api/src/group-enrollments/group-enrollments.service.ts:344-377 | booking a needed session advances the fan-out's loop invariant by one session |
| Enrollments.VisitKeepsProgress | services/api/src/group-enrollments/group-enrollments.service.ts:344-377 | visiting any session advances the loop invariant by one session |
| Enrollments.FanOut | services/api/src/group-enrollments/group-enrollments.service.ts:344-377 | only fan-out bookings are added, one per upcoming session of the group that the user has not booked, and nothing changes when none is needed |
| Enrollments.CreateBookingsForEnrollment | services/api/src/group-enrollments/group-enrollments.service.ts:313-379 | fails (not found) exactly when the enrollment or its group is missing; otherwise it is the fan-out |
| Enrollments.FanOutKeepsUpcoming | services/api/src/group-enrollments/group-enrollments.service.ts:326-340 | a session upcoming after a fan-out was upcoming before it |
| Enrollments.FanOutTwice | services/api/src/group-enrollments/group-enrollments.service.ts:313-379 | running the fan-out again right after it changes nothing |
| Enrollments.Create | services/api/src/group-enrollments/group-enrollments.service.ts:14-115 | a missing group, an inactive group, an existing active enrollment and a missing subscription are refused; success appends one ACTIVE enrollment bound to the funded subscription, adds only its fan-out bookings (at most one per session) with the seats they take, leaves every other table unchanged, and keeps at most one active enrollment per user and group |
| Enrollments.Cancel | services/api/src/group-enrollments/group-enrollments.service.ts:153-176 | only the owner may cancel, any enrollment not already CANCELLED, and only its status changes |
| Enrollments.Pause | services/api/src/group-enrollments/group-enrollments.service.ts:178-201 | only the owner may pause, only an ACTIVE enrollment, and only its status changes |
| Enrollments.Resume | services/api/src/group-enrollments/group-enrollments.service.ts:203-226 | only the owner may resume, only a PAUSED enrollment, and only its status changes |
| Enrollments.PauseThenResumeRestores | services/api/src/group-enrollments/group-enrollments.service.ts:178-226 | pausing and then resuming gives back the original store (partner of Pause) |
| Enrollments.CancelIsFinal | services/api/src/group-enrollments/group-enrollments.service.ts:153-226 | a cancelled enrollment can be neither paused, resumed nor cancelled again |
| Enrollments.ResumeCanDuplicateActive | services/api/src/group-enrollments/group-enrollments.service.ts:203-226 | resume does not check for another active enrollment, so it can leave two active ones in the same group |
| Enrollments.CollectByDate | services/api/src/group-enrollments/group-enrollments.service.ts:256-310 | the collected sessions are sorted by date, and each upcoming session in the range appears exactly once |
| Enrollments.BookingOn | services/api/src/group-enrollments/group-enrollments.service.ts:256-310 | the result is the user's booking on the session with the lowest row, no earlier row being one; nothing when there is none |
| Enrollments.Shown | services/api/src/group-enrollments/group-enrollments.service.ts:256-310 | at most 20 distinct upcoming sessions are shown, in date order, and no upcoming session is left out in favour of a later one |
| Enrollments.CutKeepsCover | services/api/src/group-enrollments/group-enrollments.service.ts:297 | cutting the date-ordered list at 20 drops only sessions dated no earlier than the last one kept |
| Enrollments.CollectedFacts | services/api/src/group-enrollments/group-enrollments.service.ts:256-310 | the full collection is exactly the upcoming sessions, distinct and in date order |
| Enrollments.CountedFacts | services/api/src/group-enrollments/group-enrollments.service.ts:256-310 | a date-sorted list that counts each upcoming session once is complete, distinct and ordered |
| Enrollments.Lines | services/api/src/group-enrollments/group-enrollments.service.ts:256-310 | each shown session is paired with the user's booking on it, if any |
| Enrollments.UpcomingSessions | services/api/src/group-enrollments/group-enrollments.service.ts:256-310 | only the owner sees the list: at most 20 upcoming sessions of the group, earliest first, each with the user's booking |
| Enrollments.ShownLines | services/api/src/group-enrollments/group-enrollments.service.ts:256-310 | the lines carry exactly the shown sessions, each with its booking |
| GroupSessions.BookMembers | services/api/src/group-sessions/group-sessions.service.ts:322-359 | each active member without a booking on the session gets one, with one booking per user; nothing changes when nobody is wanting |
| GroupSessions.CreateBookingsForSession | services/api/src/group-sessions/group-sessions.service.ts:300-361 | fails exactly when the session or its group is missing; afterwards every active member of the group has a booking on the session |
| GroupSessions.VisitDay | services/api/src/group-sessions/group-sessions.service.ts:37-70 | one day of the walk either stops on an unreadable time or keeps the walk's invariant one day further |
| GroupSessions.GenerateSessions | services/api/src/group-sessions/group-sessions.service.ts:21-74 | refuses missing groups and unusable schedules; creates exactly one SCHEDULED session per due day and time that was not already taken, each fanned out to the active members with one booking per user |
| GroupSessions.WalkDone | services/api/src/group-sessions/group-sessions.service.ts:37-70 | after the walk, every due day's slot holds a session of the group, and no slot holds two |
| GroupSessions.NoClashAnywhere | services/api/src/group-sessions/group-sessions.service.ts:46-54 | generation never puts two sessions of a group at the same instant |
| GroupSessions.GenerateTwice | services/api/src/group-sessions/group-sessions.service.ts:21-74 | generating again over the same range creates nothing and leaves the store as it was |
| GroupSessions.CancelSession | services/api/src/group-sessions/group-sessions.service.ts:164-226 | any session that is not completed can be cancelled; only its status and notes change |
| GroupSessions.CancelSessionIsIdempotent | services/api/src/group-sessions/group-sessions.service.ts:164-226 | cancelling twice is the same as cancelling once, and a cancelled session is no longer upcoming |
| GroupSessions.DeleteSession | services/api/src/group-sessions/group-sessions.service.ts:276-297 | a session with bookings is refused; otherwise only its row is removed |
| GroupSessions.DeleteKeepsBookingsResolvable | services/api/src/group-sessions/group-sessions.service.ts:288-292 | deletion keeps every booking's session in the store (the invariant the refusal protects) |
| Groups.ScheduleChangedIff | services/api/src/groups/groups.service.ts:126-129 | the schedule counts as changed exactly when the new schedule differs from the stored one |
| Groups.Apply | services/api/src/groups/groups.service.ts:135-147 | each field given in the update replaces the stored one, and the others are kept |
| Groups.Teardown | services/api/src/groups/groups.service.ts:157-171 | every session of the group dated after now, in any status, is removed together with every booking on it; all other rows are kept |
| Groups.TeardownKeepsBookingsResolvable | services/api/src/groups/groups.service.ts:157-171 | after teardown every remaining session booking still names an existing session |
| Groups.Update | services/api/src/groups/groups.service.ts:105-188 | a missing group is not found; the fields are written; a changed schedule on an active group removes the future sessions, and when the new schedule can be generated adds exactly the sessions and member bookings generation promises over the torn-down store (one per due day left free, every active member booked once); when it cannot, the torn-down store is the result; otherwise nothing else changes |
| Groups.UpdateTwice | services/api/src/groups/groups.service.ts:105-188 | making the same update a second time changes nothing further: the schedule now matches, so nothing is regenerated |
| Groups.ToggleActive | services/api/src/groups/groups.service.ts:201-207 | only the group's active flag flips |
| Groups.ToggleTwiceRestores | services/api/src/groups/groups.service.ts:201-207 | toggling twice gives back the original store (ToggleActive is its own inverse) |
| Payments.NatText | services/api/src/payments/payments.service.ts:170-176 | a number's decimal text is non-empty, all digits, and reads back as the number |
| Payments.Field | services/api/src/payments/payments.service.ts:163-176 | a present key yields a value stored under it, and a missing key yields undefined |
| Payments.Without | services/api/src/payments/payments.service.ts:163-167 | exactly the entries not named by the key are kept |
| Payments.Insert | services/api/src/payments/payments.service.ts:178-182 | inserting keeps the list sorted by name and adds exactly the one entry |
| Payments.SortByName | services/api/src/payments/payments.service.ts:178-182 | the result is sorted by name and is a permutation of the input |
| Payments.Token | services/api/src/payments/payments.service.ts:157-183 | without a password it fails; otherwise it is the hash of the values of the signed fields plus the password, taken in name order; when the names are distinct every such arrangement gives the same token |
| Payments.SigningTextOfAnySorted | services/api/src/payments/payments.service.ts:178-182 | with distinct field names, every name-ordered arrangement of the signed fields and the password joins to the same text |
| Payments.TokenIgnoresUnsignedField | services/api/src/payments/payments.service.ts:163-167 | adding, removing or changing the Token field (or any unsigned one) leaves the token unchanged |
| Payments.SortedIsUnique | services/api/src/payments/payments.service.ts:178-182 | two name-sorted permutations of the same name-functional entries are equal |
| Payments.TokenIgnoresFieldOrder | services/api/src/payments/payments.service.ts:157-183 | the order of the payload's fields does not affect the token |
| Payments.Kopecks | services/api/src/payments/payments.service.ts:196 | the amount in kopecks is the price times 100, rounded to the nearest whole number |
| Payments.WithoutDashes | services/api/src/payments/payments.service.ts:45 | all dashes are removed; text without dashes is unchanged, and unchanged length means there were none |
| Payments.GatewayOrderId | services/api/src/payments/payments.service.ts:45 | the gateway order id has no dash, is at most 20 characters, and is a prefix of the de-dashed key |
| Payments.GatewayOrderIdIsKeyIff | services/api/src/payments/payments.service.ts:45 | the gateway order id equals the key exactly when the key is at most 20 characters with no dash |
| Payments.InitFields | services/api/src/payments/payments.service.ts:207-216 | the Init payload carries the order id and amount, and neither Token nor Password |
| Payments.SignedRequest | services/api/src/payments/payments.service.ts:218 | the token is added and every other field is as before |
| Payments.SignedRequestSigns | services/api/src/payments/payments.service.ts:218 | adding the token does not change the text that is signed, so the request's token verifies |
| Payments.Request | services/api/src/payments/payments.service.ts:185-249 | fails exactly when the terminal key or password is missing; otherwise the signed payload with its token |
| Payments.Answered | services/api/src/payments/payments.service.ts:53-60 | the record takes the reply's status, payment id and url, when present; other fields are kept |
| Payments.Init | services/api/src/payments/payments.service.ts:13-65 | a missing or closed type fails with no change; otherwise a pending record is stored, and the gateway's answer is noted only on success |
| Payments.InitKeepsGatesInOrder | services/api/src/payments/payments.service.ts:13-65 | a new payment keeps every record's processed and rolled-back stamps consistent |
| Payments.Find | services/api/src/payments/payments.service.ts:78-97 | the result is the first matching record from the start row, or nothing when none matches |
| Payments.Locate | services/api/src/payments/payments.service.ts:78-97 | a known PaymentId wins; otherwise a string OrderId finds the first matching record; a missing or non-string OrderId is not found or refused |
| Payments.Settle | services/api/src/payments/payments.service.ts:99-152 | a success status buys the subscription once and a failure status rolls it back once, each closing its gate; the status and PaymentId are noted |
| Payments.Webhook | services/api/src/payments/payments.service.ts:67-155 | a missing token, a missing password and a bad signature are refused; a located record with a storable status is settled; with `ByRecordKey` the record is located as the service does, with `ByGatewayOrderId` by the corrected comparison |
| Payments.WebhookKeepsGatesInOrder | services/api/src/payments/payments.service.ts:67-155 | a notification keeps every record's stamps consistent |
| Payments.SettledPaymentIsInert | services/api/src/payments/payments.service.ts:123-147 | a notification for a fully settled record does not touch subscriptions |
| Payments.LocateAfterNoting | services/api/src/payments/payments.service.ts:78-97 | after a notification is noted, the same notification finds the same record, under either way of comparing the OrderId |
| Payments.WebhookIsIdempotent | services/api/src/payments/payments.service.ts:67-155 | delivering the same notification again, at any later time, changes nothing |
| Payments.SettleClosed | services/api/src/payments/payments.service.ts:99-152 | a record with closed gates and noted status settles to no change |
| Payments.AppliedClosesGates | services/api/src/payments/payments.service.ts:123-147 | after settling, the gate of the applied action is closed |
| Payments.DeliverKeepsGates | services/api/src/payments/payments.service.ts:67-155 | any delivery, accepted or not, keeps the stamps consistent |
| Payments.PurchaseAtMostOnce | services/api/src/payments/payments.service.ts:123-130 | over any sequence of notifications, a payment buys its subscription at most once, and never after it is processed |
| Payments.RollbackAtMostOnce | services/api/src/payments/payments.service.ts:135-147 | over any sequence of notifications, a payment is rolled back at most once |
| Payments.OrderIdFallbackMisses | services/api/src/payments/payments.service.ts:89-93 | the lookup as written misses a record with key "pay-1" notified by its gateway order id, while the corrected one finds it |
| Payments.FallbackAsWrittenMissesStarted | services/api/src/payments/payments.service.ts:45-93 | as written, a payment whose key is long or has a dash is never found by its gateway order id |
| Payments.StartedPaymentIsLocated | services/api/src/payments/payments.service.ts:45-93 | with the corrected lookup, a started payment is always found by the order id the gateway was given |
| Payments.LocateAppended | services/api/src/payments/payments.service.ts:78-97 | a record appended after non-matching ones is found exactly when it matches |

## Left out

- Email, QR codes, the HTTP transport and authentication guards are not modelled. Only the controller's use of the authenticated user is kept.
- Parsing of JavaScript date strings is symbolic. `ParseKrasnoyarskDateTime` returns `ParseIso(text)` for text that carries a suffix, and `InvalidDate` stands for an invalid `Date`.
- The `Intl` formatting of dates for display is left out.
- SHA-256 and the gateway's HTTP reply to `Init` are parameters. So are the environment configuration and the clock (`now`).
- The session-generation range used when a changed schedule is regenerated comes from a scheduler that is not part of this model. `Groups.Update` takes that range as parameters.
- `localeCompare` in the token's field sort is modelled as character-code order. The two agree on the gateway's ASCII field names.
- JavaScript numbers are exact reals or unbounded integers. There is no floating-point rounding except the explicit `Math.round` of the amount.
- Concurrency and database transactions are left out. Each operation is atomic on one `Ledger` value, except where the service itself commits in steps (see Orders.CreateAsWritten, and Orders.UpdateStatus below).
- Read-only listing endpoints other than the ones modelled are left out, such as findAll and the execution of the paginated booking query. The order controller's webhook route is not part of this model.
- KrasnoyarskTime.BuildDateTimeForDay: reads an hour or minute with an optional sign, digits and a decimal fraction. JavaScript's `Number` also accepts an exponent (`1e1`) and `0x`, `0o` and `0b` prefixes; such text gives no instant here, where the service builds one.
- Subscriptions.Purchase: a new subscription expires whole 24-hour days after now. The service moves the server's local calendar date with `setDate`, which agrees unless the server's zone changes its offset within the period; the merge path adds milliseconds as modelled.
- Subscriptions.Select: Prisma's `findFirst` leaves rows that tie on every `orderBy` key in an unspecified order. The model breaks such ties by the lowest id, which stands for creation order. `Query`'s own contract assumes nothing about ties.
- KrasnoyarskTime.BuildDateTimeForDay: `Date.UTC` gives an invalid date once the instant lies beyond 8.64e15 ms from the epoch, for example with a huge hour text. The model still builds an instant there.
- KrasnoyarskTime.ToOffsetDateTime: the 16-character test on the raw text counts UTF-16 code units in JavaScript; the model counts characters. The two differ only on text outside the Basic Multilingual Plane.
- Bookings.CancelInternal: when the subscription to refund is missing, the model returns an error with the store unchanged. The service has by then already written CANCELLED and released the seats. The path cannot occur while the foreign key from booking to subscription holds.
- Orders.UpdateStatus: when a cancellation meets a product that no longer exists, the model returns NotFound with the store unchanged. The service restocks line by line and commits each step, so the earlier lines are already back in stock when the failing update throws. The path cannot occur while every order line's product row exists, which `Products.RemoveKeepsOrderLinesResolvable` shows removal preserves.
- Subscriptions.TotalBalance: the per-subscription listing that accompanies the total (id, name, remaining balance and expiry of each counted row) is not returned; only the total and the count are.
- Payments.TokenIgnoresFieldOrder: assumes the payload has no `Password` field, because a field of that name would collide with the appended password entry.

## Findings

| source | as written | input that shows it | evidently intended | confidence | as-written member | corrected member |
|---|---|---|---|---|---|---|
| services/api/src/orders/orders.service.ts:19-27 | each line's quantity is checked against stock on its own, and the decrements run after the debit and the order row are written | one product with stock 3 and two lines of 2 each: the screen passes, then the second decrement fails after the order, the debit and the first decrement | the screen compares each product's total quantity over all lines with its stock, so a failed order changes nothing | not executed | Orders.RepeatedLineOverdraws | Orders.Create |
| services/api/src/payments/payments.service.ts:89-93 | a notification without a known PaymentId is matched by comparing its OrderId with the record's own id | a record with id "pay-1" is sent to the gateway as OrderId "pay1" (dashes removed, cut to 20 characters); a notification carrying only that OrderId finds no record | the OrderId is compared with the order id the gateway was given for the record | not executed | Payments.FallbackAsWrittenMissesStarted | Payments.StartedPaymentIsLocated |

=== FILE: bookings.dfy ===
/**
 * The booking engine: reserving seats on a master-class or a group session,
 * paying on site or from a subscription with a 10% discount, and cancelling
 * with seat release and refund.
 */
module Bookings {
  import opened Wrappers
  import opened Ledger
  import Subscriptions
  import KrasnoyarskTime
  import Sorting

  /** A booking request as the service receives it; `userId` is the
      authenticated caller, when there is one. */
  datatype Request = Request(
    eventId: Option<Id>, groupSessionId: Option<Id>,
    participants: seq<Participant>, contactEmail: string,
    paymentMethod: PaymentMethod, notes: Option<string>,
    userId: Option<Id>, subscriptionId: Option<Id>)

  /** Exactly one target and at least one participant. */
  predicate WellFormed(req: Request) {
    req.eventId.Some? != req.groupSessionId.Some? && |req.participants| > 0
  }

  function TargetOf(req: Request): Target
    requires req.eventId.Some? || req.groupSessionId.Some?
  {
    if req.eventId.Some? then OnEvent(req.eventId.value) else OnSession(req.groupSessionId.value)
  }

  /** The subscription price: 10% off, without rounding. */
  function Discounted(price: Money): Money {
    price * 0.9
  }

  // Seats.

  /** The target's row exists. */
  predicate Present(L: Ledger, t: Target) {
    match t
    case OnEvent(e) => Has(L.events, e)
    case OnSession(s) => Has(L.sessions, s)
  }

  /** The target's row exists and so does the group a session belongs to,
      which holds the session's seat limit and price. */
  predicate Priced(L: Ledger, t: Target) {
    Present(L, t) && (t.OnSession? ==> Has(L.groups, Get(L.sessions, t.sessionId).groupId))
  }

  function Taken(L: Ledger, t: Target): int
    requires Present(L, t)
  {
    match t
    case OnEvent(e) => Get(L.events, e).currentParticipants
    case OnSession(s) => Get(L.sessions, s).currentParticipants
  }

  function Capacity(L: Ledger, t: Target): int
    requires Priced(L, t)
  {
    match t
    case OnEvent(e) => Get(L.events, e).maxParticipants
    case OnSession(s) => Get(L.groups, Get(L.sessions, s).groupId).maxParticipants
  }

  function UnitPrice(L: Ledger, t: Target): Money
    requires Priced(L, t)
  {
    match t
    case OnEvent(e) => Get(L.events, e).price
    case OnSession(s) => Get(L.groups, Get(L.sessions, s).groupId).price
  }

  /** `L'` differs from `L`, among events and sessions, only in the seat
      count of `t`, which moved by `delta`. */
  predicate SeatsMoved(L: Ledger, L': Ledger, t: Target, delta: int)
    requires Present(L, t)
  {
    |L'.events| == |L.events| && |L'.sessions| == |L.sessions| &&
    (forall e :: 0 <= e < |L.events| && OnEvent(e) != t ==> L'.events[e] == L.events[e]) &&
    (forall s :: 0 <= s < |L.sessions| && OnSession(s) != t ==> L'.sessions[s] == L.sessions[s]) &&
    match t
    case OnEvent(e) =>
      L'.events[e] == Some(Get(L.events, e).(currentParticipants := Get(L.events, e).currentParticipants + delta))
    case OnSession(s) =>
      L'.sessions[s] == Some(Get(L.sessions, s).(currentParticipants := Get(L.sessions, s).currentParticipants + delta))
  }

  /** Move the seat count of `t` by `delta`. */
  function MoveSeats(L: Ledger, t: Target, delta: int): (r: Ledger)
    requires Present(L, t)
    ensures Present(r, t) && Taken(r, t) == Taken(L, t) + delta
    ensures SeatsMoved(L, r, t, delta)
    ensures r == L.(events := r.events, sessions := r.sessions)
  {
    match t
    case OnEvent(e) =>
      var ev := Get(L.events, e);
      L.(events := Put(L.events, e, ev.(currentParticipants := ev.currentParticipants + delta)))
    case OnSession(s) =>
      var se := Get(L.sessions, s);
      L.(sessions := Put(L.sessions, s, se.(currentParticipants := se.currentParticipants + delta)))
  }

  /** Every event, and every session whose group exists, has a seat count
      between 0 and its limit. */
  predicate SeatsWithinCapacity(L: Ledger) {
    (forall e :: 0 <= e < |L.events| && L.events[e].Some? ==>
      0 <= L.events[e].value.currentParticipants <= L.events[e].value.maxParticipants) &&
    (forall s :: 0 <= s < |L.sessions| && L.sessions[s].Some? && Has(L.groups, L.sessions[s].value.groupId) ==>
      0 <= L.sessions[s].value.currentParticipants <= Get(L.groups, L.sessions[s].value.groupId).maxParticipants)
  }

  // Admission.

  /** The target takes bookings paid this way: a PUBLISHED event, or a
      session that is not CANCELLED, paid from a subscription, of an active group. */
  predicate Bookable(L: Ledger, t: Target, pay: PaymentMethod) {
    match t
    case OnEvent(e) =>
      Has(L.events, e) && Get(L.events, e).status == EventStatus.Published
    case OnSession(s) =>
      Has(L.sessions, s) && Get(L.sessions, s).status != SessionStatus.Cancelled &&
      pay == BySubscription &&
      Has(L.groups, Get(L.sessions, s).groupId) && Get(L.groups, Get(L.sessions, s).groupId).isActive
  }

  /** The first reason, in the service's order of checks, why the target
      refuses the booking. */
  function Refusal(L: Ledger, t: Target, pay: PaymentMethod): (r: Option<Error>)
    ensures r.None? <==> Bookable(L, t, pay)
    ensures !Present(L, t) ==> r == Some(NotFound)
    ensures r.None? ==> Priced(L, t)
  {
    match t
    case OnEvent(e) =>
      if !Has(L.events, e) then Some(NotFound)
      else if Get(L.events, e).status != EventStatus.Published then Some(Unavailable)
      else None
    case OnSession(s) =>
      if !Has(L.sessions, s) then Some(NotFound)
      else
        var session := Get(L.sessions, s);
        if session.status == SessionStatus.Cancelled then Some(Unavailable)
        else if pay != BySubscription then Some(SubscriptionRequired)
        else if !Has(L.groups, session.groupId) then Some(NotFound)
        else if !Get(L.groups, session.groupId).isActive then Some(Unavailable)
        else None
  }

  // Subscription choice.

  /** `sid` is a subscription the booking may be paid from: the one asked
      for when it belongs to the user, is ACTIVE and covers `due`; otherwise
      an ACTIVE one of the user covering `due` that no other such one beats
      on remaining balance. */
  ghost predicate Payable(L: Ledger, user: Id, asked: Option<Id>, due: Money, sid: Id) {
    Subscriptions.EligibleAt(L.subscriptions, sid, user, Subscriptions.RichestActive(Some(due))) &&
    match asked
    case Some(a) => sid == a
    case None =>
      forall j: Id :: Subscriptions.EligibleAt(L.subscriptions, j, user, Subscriptions.RichestActive(Some(due))) ==>
        L.subscriptions[j].value.remainingBalance <= L.subscriptions[sid].value.remainingBalance
  }

  /** The subscription the service debits, if any qualifies. */
  function ChooseSubscription(L: Ledger, user: Id, asked: Option<Id>, due: Money): (r: Option<Id>)
    ensures r.Some? ==> Payable(L, user, asked, due, r.value)
    ensures r.None? ==> forall sid: Id :: !Payable(L, user, asked, due, sid)
  {
    match asked
    case Some(a) =>
      if Subscriptions.EligibleAt(L.subscriptions, a, user, Subscriptions.RichestActive(Some(due))) then Some(a) else None
    case None =>
      var q := Subscriptions.Query(L.subscriptions, user, Subscriptions.RichestActive(Some(due)));
      assert q.None? ==> forall sid: Id :: !Payable(L, user, asked, due, sid) by {
        if q.None? {
          forall sid: Id ensures !Payable(L, user, asked, due, sid) {
            assert !Subscriptions.EligibleAt(L.subscriptions, sid, user, Subscriptions.RichestActive(Some(due)));
          }
        }
      }
      q
  }

  /** What row `s` adds to the balance quoted to `user`: the remaining
      balance of one of their ACTIVE subscriptions, whatever its amount. */
  function ActiveShare(s: Option<Subscription>, user: Id): Money {
    if s.Some? && Subscriptions.Eligible(s.value, user, Subscriptions.RichestActive(None)) then s.value.remainingBalance else 0.0
  }

  /** The shares of the first `n` rows, row by row. */
  function Shares(t: Table<Subscription>, user: Id, n: nat): seq<Money>
    requires n <= |t|
  {
    seq(n, j requires 0 <= j < n => ActiveShare(t[j], user))
  }

  /** The ids of the user's ACTIVE subscriptions among the first `n` rows. */
  ghost function ActiveIds(t: Table<Subscription>, user: Id, n: nat): set<Id> {
    set j: Id | j < n && Subscriptions.EligibleAt(t, j, user, Subscriptions.RichestActive(None))
  }

  lemma ActiveHoldingsStep(t: Table<Subscription>, user: Id, n: nat)
    requires 0 < n <= |t|
    ensures Total(Shares(t, user, n)) == Total(Shares(t, user, n - 1)) + ActiveShare(t[n - 1], user)
    ensures ActiveIds(t, user, n) ==
      ActiveIds(t, user, n - 1) + (if Subscriptions.EligibleAt(t, n - 1, user, Subscriptions.RichestActive(None)) then {n - 1} else {})
    ensures n - 1 !in ActiveIds(t, user, n - 1)
  {
    assert Shares(t, user, n)[..n - 1] == Shares(t, user, n - 1);
  }

  /** Sum and count of the user's ACTIVE subscriptions among the first `n`
      rows, quoted in the insufficient-balance message: the sum of every
      row's share and the number of such rows. */
  function ActiveHoldings(t: Table<Subscription>, user: Id, n: nat): (r: (Money, nat))
    requires n <= |t|
    ensures r.0 == Total(Shares(t, user, n))
    ensures r.1 == |ActiveIds(t, user, n)|
    ensures r.1 <= n
    ensures r.1 == 0 ==> r.0 == 0.0
  {
    if n == 0 then
      assert ActiveIds(t, user, 0) == {};
      (0.0, 0)
    else
      var (sum, count) := ActiveHoldings(t, user, n - 1);
      ActiveHoldingsStep(t, user, n);
      if Subscriptions.EligibleAt(t, n - 1, user, Subscriptions.RichestActive(None)) then
        (sum + t[n - 1].value.remainingBalance, count + 1)
      else (sum, count)
  }

  // Create.

  /** The request passes every check that comes before payment. */
  predicate Admitted(L: Ledger, req: Request) {
    WellFormed(req) && Bookable(L, TargetOf(req), req.paymentMethod) &&
    Capacity(L, TargetOf(req)) - Taken(L, TargetOf(req)) >= |req.participants|
  }

  /** What a subscription payment costs: the discounted price of all seats. */
  function Due(L: Ledger, req: Request): Money
    requires WellFormed(req) && Priced(L, TargetOf(req))
  {
    Discounted(UnitPrice(L, TargetOf(req)) * Count(|req.participants|))
  }

  function NewBooking(req: Request, t: Target, subscription: Option<Id>, price: Money): Booking {
    Booking(req.userId, t, None, subscription, BookingStatus.Pending,
            |req.participants|, price, req.paymentMethod,
            req.participants, req.contactEmail, req.notes)
  }

  /**
   * Book `req.participants` onto one event or session. A subscription
   * payment is discounted by 10% and debited from the chosen subscription.
   * Returns the new ledger and the new booking's id.
   */
  function Create(L: Ledger, req: Request): (r: Result<(Ledger, Id), Error>)
    ensures !WellFormed(req) ==> r == Err(InvalidRequest)
    ensures r.Ok? ==> WellFormed(req) && Bookable(L, TargetOf(req), req.paymentMethod)
    ensures WellFormed(req) && !Present(L, TargetOf(req)) ==> r == Err(NotFound)
    // capacity
    ensures (WellFormed(req) && Bookable(L, TargetOf(req), req.paymentMethod) &&
             Capacity(L, TargetOf(req)) - Taken(L, TargetOf(req)) < |req.participants|) ==>
            r == Err(CapacityExceeded(Capacity(L, TargetOf(req)) - Taken(L, TargetOf(req))))
    ensures r.Ok? ==> Admitted(L, req)
    // the payment, once admitted
    ensures Admitted(L, req) ==> r == Pay(L, req)
  {
    if !WellFormed(req) then Err(InvalidRequest)
    else
      var t := TargetOf(req);
      var n := |req.participants|;
      match Refusal(L, t, req.paymentMethod)
      case Some(e) => Err(e)
      case None =>
        var free := Capacity(L, t) - Taken(L, t);
        if free < n then Err(CapacityExceeded(free))
        else Pay(L, req)
  }

  /** The payment step of Create, once the request is admitted: debit the
      chosen subscription, or record an on-site payment at the full price. */
  function Pay(L: Ledger, req: Request): (r: Result<(Ledger, Id), Error>)
    requires Admitted(L, req)
    ensures r.Ok? ==> SeatsMoved(L, r.value.0, TargetOf(req), |req.participants|)
    ensures r.Ok? ==>
      var (L', id) := r.value;
      var price := UnitPrice(L, TargetOf(req)) * Count(|req.participants|);
      id == |L.bookings| && Has(L'.bookings, id) &&
      L'.bookings == Append(L.bookings, Get(L'.bookings, id)) &&
      Get(L'.bookings, id).status == BookingStatus.Pending &&
      Get(L'.bookings, id).target == TargetOf(req) &&
      Get(L'.bookings, id).userId == req.userId &&
      Get(L'.bookings, id).participantsCount == |req.participants| &&
      Get(L'.bookings, id).paymentMethod == req.paymentMethod &&
      Get(L'.bookings, id).totalPrice == (if req.paymentMethod == BySubscription then Due(L, req) else price)
    ensures req.paymentMethod == BySubscription && req.userId.None? ==> r == Err(Unauthenticated)
    ensures (req.paymentMethod == BySubscription && req.userId.Some? &&
             forall sid: Id :: !Payable(L, req.userId.value, req.subscriptionId, Due(L, req), sid)) ==>
            var user, n := req.userId.value, |L.subscriptions|;
            r == Err(InsufficientBalance(Due(L, req), Total(Shares(L.subscriptions, user, n)),
                                         |ActiveIds(L.subscriptions, user, n)|))
    ensures r.Ok? && req.paymentMethod == BySubscription ==>
      var (L', id) := r.value;
      var sid := Get(L'.bookings, id).subscriptionId;
      req.userId.Some? && sid.Some? &&
      Payable(L, req.userId.value, req.subscriptionId, Due(L, req), sid.value) &&
      L'.subscriptions == Put(L.subscriptions, sid.value,
        Subscriptions.Debit(Get(L.subscriptions, sid.value), Due(L, req), L.now))
    ensures r.Ok? && req.paymentMethod != BySubscription ==>
      r.value.0.subscriptions == L.subscriptions &&
      Get(r.value.0.bookings, r.value.1).subscriptionId == req.subscriptionId
    ensures r.Ok? ==> r.value.0 == L.(bookings := r.value.0.bookings, events := r.value.0.events,
                                      sessions := r.value.0.sessions, subscriptions := r.value.0.subscriptions)
    ensures r.Err? ==> req.paymentMethod == BySubscription
  {
    var t := TargetOf(req);
    if req.paymentMethod == BySubscription then
      if req.userId.None? then Err(Unauthenticated)
      else
        var due := Due(L, req);
        match ChooseSubscription(L, req.userId.value, req.subscriptionId, due)
        case None =>
          var (held, count) := ActiveHoldings(L.subscriptions, req.userId.value, |L.subscriptions|);
          Err(InsufficientBalance(due, held, count))
        case Some(sid) =>
          var debited := Subscriptions.Debit(Get(L.subscriptions, sid), due, L.now);
          Ok(Record(L, NewBooking(req, t, Some(sid), due), Put(L.subscriptions, sid, debited)))
    else
      Ok(Record(L, NewBooking(req, t, req.subscriptionId, UnitPrice(L, t) * Count(|req.participants|)),
                L.subscriptions))
  }

  /** Store booking `b`, take its seats on its target and install the
      subscriptions table `subs`. */
  function Record(L: Ledger, b: Booking, subs: Table<Subscription>): (r: (Ledger, Id))
    requires Present(L, b.target)
    ensures r.1 == |L.bookings| && r.0.bookings == Append(L.bookings, b)
    ensures SeatsMoved(L, r.0, b.target, b.participantsCount)
    ensures r.0 == L.(bookings := r.0.bookings, events := r.0.events, sessions := r.0.sessions, subscriptions := subs)
  {
    var L1 := L.(subscriptions := subs, bookings := Append(L.bookings, b));
    assert Present(L1, b.target);
    (MoveSeats(L1, b.target, b.participantsCount), |L.bookings|)
  }

  // Cancel.

  /** When the booked occasion starts, if its row still exists. */
  function StartOf(L: Ledger, t: Target): Option<int> {
    match t
    case OnEvent(e) => if Has(L.events, e) then Some(Get(L.events, e).startDate) else None
    case OnSession(s) => if Has(L.sessions, s) then Some(Get(L.sessions, s).date) else None
  }

  /** Cancellation by a user must come at least this long before the start. */
  const CancellationNotice: int := 86_400_000

  /** A user cancel of booking `b` comes too late. */
  predicate TooLate(L: Ledger, b: Booking) {
    StartOf(L, b.target).Some? && StartOf(L, b.target).value - L.now < CancellationNotice
  }

  /** Seats the cancel gives back: all of them, unless the count would go negative. */
  function Released(L: Ledger, b: Booking): int
    requires Present(L, b.target)
  {
    if Taken(L, b.target) >= b.participantsCount then b.participantsCount else 0
  }

  /** The refund a cancel makes: the booking's price, back to the
      subscription it names, for subscription payments. */
  predicate Refunds(b: Booking) {
    b.paymentMethod == BySubscription && b.subscriptionId.Some?
  }

  /**
   * Cancel booking `id`: release its seats, refund a subscription payment,
   * mark it CANCELLED. Cancelling a cancelled booking changes nothing. A user
   * cancel (`enforceWindow`) is refused less than 24 hours before the start.
   */
  function CancelInternal(L: Ledger, id: Id, enforceWindow: bool): (r: Result<Ledger, Error>)
    requires Has(L.bookings, id)
    ensures Get(L.bookings, id).status == BookingStatus.Cancelled ==> r == Ok(L)
    ensures Get(L.bookings, id).status != BookingStatus.Cancelled && enforceWindow && TooLate(L, Get(L.bookings, id)) ==>
      r == Err(CancellationWindowExpired((StartOf(L, Get(L.bookings, id).target).value - L.now) / KrasnoyarskTime.HourMs))
    ensures r.Err? ==> (enforceWindow && r.error.CancellationWindowExpired?) || r.error == NotFound
    ensures r.Ok? && Get(L.bookings, id).status != BookingStatus.Cancelled ==>
      var b := Get(L.bookings, id);
      var L' := r.value;
      !(enforceWindow && TooLate(L, b)) &&
      L'.bookings == Put(L.bookings, id, b.(status := BookingStatus.Cancelled)) &&
      (Present(L, b.target) ==> SeatsMoved(L, L', b.target, -Released(L, b))) &&
      (!Present(L, b.target) ==> L'.events == L.events && L'.sessions == L.sessions) &&
      (Refunds(b) ==>
         Has(L.subscriptions, b.subscriptionId.value) &&
         L'.subscriptions == Put(L.subscriptions, b.subscriptionId.value,
           Subscriptions.Credit(Get(L.subscriptions, b.subscriptionId.value), b.totalPrice, L.now))) &&
      (!Refunds(b) ==> L'.subscriptions == L.subscriptions)
    ensures r.Ok? ==> r.value == L.(bookings := r.value.bookings, events := r.value.events,
                                    sessions := r.value.sessions, subscriptions := r.value.subscriptions)
  {
    var b := Get(L.bookings, id);
    if b.status == BookingStatus.Cancelled then Ok(L)
    else if enforceWindow && TooLate(L, b) then
      Err(CancellationWindowExpired((StartOf(L, b.target).value - L.now) / KrasnoyarskTime.HourMs))
    else
      var L1 := if Present(L, b.target) then MoveSeats(L, b.target, -Released(L, b)) else L;
      if Refunds(b) && !Has(L1.subscriptions, b.subscriptionId.value) then Err(NotFound)
      else
        var L2 := if Refunds(b) then
                    var sid := b.subscriptionId.value;
                    L1.(subscriptions := Put(L1.subscriptions, sid, Subscriptions.Credit(Get(L1.subscriptions, sid), b.totalPrice, L.now)))
                  else L1;
        Ok(L2.(bookings := Put(L2.bookings, id, b.(status := BookingStatus.Cancelled))))
  }

  /** Set the status of booking `id`; moving a live booking to CANCELLED is
      a user cancel, every other change only writes the status. */
  function UpdateStatus(L: Ledger, id: Id, status: BookingStatus): (r: Result<Ledger, Error>)
    ensures !Has(L.bookings, id) ==> r == Err(NotFound)
    ensures Has(L.bookings, id) && status == BookingStatus.Cancelled && Get(L.bookings, id).status != BookingStatus.Cancelled ==>
      r == CancelInternal(L, id, true)
    ensures Has(L.bookings, id) && (status != BookingStatus.Cancelled || Get(L.bookings, id).status == BookingStatus.Cancelled) ==>
      r.Ok? && r.value == L.(bookings := Put(L.bookings, id, Get(L.bookings, id).(status := status)))
  {
    if !Has(L.bookings, id) then Err(NotFound)
    else
      var b := Get(L.bookings, id);
      if status == BookingStatus.Cancelled && b.status != BookingStatus.Cancelled then CancelInternal(L, id, true)
      else Ok(L.(bookings := Put(L.bookings, id, b.(status := status))))
  }

  /** A user cancel. */
  function Cancel(L: Ledger, id: Id): (r: Result<Ledger, Error>)
    ensures r.Ok? ==> Has(r.value.bookings, id) && Get(r.value.bookings, id).status == BookingStatus.Cancelled
    ensures Has(L.bookings, id) && Get(L.bookings, id).status != BookingStatus.Cancelled && TooLate(L, Get(L.bookings, id)) ==>
      r.Err? && r.error.CancellationWindowExpired?
  {
    UpdateStatus(L, id, BookingStatus.Cancelled)
  }

  /** An administrator's cancel: no notice period. */
  function AdminCancel(L: Ledger, id: Id): (r: Result<Ledger, Error>)
    ensures !Has(L.bookings, id) ==> r == Err(NotFound)
    ensures r.Err? ==> r.error == NotFound
    ensures r.Ok? ==> Has(r.value.bookings, id) && Get(r.value.bookings, id).status == BookingStatus.Cancelled
  {
    if !Has(L.bookings, id) then Err(NotFound) else CancelInternal(L, id, false)
  }

  // Properties across operations.

  /** A booking made directly never pushes a seat count outside [0, limit]. */
  lemma CreatePreservesSeatBounds(L: Ledger, req: Request)
    requires SeatsWithinCapacity(L) && Create(L, req).Ok?
    ensures SeatsWithinCapacity(Create(L, req).value.0)
  {
    var L' := Create(L, req).value.0;
    var t := TargetOf(req);
    assert L'.groups == L.groups;
    match t
    case OnEvent(e) =>
      assert forall s :: 0 <= s < |L.sessions| ==> L'.sessions[s] == L.sessions[s];
    case OnSession(s0) =>
      assert forall e :: 0 <= e < |L.events| ==> L'.events[e] == L.events[e];
      forall s | 0 <= s < |L'.sessions| && L'.sessions[s].Some? && Has(L'.groups, L'.sessions[s].value.groupId)
        ensures 0 <= L'.sessions[s].value.currentParticipants <= Get(L'.groups, L'.sessions[s].value.groupId).maxParticipants
      {
        if s != s0 {
          assert L'.sessions[s] == L.sessions[s];
        }
      }
  }

  /** Cancelling never pushes a seat count outside [0, limit]. */
  lemma CancelPreservesSeatBounds(L: Ledger, id: Id, enforceWindow: bool)
    requires SeatsWithinCapacity(L) && Has(L.bookings, id) && Get(L.bookings, id).participantsCount >= 0
    requires CancelInternal(L, id, enforceWindow).Ok?
    ensures SeatsWithinCapacity(CancelInternal(L, id, enforceWindow).value)
  {
    var L' := CancelInternal(L, id, enforceWindow).value;
    var b := Get(L.bookings, id);
    if b.status != BookingStatus.Cancelled && Present(L, b.target) {
      assert L'.groups == L.groups;
      match b.target
      case OnEvent(e0) =>
        assert forall s :: 0 <= s < |L.sessions| ==> L'.sessions[s] == L.sessions[s];
        forall e | 0 <= e < |L'.events| && L'.events[e].Some?
          ensures 0 <= L'.events[e].value.currentParticipants <= L'.events[e].value.maxParticipants
        {
          if e != e0 {
            assert L'.events[e] == L.events[e];
          }
        }
      case OnSession(s0) =>
        assert forall e :: 0 <= e < |L.events| ==> L'.events[e] == L.events[e];
        forall s | 0 <= s < |L'.sessions| && L'.sessions[s].Some? && Has(L'.groups, L'.sessions[s].value.groupId)
          ensures 0 <= L'.sessions[s].value.currentParticipants <= Get(L'.groups, L'.sessions[s].value.groupId).maxParticipants
        {
          if s != s0 {
            assert L'.sessions[s] == L.sessions[s];
          }
        }
    }
  }

  /**
   * A direct booking cancelled by an administrator leaves the seat count and
   * the paying subscription's remaining balance as they were; a subscription
   * that was positive before is restored entirely, apart from its update stamp.
   */
  lemma CreateThenAdminCancelRestores(L: Ledger, req: Request)
    requires Create(L, req).Ok?
    requires Taken(L, TargetOf(req)) >= 0
    ensures var (L1, id) := Create(L, req).value;
      AdminCancel(L1, id).Ok? &&
      var L2 := AdminCancel(L1, id).value;
      Present(L2, TargetOf(req)) && Taken(L2, TargetOf(req)) == Taken(L, TargetOf(req)) &&
      Get(L2.bookings, id).status == BookingStatus.Cancelled &&
      (req.paymentMethod == BySubscription ==>
        var sid := Get(L1.bookings, id).subscriptionId.value;
        Has(L2.subscriptions, sid) &&
        Get(L2.subscriptions, sid).remainingBalance == Get(L.subscriptions, sid).remainingBalance &&
        (Get(L.subscriptions, sid).remainingBalance > 0.0 ==>
           Get(L2.subscriptions, sid) == Get(L.subscriptions, sid).(updatedAt := L.now))) &&
      (req.paymentMethod != BySubscription ==> L2.subscriptions == L.subscriptions)
  {
    var (L1, id) := Create(L, req).value;
    var t := TargetOf(req);
    var b := Get(L1.bookings, id);
    assert Present(L1, t) && Taken(L1, t) == Taken(L, t) + |req.participants|;
    assert Released(L1, b) == |req.participants|;
    var L2 := CancelInternal(L1, id, false).value;
    assert Taken(L2, t) == Taken(L1, t) - |req.participants|;
    if req.paymentMethod == BySubscription {
      var sid := b.subscriptionId.value;
      var s := Get(L.subscriptions, sid);
      var due := Due(L, req);
      assert Get(L1.subscriptions, sid) == Subscriptions.Debit(s, due, L.now);
      assert Get(L2.subscriptions, sid) == Subscriptions.Credit(Subscriptions.Debit(s, due, L.now), due, L.now);
      if s.remainingBalance > 0.0 {
        Subscriptions.CreditUndoesDebit(s, due, L.now);
      }
    }
  }

  /** A second user cancel of the same booking changes nothing more. */
  lemma CancelIsIdempotent(L: Ledger, id: Id)
    requires Cancel(L, id).Ok?
    ensures Cancel(Cancel(L, id).value, id) == Cancel(L, id)
  {
    var L1 := Cancel(L, id).value;
    assert Get(L1.bookings, id).status == BookingStatus.Cancelled;
    assert Put(L1.bookings, id, Get(L1.bookings, id).(status := BookingStatus.Cancelled)) == L1.bookings;
  }

  // Upcoming bookings.

  /** Booking `id` is one of the user's live bookings on a master-class that
      has not started yet. */
  predicate Upcoming(L: Ledger, user: Id, id: int) {
    0 <= id < |L.bookings| && L.bookings[id].Some? &&
    var b := L.bookings[id].value;
    b.userId == Some(user) &&
    (b.status == BookingStatus.Pending || b.status == BookingStatus.Confirmed) &&
    b.target.OnEvent? && Has(L.events, b.target.eventId) &&
    Get(L.events, b.target.eventId).startDate >= L.now
  }

  /** Start of the master-class a booking is for (0 when there is none). */
  function EventStart(L: Ledger, id: Id): int {
    if id < |L.bookings| && L.bookings[id].Some? && L.bookings[id].value.target.OnEvent? &&
       Has(L.events, L.bookings[id].value.target.eventId)
    then Get(L.events, L.bookings[id].value.target.eventId).startDate
    else 0
  }

  /** Bookings ordered by the start of their master-class. */
  function ByStart(L: Ledger): nat -> int {
    (id: nat) => EventStart(L, id)
  }

  predicate SortedByStart(L: Ledger, xs: seq<Id>) {
    Sorting.SortedBy(ByStart(L), xs)
  }

  /** The upcoming bookings among the first `n`, earliest start first. */
  function CollectUpcoming(L: Ledger, user: Id, n: nat): (r: seq<Id>)
    requires n <= |L.bookings|
    ensures SortedByStart(L, r)
    ensures forall x :: multiset(r)[x] == (if x < n && Upcoming(L, user, x) then 1 else 0)
  {
    if n == 0 then []
    else
      var earlier := CollectUpcoming(L, user, n - 1);
      if Upcoming(L, user, n - 1) then Sorting.InsertBy(ByStart(L), earlier, n - 1) else earlier
  }

  /** The user's upcoming master-class bookings, soonest first, each once. */
  function UpcomingUserBookings(L: Ledger, user: Id): (r: seq<Id>)
    ensures forall x :: x in r <==> Upcoming(L, user, x)
    ensures forall i, j :: 0 <= i < j < |r| ==> r[i] != r[j]
    ensures SortedByStart(L, r)
  {
    var r := CollectUpcoming(L, user, |L.bookings|);
    assert forall x :: x in r <==> multiset(r)[x] > 0;
    Sorting.SingletonsAreDistinct(r);
    r
  }
}

=== FILE: bookings_controller.dfy ===
/**
 * The HTTP layer in front of the booking engine: the status filter parser,
 * the authentication gate on subscription bookings, the paginated-list
 * query normalisation and the caller's upcoming bookings.
 */
module BookingsController {
  import opened Wrappers
  import opened Ledger
  import Bookings

  /** The wire name of a booking status. */
  function StatusName(s: BookingStatus): string {
    match s
    case Pending => "PENDING"
    case Confirmed => "CONFIRMED"
    case Cancelled => "CANCELLED"
    case Attended => "ATTENDED"
  }

  /** The statuses a query may filter on. */
  const Allowed: set<string> := {"PENDING", "CONFIRMED", "CANCELLED", "ATTENDED"}

  /** A status filter from the query string: missing, empty or unknown
      values mean "no filter". */
  function NormalizeStatus(status: Option<string>): (r: Option<BookingStatus>)
    ensures r.Some? <==> status.Some? && status.value in Allowed
    ensures r.Some? ==> StatusName(r.value) == status.value
  {
    match status
    case None => None
    case Some(text) =>
      if text == "PENDING" then Some(BookingStatus.Pending)
      else if text == "CONFIRMED" then Some(BookingStatus.Confirmed)
      else if text == "CANCELLED" then Some(BookingStatus.Cancelled)
      else if text == "ATTENDED" then Some(BookingStatus.Attended)
      else None
  }

  /** Every status survives the trip to its wire name and back. */
  lemma NormalizeStatusRoundTrip(s: BookingStatus)
    ensures NormalizeStatus(Some(StatusName(s))) == Some(s)
  {
  }

  /** A booking request body. It may carry a `userId` of its own, which the
      controller never uses. */
  datatype Body = Body(
    eventId: Option<Id>, groupSessionId: Option<Id>,
    participants: seq<Participant>, contactEmail: string,
    paymentMethod: PaymentMethod, notes: Option<string>,
    subscriptionId: Option<Id>, userId: Option<Id>)

  /** The service request built from the body, with the caller as user. */
  function ToRequest(body: Body, caller: Option<Id>): (req: Bookings.Request)
    ensures req.userId == caller
  {
    Bookings.Request(body.eventId, body.groupSessionId, body.participants, body.contactEmail,
                     body.paymentMethod, body.notes, caller, body.subscriptionId)
  }

  /**
   * POST /bookings: anonymous callers cannot pay from a subscription; the
   * booking's user is always the authenticated caller.
   */
  function CreateBooking(L: Ledger, caller: Option<Id>, body: Body): (r: Result<(Ledger, Id), Error>)
    ensures body.paymentMethod == BySubscription && caller.None? ==> r == Err(Unauthenticated)
    ensures r.Ok? ==> Has(r.value.0.bookings, r.value.1) && Get(r.value.0.bookings, r.value.1).userId == caller
    ensures r.Ok? && body.paymentMethod == BySubscription ==> caller.Some?
  {
    if body.paymentMethod == BySubscription && caller.None? then Err(Unauthenticated)
    else Bookings.Create(L, ToRequest(body, caller))
  }

  /** Whatever user id the body names, the outcome is the same. */
  lemma CreateBookingIgnoresBodyUser(L: Ledger, caller: Option<Id>, body: Body, claimed: Option<Id>)
    ensures CreateBooking(L, caller, body.(userId := claimed)) == CreateBooking(L, caller, body)
  {
  }

  /** The filter the paginated list passes to the service. */
  datatype PageQuery = PageQuery(page: int, limit: int, status: Option<BookingStatus>, eventOnly: bool)

  /** GET /bookings/paginated: page and limit default to 1 and 20;
      status "all" means no filter; only "true" and "1" turn eventOnly on. */
  function PaginatedQuery(page: Option<int>, limit: Option<int>, status: Option<string>, eventOnly: Option<string>): (q: PageQuery)
    ensures q.eventOnly <==> eventOnly == Some("true") || eventOnly == Some("1")
    ensures status == Some("all") ==> q.status.None?
    ensures status != Some("all") ==> q.status == NormalizeStatus(status)
    ensures q.page == page.GetOr(1) && q.limit == limit.GetOr(20)
  {
    var filter := if status.Some? && status.value != "" && status.value != "all" then status else None;
    PageQuery(page.GetOr(1), limit.GetOr(20), NormalizeStatus(filter),
              eventOnly == Some("true") || eventOnly == Some("1"))
  }

  /** GET /bookings/my/upcoming: nothing for anonymous callers. */
  function MyUpcomingBookings(L: Ledger, caller: Option<Id>): (r: seq<Id>)
    ensures caller.None? ==> r == []
    ensures caller.Some? ==> forall x :: x in r <==> Bookings.Upcoming(L, caller.value, x)
    ensures caller.Some? ==> Bookings.SortedByStart(L, r)
  {
    if caller.None? then [] else Bookings.UpcomingUserBookings(L, caller.value)
  }
}

=== FILE: enrollments.dfy ===
/**
 * Enrollment in a recurring group: joining (with the fan-out of bookings
 * onto every upcoming session), the ACTIVE / PAUSED / CANCELLED lifecycle,
 * and the member's view of the upcoming sessions.
 */
module Enrollments {
  import opened Wrappers
  import opened Ledger
  import Subscriptions
  import opened GroupBookings
  import Sorting

  datatype EnrollRequest = EnrollRequest(
    groupId: Id, participants: seq<Participant>, contactEmail: string, notes: Option<string>)

  /** Enrollment row `j` is an ACTIVE enrollment of `user` in `groupId`. */
  predicate ActiveAt(L: Ledger, j: int, user: Id, groupId: Id) {
    0 <= j < |L.enrollments| && L.enrollments[j].Some? &&
    L.enrollments[j].value.userId == user && L.enrollments[j].value.groupId == groupId &&
    L.enrollments[j].value.status == EnrollmentStatus.Active
  }

  predicate ActiveIn(L: Ledger, user: Id, groupId: Id) {
    exists j :: 0 <= j < |L.enrollments| && ActiveAt(L, j, user, groupId)
  }

  /** No user holds two ACTIVE enrollments in the same group. */
  ghost predicate AtMostOneActive(L: Ledger) {
    forall i, j, user, groupId :: ActiveAt(L, i, user, groupId) && ActiveAt(L, j, user, groupId) ==> i == j
  }

  /** Session `sid` is upcoming in the enrollment's group and the member
      has no booking on it yet. */
  predicate Needed(L: Ledger, sid: Id, e: Enrollment) {
    Upcoming(L, sid, e.groupId) && !HasBookingFor(L.bookings, sid, e.userId)
  }

  /** New booking row `j` is the fan-out booking of `eid` on a session that
      needed one. */
  predicate FannedOut(L: Ledger, t: Table<Booking>, j: int, eid: Id, e: Enrollment, price: Money) {
    0 <= j < |t| && t[j].Some? && t[j].value.target.OnSession? &&
    Needed(L, t[j].value.target.sessionId, e) &&
    t[j].value == FanOutBooking(e, eid, t[j].value.target.sessionId, price)
  }

  /** `L'` differs from `L` only by bookings appended after the old ones
      and by seat counts that rose by exactly the seats of those bookings. */
  ghost predicate OnlyFanOutAdded(L: Ledger, L': Ledger) {
    L' == L.(bookings := L'.bookings, sessions := L'.sessions) &&
    |L'.bookings| >= |L.bookings| && (forall j :: 0 <= j < |L.bookings| ==> L'.bookings[j] == L.bookings[j]) &&
    |L'.sessions| == |L.sessions| &&
    forall j :: 0 <= j < |L.sessions| ==>
      (L.sessions[j].None? ==> L'.sessions[j].None?) &&
      (L.sessions[j].Some? ==> L'.sessions[j] == Some(L.sessions[j].value.(currentParticipants :=
         L.sessions[j].value.currentParticipants + SeatsFrom(L'.bookings, |L.bookings|, j))))
  }

  /** What the fan-out loop has achieved once sessions `0..s` are visited. */
  ghost predicate Progress(L: Ledger, r: Ledger, s: int, eid: Id, price: Money)
    requires Has(L.enrollments, eid)
  {
    var e := Get(L.enrollments, eid);
    0 <= s <= |L.sessions| &&
    OnlyFanOutAdded(L, r) && r.enrollments == L.enrollments && r.now == L.now &&
    (forall j :: |L.bookings| <= j < |r.bookings| ==> FannedOut(L, r.bookings, j, eid, e, price)) &&
    (forall j :: |L.bookings| <= j < |r.bookings| ==> SessionOf(r.bookings[j]) < s) &&
    (forall i, j :: |L.bookings| <= i < j < |r.bookings| ==> SessionOf(r.bookings[i]) < SessionOf(r.bookings[j])) &&
    (forall x: Id :: x < s && Upcoming(L, x, e.groupId) ==> HasBookingFor(r.bookings, x, e.userId)) &&
    (forall x: Id :: x >= s ==> (HasBookingFor(r.bookings, x, e.userId) <==> HasBookingFor(L.bookings, x, e.userId))) &&
    ((forall sid: Id :: !Needed(L, sid, e)) ==> r == L)
  }

  /** One turn of the fan-out loop: book session `s` if it needs it. */
  function Visit(r: Ledger, s: Id, eid: Id, price: Money): (r': Ledger)
    requires Has(r.enrollments, eid)
    ensures r' == r || (Has(r.sessions, s) && r' == BookSession(r, s, eid, price))
  {
    var e := Get(r.enrollments, eid);
    if Upcoming(r, s, e.groupId) && !HasBookingFor(r.bookings, s, e.userId) then BookSession(r, s, eid, price)
    else r
  }

  /** Booking one more session keeps the seat counts in step with the
      appended bookings. */
  lemma BookKeepsSeatCounts(L: Ledger, r: Ledger, s: Id, eid: Id, price: Money)
    requires OnlyFanOutAdded(L, r) && Has(r.sessions, s) && Has(r.enrollments, eid)
    ensures OnlyFanOutAdded(L, BookSession(r, s, eid, price))
  {
    var e := Get(r.enrollments, eid);
    var r' := BookSession(r, s, eid, price);
    forall j | 0 <= j < |L.sessions|
      ensures SeatsFrom(r'.bookings, |L.bookings|, j) ==
        SeatsFrom(r.bookings, |L.bookings|, j) + (if j == s then Headcount(e.participants) else 0)
    {
      SeatsFromAppend(r.bookings, |L.bookings|, j, FanOutBooking(e, eid, s, price));
    }
  }

  /** Booking session `s`, which needed it, keeps the loop's progress. */
  lemma BookKeepsProgress(L: Ledger, r: Ledger, s: Id, eid: Id, price: Money)
    requires Has(L.enrollments, eid) && s < |L.sessions| && Progress(L, r, s, eid, price)
    requires Needed(L, s, Get(L.enrollments, eid))
    ensures Progress(L, BookSession(r, s, eid, price), s + 1, eid, price)
  {
    var e := Get(L.enrollments, eid);
    var r' := BookSession(r, s, eid, price);
    BookKeepsSeatCounts(L, r, s, eid, price);
    forall j | |L.bookings| <= j < |r'.bookings|
      ensures FannedOut(L, r'.bookings, j, eid, e, price)
    {
      if j < |r.bookings| {
        assert r'.bookings[j] == r.bookings[j] && FannedOut(L, r.bookings, j, eid, e, price);
      }
    }
    assert SessionOf(r'.bookings[|r.bookings|]) == s;
  }

  lemma VisitKeepsProgress(L: Ledger, r: Ledger, s: Id, eid: Id, price: Money)
    requires Has(L.enrollments, eid) && s < |L.sessions| && Progress(L, r, s, eid, price)
    ensures Progress(L, Visit(r, s, eid, price), s + 1, eid, price)
  {
    var e := Get(L.enrollments, eid);
    assert Upcoming(r, s, e.groupId) <==> Upcoming(L, s, e.groupId);
    if Upcoming(r, s, e.groupId) && !HasBookingFor(r.bookings, s, e.userId) {
      BookKeepsProgress(L, r, s, eid, price);
    }
  }

  /**
   * The fan-out of one enrollment: every upcoming scheduled session of its
   * group on which the member has no booking gets one. Sessions are visited
   * in id order, where the service goes through them by date: the same
   * bookings are added, only their row ids may come in another order.
   */
  method FanOut(L: Ledger, eid: Id, price: Money) returns (r: Ledger)
    requires Has(L.enrollments, eid)
    ensures OnlyFanOutAdded(L, r)
    ensures forall j :: |L.bookings| <= j < |r.bookings| ==>
      FannedOut(L, r.bookings, j, eid, Get(L.enrollments, eid), price)
    ensures forall i, j :: |L.bookings| <= i < j < |r.bookings| ==>
      SessionOf(r.bookings[i]) != SessionOf(r.bookings[j])
    ensures forall sid: Id :: Upcoming(L, sid, Get(L.enrollments, eid).groupId) ==>
      HasBookingFor(r.bookings, sid, Get(L.enrollments, eid).userId)
    ensures (forall sid: Id :: !Needed(L, sid, Get(L.enrollments, eid))) ==> r == L
  {
    r := L;
    var s := 0;
    while s < |L.sessions|
      invariant Progress(L, r, s, eid, price)
    {
      VisitKeepsProgress(L, r, s, eid, price);
      r := Visit(r, s, eid, price);
      s := s + 1;
    }
  }

  /**
   * `createBookingsForEnrollment`: the fan-out for an existing enrollment,
   * priced from its group.
   */
  method CreateBookingsForEnrollment(L: Ledger, eid: Id) returns (r: Result<Ledger, Error>)
    ensures !Has(L.enrollments, eid) ==> r == Err(NotFound)
    ensures r.Ok? <==> Has(L.enrollments, eid) && Has(L.groups, Get(L.enrollments, eid).groupId)
    ensures r.Err? ==> r.error == NotFound
    ensures r.Ok? ==> OnlyFanOutAdded(L, r.value)
    ensures r.Ok? ==> forall j :: |L.bookings| <= j < |r.value.bookings| ==>
      FannedOut(L, r.value.bookings, j, eid, Get(L.enrollments, eid), Get(L.groups, Get(L.enrollments, eid).groupId).price)
    ensures r.Ok? ==> forall sid: Id :: Upcoming(L, sid, Get(L.enrollments, eid).groupId) ==>
      HasBookingFor(r.value.bookings, sid, Get(L.enrollments, eid).userId)
    ensures r.Ok? && (forall sid: Id :: !Needed(L, sid, Get(L.enrollments, eid))) ==> r.value == L
  {
    if !Has(L.enrollments, eid) {
      return Err(NotFound);
    }
    var e := Get(L.enrollments, eid);
    if !Has(L.groups, e.groupId) {
      return Err(NotFound);
    }
    var L' := FanOut(L, eid, Get(L.groups, e.groupId).price);
    return Ok(L');
  }

  /** Upcoming sessions after a fan-out were upcoming before it: only seat
      counts changed. */
  lemma FanOutKeepsUpcoming(L: Ledger, L': Ledger, sid: Id, groupId: Id)
    requires OnlyFanOutAdded(L, L') && Upcoming(L', sid, groupId)
    ensures Upcoming(L, sid, groupId)
  {
    assert L.sessions[sid].Some?;
  }

  /**
   * Running the fan-out of an enrollment twice books nothing the second
   * time: the first run leaves a booking on every upcoming session.
   */
  method FanOutTwice(L: Ledger, eid: Id)
    returns (first: Result<Ledger, Error>, second: Result<Ledger, Error>)
    ensures first.Ok? ==> second == first
    ensures first.Err? ==> first == Err(NotFound)
  {
    first := CreateBookingsForEnrollment(L, eid);
    if first.Err? {
      second := first;
      return;
    }
    var L' := first.value;
    var e := Get(L.enrollments, eid);
    assert L'.enrollments == L.enrollments && L'.groups == L.groups;
    forall sid: Id ensures !Needed(L', sid, e) {
      if Upcoming(L', sid, e.groupId) {
        FanOutKeepsUpcoming(L, L', sid, e.groupId);
      }
    }
    second := CreateBookingsForEnrollment(L', eid);
  }

  /**
   * Join a group. The group must exist and be active, the user must not
   * already be actively enrolled, and must hold an ACTIVE subscription with
   * a positive balance, which the enrollment is bound to; nothing is
   * debited. The fan-out then books every upcoming session.
   */
  method Create(L: Ledger, user: Id, req: EnrollRequest) returns (r: Result<(Ledger, Id), Error>)
    ensures !Has(L.groups, req.groupId) ==> r == Err(NotFound)
    ensures Has(L.groups, req.groupId) && !Get(L.groups, req.groupId).isActive ==> r == Err(Unavailable)
    ensures Has(L.groups, req.groupId) && Get(L.groups, req.groupId).isActive && ActiveIn(L, user, req.groupId) ==>
      r == Err(Conflict)
    ensures (Has(L.groups, req.groupId) && Get(L.groups, req.groupId).isActive && !ActiveIn(L, user, req.groupId) &&
             Subscriptions.Query(L.subscriptions, user, Subscriptions.FundedActive).None?) ==>
      r == Err(SubscriptionRequired)
    ensures r.Ok? ==> (Has(L.groups, req.groupId) && Get(L.groups, req.groupId).isActive && !ActiveIn(L, user, req.groupId) &&
                       Subscriptions.Query(L.subscriptions, user, Subscriptions.FundedActive).Some?)
    ensures r.Ok? ==>
      var (L', eid) := r.value;
      eid == |L.enrollments| && Has(L'.enrollments, eid) &&
      Get(L'.enrollments, eid) == Enrollment(user, req.groupId,
        Subscriptions.Query(L.subscriptions, user, Subscriptions.FundedActive), EnrollmentStatus.Active,
        req.participants, req.contactEmail, req.notes) &&
      L'.subscriptions == L.subscriptions &&
      (forall sid: Id :: Upcoming(L, sid, req.groupId) ==> HasBookingFor(L'.bookings, sid, user))
    ensures r.Ok? ==>
      var (L', eid) := r.value;
      var L1 := L.(enrollments := Append(L.enrollments, Get(L'.enrollments, eid)));
      L' == L.(enrollments := L'.enrollments, bookings := L'.bookings, sessions := L'.sessions) &&
      L'.enrollments == L1.enrollments && OnlyFanOutAdded(L1, L') &&
      (forall j :: |L.bookings| <= j < |L'.bookings| ==>
         FannedOut(L1, L'.bookings, j, eid, Get(L'.enrollments, eid), Get(L.groups, req.groupId).price)) &&
      (forall i, j :: |L.bookings| <= i < j < |L'.bookings| ==> SessionOf(L'.bookings[i]) != SessionOf(L'.bookings[j]))
    ensures r.Ok? ==> (AtMostOneActive(L) ==> AtMostOneActive(r.value.0))
  {
    if !Has(L.groups, req.groupId) {
      return Err(NotFound);
    }
    var g := Get(L.groups, req.groupId);
    if !g.isActive {
      return Err(Unavailable);
    }
    if ActiveIn(L, user, req.groupId) {
      return Err(Conflict);
    }
    var sub := Subscriptions.Query(L.subscriptions, user, Subscriptions.FundedActive);
    if sub.None? {
      return Err(SubscriptionRequired);
    }
    var e := Enrollment(user, req.groupId, sub, EnrollmentStatus.Active, req.participants, req.contactEmail, req.notes);
    var eid := |L.enrollments|;
    var L1 := L.(enrollments := Append(L.enrollments, e));
    assert AtMostOneActive(L) ==> AtMostOneActive(L1) by {
      if AtMostOneActive(L) {
        forall i, j, u, gid | ActiveAt(L1, i, u, gid) && ActiveAt(L1, j, u, gid) ensures i == j {
          if i != eid && j != eid {
            assert ActiveAt(L, i, u, gid) && ActiveAt(L, j, u, gid);
          } else if i != eid {
            assert ActiveAt(L, i, user, req.groupId);
          } else if j != eid {
            assert ActiveAt(L, j, user, req.groupId);
          }
        }
      }
    }
    assert forall sid: Id :: Upcoming(L1, sid, req.groupId) <==> Upcoming(L, sid, req.groupId);
    var L2 := FanOut(L1, eid, g.price);
    assert forall i, u, gid :: ActiveAt(L2, i, u, gid) <==> ActiveAt(L1, i, u, gid);
    return Ok((L2, eid));
  }

  // Lifecycle.

  /** Leave a group: any enrollment not already CANCELLED; owner only. */
  function Cancel(L: Ledger, id: Id, user: Id): (r: Result<Ledger, Error>)
    ensures !Has(L.enrollments, id) ==> r == Err(NotFound)
    ensures Has(L.enrollments, id) && Get(L.enrollments, id).userId != user ==> r == Err(Forbidden)
    ensures r.Ok? <==>
      Has(L.enrollments, id) && Get(L.enrollments, id).userId == user &&
      Get(L.enrollments, id).status != EnrollmentStatus.Cancelled
    ensures r.Err? && Has(L.enrollments, id) && Get(L.enrollments, id).userId == user ==> r.error == InvalidState
    ensures r.Ok? ==> r.value == L.(enrollments := Put(L.enrollments, id, Get(L.enrollments, id).(status := EnrollmentStatus.Cancelled)))
  {
    if !Has(L.enrollments, id) then Err(NotFound)
    else
      var e := Get(L.enrollments, id);
      if e.userId != user then Err(Forbidden)
      else if e.status == EnrollmentStatus.Cancelled then Err(InvalidState)
      else Ok(L.(enrollments := Put(L.enrollments, id, e.(status := EnrollmentStatus.Cancelled))))
  }

  /** ACTIVE to PAUSED; owner only. */
  function Pause(L: Ledger, id: Id, user: Id): (r: Result<Ledger, Error>)
    ensures !Has(L.enrollments, id) ==> r == Err(NotFound)
    ensures Has(L.enrollments, id) && Get(L.enrollments, id).userId != user ==> r == Err(Forbidden)
    ensures r.Ok? <==>
      Has(L.enrollments, id) && Get(L.enrollments, id).userId == user &&
      Get(L.enrollments, id).status == EnrollmentStatus.Active
    ensures r.Err? && Has(L.enrollments, id) && Get(L.enrollments, id).userId == user ==> r.error == InvalidState
    ensures r.Ok? ==> r.value == L.(enrollments := Put(L.enrollments, id, Get(L.enrollments, id).(status := EnrollmentStatus.Paused)))
  {
    if !Has(L.enrollments, id) then Err(NotFound)
    else
      var e := Get(L.enrollments, id);
      if e.userId != user then Err(Forbidden)
      else if e.status != EnrollmentStatus.Active then Err(InvalidState)
      else Ok(L.(enrollments := Put(L.enrollments, id, e.(status := EnrollmentStatus.Paused))))
  }

  /** PAUSED to ACTIVE; owner only. Another ACTIVE enrollment of the same
      user in the same group is not looked for. */
  function Resume(L: Ledger, id: Id, user: Id): (r: Result<Ledger, Error>)
    ensures !Has(L.enrollments, id) ==> r == Err(NotFound)
    ensures Has(L.enrollments, id) && Get(L.enrollments, id).userId != user ==> r == Err(Forbidden)
    ensures r.Ok? <==>
      Has(L.enrollments, id) && Get(L.enrollments, id).userId == user &&
      Get(L.enrollments, id).status == EnrollmentStatus.Paused
    ensures r.Err? && Has(L.enrollments, id) && Get(L.enrollments, id).userId == user ==> r.error == InvalidState
    ensures r.Ok? ==> r.value == L.(enrollments := Put(L.enrollments, id, Get(L.enrollments, id).(status := EnrollmentStatus.Active)))
  {
    if !Has(L.enrollments, id) then Err(NotFound)
    else
      var e := Get(L.enrollments, id);
      if e.userId != user then Err(Forbidden)
      else if e.status != EnrollmentStatus.Paused then Err(InvalidState)
      else Ok(L.(enrollments := Put(L.enrollments, id, e.(status := EnrollmentStatus.Active))))
  }

  /** Pausing and then resuming gives back the store it started from. */
  lemma PauseThenResumeRestores(L: Ledger, id: Id, user: Id)
    requires Pause(L, id, user).Ok?
    ensures Resume(Pause(L, id, user).value, id, user) == Ok(L)
  {
    var L1 := Pause(L, id, user).value;
    assert Resume(L1, id, user).value.enrollments == L.enrollments;
  }

  /** A cancelled enrollment can be neither paused, resumed nor cancelled
      again. */
  lemma CancelIsFinal(L: Ledger, id: Id, user: Id)
    requires Cancel(L, id, user).Ok?
    ensures var L1 := Cancel(L, id, user).value;
      Pause(L1, id, user) == Err(InvalidState) &&
      Resume(L1, id, user) == Err(InvalidState) &&
      Cancel(L1, id, user) == Err(InvalidState)
  {
  }

  /** A member with one ACTIVE and one PAUSED enrollment in the same group. */
  function TwoEnrollments(): Ledger {
    var e := Enrollment(0, 0, None, EnrollmentStatus.Active, [], "member@example.org", None);
    Ledger(0, {0}, [], [], [], [], [], [Some(e), Some(e.(status := EnrollmentStatus.Paused))], [], [], [], [])
  }

  /** Resuming does not re-check for another ACTIVE enrollment, so it can
      leave a member actively enrolled twice in one group. */
  lemma ResumeCanDuplicateActive()
    ensures AtMostOneActive(TwoEnrollments())
    ensures Resume(TwoEnrollments(), 1, 0).Ok?
    ensures !AtMostOneActive(Resume(TwoEnrollments(), 1, 0).value)
  {
    var L := TwoEnrollments();
    forall i, j, user, groupId | ActiveAt(L, i, user, groupId) && ActiveAt(L, j, user, groupId)
      ensures i == j
    {
    }
    var L1 := Resume(L, 1, 0).value;
    assert ActiveAt(L1, 0, 0, 0) && ActiveAt(L1, 1, 0, 0);
  }

  // The member's upcoming sessions.

  /** Limit of sessions the member's view lists. */
  const UpcomingLimit: nat := 20

  function DateOf(L: Ledger, sid: Id): int {
    if Has(L.sessions, sid) then Get(L.sessions, sid).date else 0
  }

  /** Sessions ordered by date. */
  function ByDate(L: Ledger): nat -> int {
    (sid: nat) => DateOf(L, sid)
  }

  /** Upcoming sessions of the group among the first `n`, by date. */
  function CollectByDate(L: Ledger, groupId: Id, n: nat): (r: seq<Id>)
    requires n <= |L.sessions|
    ensures Sorting.SortedBy(ByDate(L), r)
    ensures forall x: Id :: multiset(r)[x] == (if x < n && Upcoming(L, x, groupId) then 1 else 0)
  {
    if n == 0 then []
    else
      var prev := CollectByDate(L, groupId, n - 1);
      if Upcoming(L, n - 1, groupId) then Sorting.InsertBy(ByDate(L), prev, n - 1) else prev
  }

  /** The member's booking on session `sid`: the first one, if any. */
  function BookingOn(t: Table<Booking>, sid: Id, user: Id, n: nat): (r: Option<Id>)
    requires n <= |t|
    ensures r.Some? ==> (r.value < n && t[r.value].Some? &&
                         t[r.value].value.target == OnSession(sid) && t[r.value].value.userId == Some(user))
    ensures r.Some? ==> forall j :: 0 <= j < r.value && t[j].Some? ==>
      !(t[j].value.target == OnSession(sid) && t[j].value.userId == Some(user))
    ensures r.None? ==> forall j :: 0 <= j < n && t[j].Some? ==>
      !(t[j].value.target == OnSession(sid) && t[j].value.userId == Some(user))
  {
    if n == 0 then None
    else
      match BookingOn(t, sid, user, n - 1)
      case Some(j) => Some(j)
      case None =>
        if t[n - 1].Some? && t[n - 1].value.target == OnSession(sid) && t[n - 1].value.userId == Some(user)
        then Some(n - 1) else None
  }

  /**
   * The sessions the view shows: the group's upcoming sessions by date,
   * cut at the limit. Every upcoming session is shown unless the view is
   * full of sessions no later than it.
   */
  function Shown(L: Ledger, groupId: Id): (r: seq<Id>)
    ensures |r| <= UpcomingLimit
    ensures forall i :: 0 <= i < |r| ==> Upcoming(L, r[i], groupId)
    ensures forall i, j :: 0 <= i < j < |r| ==> r[i] != r[j] && DateOf(L, r[i]) <= DateOf(L, r[j])
    ensures forall sid: Id :: Upcoming(L, sid, groupId) ==>
      sid in r || (|r| == UpcomingLimit && DateOf(L, r[UpcomingLimit - 1]) <= DateOf(L, sid))
  {
    var all := CollectByDate(L, groupId, |L.sessions|);
    CollectedFacts(L, groupId);
    if |all| <= UpcomingLimit then all
    else
      CutKeepsCover(L, groupId, all);
      all[..UpcomingLimit]
  }

  /** The first `UpcomingLimit` entries of a complete date-ordered list
      cover every upcoming session not later than the last of them. */
  lemma CutKeepsCover(L: Ledger, groupId: Id, all: seq<Id>)
    requires |all| > UpcomingLimit
    requires forall i, j :: 0 <= i < j < |all| ==> DateOf(L, all[i]) <= DateOf(L, all[j])
    requires forall sid: Id :: Upcoming(L, sid, groupId) ==> sid in all
    ensures forall sid: Id :: Upcoming(L, sid, groupId) ==>
      sid in all[..UpcomingLimit] || DateOf(L, all[UpcomingLimit - 1]) <= DateOf(L, sid)
  {
    var r := all[..UpcomingLimit];
    forall sid: Id | Upcoming(L, sid, groupId)
      ensures sid in r || DateOf(L, r[UpcomingLimit - 1]) <= DateOf(L, sid)
    {
      var k :| 0 <= k < |all| && all[k] == sid;
      if k < UpcomingLimit {
        assert r[k] == sid;
      } else if k > UpcomingLimit - 1 {
        assert DateOf(L, all[UpcomingLimit - 1]) <= DateOf(L, all[k]);
      }
    }
  }

  /** The full date-ordered list holds each upcoming session exactly once. */
  lemma CollectedFacts(L: Ledger, groupId: Id)
    ensures var all := CollectByDate(L, groupId, |L.sessions|);
      (forall i :: 0 <= i < |all| ==> Upcoming(L, all[i], groupId)) &&
      (forall i, j :: 0 <= i < j < |all| ==> all[i] != all[j] && DateOf(L, all[i]) <= DateOf(L, all[j])) &&
      (forall sid: Id :: Upcoming(L, sid, groupId) ==> sid in all)
  {
    var all := CollectByDate(L, groupId, |L.sessions|);
    CountedFacts(L, groupId, all);
  }

  lemma CountedFacts(L: Ledger, groupId: Id, all: seq<Id>)
    requires Sorting.SortedBy(ByDate(L), all)
    requires forall x: Id :: multiset(all)[x] == (if x < |L.sessions| && Upcoming(L, x, groupId) then 1 else 0)
    ensures forall i :: 0 <= i < |all| ==> Upcoming(L, all[i], groupId)
    ensures forall i, j :: 0 <= i < j < |all| ==> all[i] != all[j] && DateOf(L, all[i]) <= DateOf(L, all[j])
    ensures forall sid: Id :: Upcoming(L, sid, groupId) ==> sid in all
  {
    Sorting.SingletonsAreDistinct(all);
    forall i | 0 <= i < |all| ensures Upcoming(L, all[i], groupId) {
      assert all[i] in multiset(all);
    }
    forall i, j | 0 <= i < j < |all| ensures DateOf(L, all[i]) <= DateOf(L, all[j]) {
      assert ByDate(L)(all[i]) <= ByDate(L)(all[j]);
    }
    forall sid: Id | Upcoming(L, sid, groupId) ensures sid in all {
      assert sid in multiset(all);
    }
  }

  /** One line of the member's view: a session and the member's booking on
      it, if any. */
  datatype SessionLine = SessionLine(session: Id, booking: Option<Id>)

  /** The view's lines for the sessions `shown`, each with the member's
      booking. */
  function Lines(t: Table<Booking>, shown: seq<Id>, user: Id): (r: seq<SessionLine>)
    ensures |r| == |shown|
    ensures forall i :: 0 <= i < |r| ==> r[i].session == shown[i]
    ensures forall i :: 0 <= i < |r| ==>
      (r[i].booking.None? <==> !HasBookingFor(t, shown[i], user)) &&
      (r[i].booking.Some? ==>
         Has(t, r[i].booking.value) &&
         Get(t, r[i].booking.value).target == OnSession(shown[i]) &&
         Get(t, r[i].booking.value).userId == Some(user))
  {
    if shown == [] then []
    else [SessionLine(shown[0], BookingOn(t, shown[0], user, |t|))] + Lines(t, shown[1..], user)
  }

  /**
   * The member's upcoming sessions: at most 20 scheduled sessions of the
   * enrollment's group from now on, earliest first, each with the member's
   * booking on it. Owner only.
   */
  function UpcomingSessions(L: Ledger, id: Id, user: Id): (r: Result<seq<SessionLine>, Error>)
    ensures !Has(L.enrollments, id) ==> r == Err(NotFound)
    ensures Has(L.enrollments, id) && Get(L.enrollments, id).userId != user ==> r == Err(Forbidden)
    ensures r.Ok? <==> Has(L.enrollments, id) && Get(L.enrollments, id).userId == user
    ensures r.Ok? ==> |r.value| <= UpcomingLimit
    ensures r.Ok? ==> forall i :: 0 <= i < |r.value| ==> Upcoming(L, r.value[i].session, Get(L.enrollments, id).groupId)
    ensures r.Ok? ==> forall i, j :: 0 <= i < j < |r.value| ==>
      r.value[i].session != r.value[j].session && DateOf(L, r.value[i].session) <= DateOf(L, r.value[j].session)
    ensures r.Ok? ==> forall sid: Id :: Upcoming(L, sid, Get(L.enrollments, id).groupId) ==>
      (exists i :: 0 <= i < |r.value| && r.value[i].session == sid) ||
      (|r.value| == UpcomingLimit && DateOf(L, r.value[UpcomingLimit - 1].session) <= DateOf(L, sid))
    ensures r.Ok? ==> forall i :: 0 <= i < |r.value| ==>
      (r.value[i].booking.None? <==> !HasBookingFor(L.bookings, r.value[i].session, user)) &&
      (r.value[i].booking.Some? ==>
         Has(L.bookings, r.value[i].booking.value) &&
         Get(L.bookings, r.value[i].booking.value).target == OnSession(r.value[i].session) &&
         Get(L.bookings, r.value[i].booking.value).userId == Some(user))
  {
    if !Has(L.enrollments, id) then Err(NotFound)
    else
      var e := Get(L.enrollments, id);
      if e.userId != user then Err(Forbidden)
      else
        ShownLines(L, e.groupId, user);
        Ok(Lines(L.bookings, Shown(L, e.groupId), user))
  }

  /** The lines of the shown sessions inherit the order, the cut and the
      bookings of Shown and Lines. */
  lemma ShownLines(L: Ledger, groupId: Id, user: Id)
    ensures var lines := Lines(L.bookings, Shown(L, groupId), user);
      |lines| <= UpcomingLimit &&
      (forall i :: 0 <= i < |lines| ==> Upcoming(L, lines[i].session, groupId)) &&
      (forall i, j :: 0 <= i < j < |lines| ==>
         lines[i].session != lines[j].session && DateOf(L, lines[i].session) <= DateOf(L, lines[j].session)) &&
      (forall sid: Id :: Upcoming(L, sid, groupId) ==>
         (exists i :: 0 <= i < |lines| && lines[i].session == sid) ||
         (|lines| == UpcomingLimit && DateOf(L, lines[UpcomingLimit - 1].session) <= DateOf(L, sid)))
  {
    var shown := Shown(L, groupId);
    var lines := Lines(L.bookings, shown, user);
    forall sid: Id | sid in shown ensures exists i :: 0 <= i < |lines| && lines[i].session == sid {
      var i :| 0 <= i < |shown| && shown[i] == sid;
      assert lines[i].session == sid;
    }
  }
}

=== FILE: group_bookings.dfy ===
/**
 * The booking both fan-outs write: when a user enrolls in a group (one
 * booking per upcoming session) and when a session is generated (one
 * booking per active enrollment). Such a booking is CONFIRMED, paid by
 * subscription at the discounted group price, and bumps the session's
 * seat count; it never debits the subscription and never checks capacity.
 */
module GroupBookings {
  import opened Wrappers
  import opened Ledger
  import Bookings

  /** Seats one enrollment occupies: its participant count, or 1 when the
      list is empty. */
  function Headcount(participants: seq<Participant>): (n: int)
    ensures n >= 1
    ensures |participants| > 0 ==> n == |participants|
  {
    if |participants| == 0 then 1 else |participants|
  }

  /** Some booking of `user` on session `sid` exists, in any status. */
  predicate HasBookingFor(t: Table<Booking>, sid: Id, user: Id) {
    exists j :: 0 <= j < |t| && t[j].Some? && t[j].value.target == OnSession(sid) && t[j].value.userId == Some(user)
  }

  /** A future session of the group that is still scheduled. */
  predicate Upcoming(L: Ledger, sid: Id, groupId: Id) {
    Has(L.sessions, sid) && Get(L.sessions, sid).groupId == groupId &&
    Get(L.sessions, sid).date >= L.now && Get(L.sessions, sid).status == SessionStatus.Scheduled
  }

  /** The booking enrollment `eid` gets on session `sid` of a group priced
      `price` per seat. */
  function FanOutBooking(e: Enrollment, eid: Id, sid: Id, price: Money): (b: Booking)
    ensures b.userId == Some(e.userId) && b.target == OnSession(sid) && b.groupEnrollmentId == Some(eid)
    ensures b.status == BookingStatus.Confirmed && b.paymentMethod == BySubscription
    ensures b.subscriptionId == e.subscriptionId
    ensures b.participantsCount >= 1
    ensures b.totalPrice == Bookings.Discounted(price) * Count(b.participantsCount)
  {
    Booking(Some(e.userId), OnSession(sid), Some(eid), e.subscriptionId, BookingStatus.Confirmed,
            Headcount(e.participants), Bookings.Discounted(price) * Count(Headcount(e.participants)),
            BySubscription, e.participants, e.contactEmail, None)
  }

  /** Seats taken on session `sid` by bookings `from..` of the table. */
  function SeatsFrom(t: Table<Booking>, from: nat, sid: Id): int
    decreases |t| - from
  {
    if from >= |t| then 0
    else (if t[from].Some? && t[from].value.target == OnSession(sid) then t[from].value.participantsCount else 0)
         + SeatsFrom(t, from + 1, sid)
  }

  /** Appending a booking adds its seats to its own session only. */
  lemma {:induction false} SeatsFromAppend(t: Table<Booking>, from: nat, sid: Id, b: Booking)
    requires from <= |t|
    ensures SeatsFrom(t + [Some(b)], from, sid) ==
      SeatsFrom(t, from, sid) + (if b.target == OnSession(sid) then b.participantsCount else 0)
    decreases |t| - from
  {
    if from < |t| {
      SeatsFromAppend(t, from + 1, sid, b);
      assert (t + [Some(b)])[from] == t[from];
    }
  }

  /** The session a booking row is on, or -1. */
  function SessionOf(b: Option<Booking>): int {
    if b.Some? && b.value.target.OnSession? then b.value.target.sessionId else -1
  }

  /** Rows that are on other sessions add no seats to `sid`. */
  lemma {:induction false} SeatsFromElsewhere(t: Table<Booking>, from: nat, sid: Id)
    requires forall j :: from <= j < |t| ==> SessionOf(t[j]) != sid
    ensures SeatsFrom(t, from, sid) == 0
    decreases |t| - from
  {
    if from < |t| {
      SeatsFromElsewhere(t, from + 1, sid);
    }
  }

  /** Appending rows that are on other sessions leaves the seats on `sid`
      as they were. */
  lemma {:induction false} SeatsFromExtend(t: Table<Booking>, t': Table<Booking>, from: nat, sid: Id)
    requires from <= |t| <= |t'| && forall j :: 0 <= j < |t| ==> t'[j] == t[j]
    requires forall j :: |t| <= j < |t'| ==> SessionOf(t'[j]) != sid
    ensures SeatsFrom(t', from, sid) == SeatsFrom(t, from, sid)
    decreases |t| - from
  {
    if from < |t| {
      SeatsFromExtend(t, t', from + 1, sid);
    } else {
      SeatsFromElsewhere(t', from, sid);
    }
  }

  /** Skipping rows that are on other sessions leaves the seats on `sid`
      as they were. */
  lemma {:induction false} SeatsFromSkip(t: Table<Booking>, from: nat, mid: nat, sid: Id)
    requires from <= mid <= |t|
    requires forall j :: from <= j < mid ==> SessionOf(t[j]) != sid
    ensures SeatsFrom(t, from, sid) == SeatsFrom(t, mid, sid)
    decreases mid - from
  {
    if from < mid {
      SeatsFromSkip(t, from + 1, mid, sid);
    }
  }

  /**
   * Record the fan-out booking of enrollment `eid` on session `sid` and
   * bump the session's seat count by its headcount.
   */
  function BookSession(L: Ledger, sid: Id, eid: Id, price: Money): (r: Ledger)
    requires Has(L.sessions, sid) && Has(L.enrollments, eid)
    ensures r == L.(bookings := r.bookings, sessions := r.sessions)
    ensures r.bookings == L.bookings + [Some(FanOutBooking(Get(L.enrollments, eid), eid, sid, price))]
    ensures |r.sessions| == |L.sessions| && Has(r.sessions, sid)
    ensures Get(r.sessions, sid) == Get(L.sessions, sid).(currentParticipants :=
      Get(L.sessions, sid).currentParticipants + Headcount(Get(L.enrollments, eid).participants))
    ensures forall j :: 0 <= j < |L.sessions| && j != sid ==> r.sessions[j] == L.sessions[j]
    ensures forall s, u :: HasBookingFor(r.bookings, s, u) <==>
      HasBookingFor(L.bookings, s, u) || (s == sid && u == Get(L.enrollments, eid).userId)
  {
    var e := Get(L.enrollments, eid);
    var b := FanOutBooking(e, eid, sid, price);
    var s := Get(L.sessions, sid);
    var r := L.(bookings := L.bookings + [Some(b)],
                sessions := Put(L.sessions, sid, s.(currentParticipants := s.currentParticipants + Headcount(e.participants))));
    assert forall s, u :: HasBookingFor(r.bookings, s, u) <==>
      HasBookingFor(L.bookings, s, u) || (s == sid && u == e.userId) by {
      forall s, u ensures HasBookingFor(r.bookings, s, u) <==>
        HasBookingFor(L.bookings, s, u) || (s == sid && u == e.userId)
      {
        if HasBookingFor(L.bookings, s, u) {
          var j :| 0 <= j < |L.bookings| && L.bookings[j].Some? && L.bookings[j].value.target == OnSession(s) && L.bookings[j].value.userId == Some(u);
          assert r.bookings[j] == L.bookings[j];
        }
        if s == sid && u == e.userId {
          assert r.bookings[|L.bookings|] == Some(b);
        }
        if HasBookingFor(r.bookings, s, u) {
          var j :| 0 <= j < |r.bookings| && r.bookings[j].Some? && r.bookings[j].value.target == OnSession(s) && r.bookings[j].value.userId == Some(u);
          if j < |L.bookings| {
            assert L.bookings[j] == r.bookings[j];
          }
        }
      }
    }
    r
  }
}

=== FILE: groups.dfy ===
/**
 * Editing a recurring group. A change of the weekly schedule on an active
 * group tears down the group's future sessions, with their bookings, and
 * generates sessions again from the new schedule.
 */
module Groups {
  import opened Wrappers
  import opened Ledger
  import GroupSessions
  import GroupBookings
  import KrasnoyarskTime

  /** The editable fields of a group; None leaves a field as it is. */
  datatype GroupUpdate = GroupUpdate(
    schedule: Option<Schedule>, price: Option<Money>, maxParticipants: Option<int>, isActive: Option<bool>)

  /**
   * The schedule comparison: the weekday lists compared as their JSON text
   * (so order matters), then the time, then the duration. A group without
   * a stored schedule compares as all fields absent; the new schedule
   * always carries a duration.
   */
  predicate ScheduleChanged(current: Option<Schedule>, next: Schedule) {
    var days := if current.Some? then current.value.daysOfWeek else None;
    var time := if current.Some? then current.value.time else None;
    days != next.daysOfWeek || time != next.time || current.None? || current.value.duration != next.duration
  }

  /** The comparison sees exactly the difference between the stored
      schedule and the new one. */
  lemma ScheduleChangedIff(current: Option<Schedule>, next: Schedule)
    ensures ScheduleChanged(current, next) <==> current != Some(next)
  {
    if current.Some? && !ScheduleChanged(current, next) {
      assert current.value == Schedule(next.daysOfWeek, next.time, next.duration);
    }
  }

  /** The group after the update's fields are written. */
  function Apply(g: Group, u: GroupUpdate): (r: Group)
    ensures r.schedule == (if u.schedule.Some? then u.schedule else g.schedule)
    ensures r.price == u.price.GetOr(g.price)
    ensures r.maxParticipants == u.maxParticipants.GetOr(g.maxParticipants)
    ensures r.isActive == u.isActive.GetOr(g.isActive)
  {
    Group(if u.schedule.Some? then u.schedule else g.schedule,
          u.price.GetOr(g.price), u.maxParticipants.GetOr(g.maxParticipants), u.isActive.GetOr(g.isActive))
  }

  /** The update replaces the schedule by a different one and leaves the
      group active: its future is regenerated. */
  predicate Regenerates(L: Ledger, id: Id, u: GroupUpdate)
    requires Has(L.groups, id)
  {
    u.schedule.Some? && ScheduleChanged(Get(L.groups, id).schedule, u.schedule.value) &&
    Apply(Get(L.groups, id), u).isActive
  }

  /** Session row `j` is a session of group `gid` strictly after now. */
  predicate Doomed(L: Ledger, j: int, gid: Id) {
    0 <= j < |L.sessions| && L.sessions[j].Some? &&
    L.sessions[j].value.groupId == gid && L.sessions[j].value.date > L.now
  }

  /** Booking row `j` is on a doomed session. */
  predicate DoomedBooking(L: Ledger, j: int, gid: Id) {
    0 <= j < |L.bookings| && L.bookings[j].Some? && L.bookings[j].value.target.OnSession? &&
    Doomed(L, L.bookings[j].value.target.sessionId, gid)
  }

  /**
   * Remove the group's sessions dated after now together with every
   * booking on them; sessions at or before now, other groups' sessions and
   * all other bookings stay.
   */
  function Teardown(L: Ledger, gid: Id): (r: Ledger)
    ensures r == L.(sessions := r.sessions, bookings := r.bookings)
    ensures |r.sessions| == |L.sessions| && |r.bookings| == |L.bookings|
    ensures forall j :: 0 <= j < |L.sessions| && !Doomed(L, j, gid) ==> r.sessions[j] == L.sessions[j]
    ensures forall j :: 0 <= j < |r.sessions| ==>
      !(r.sessions[j].Some? && r.sessions[j].value.groupId == gid && r.sessions[j].value.date > L.now)
    ensures forall j :: 0 <= j < |L.bookings| && !DoomedBooking(L, j, gid) ==> r.bookings[j] == L.bookings[j]
    ensures forall j :: 0 <= j < |r.bookings| ==> r.bookings[j].None? || !DoomedBooking(L, j, gid)
  {
    L.(sessions := seq(|L.sessions|, j requires 0 <= j < |L.sessions| => if Doomed(L, j, gid) then None else L.sessions[j]),
       bookings := seq(|L.bookings|, j requires 0 <= j < |L.bookings| => if DoomedBooking(L, j, gid) then None else L.bookings[j]))
  }

  /** Teardown never leaves a booking on a session that is gone. */
  lemma TeardownKeepsBookingsResolvable(L: Ledger, gid: Id)
    requires GroupSessions.SessionBookingsResolve(L)
    ensures GroupSessions.SessionBookingsResolve(Teardown(L, gid))
  {
    var r := Teardown(L, gid);
    forall j | 0 <= j < |r.bookings| && GroupBookings.SessionOf(r.bookings[j]) >= 0
      ensures Has(r.sessions, GroupBookings.SessionOf(r.bookings[j]))
    {
      var sid := GroupBookings.SessionOf(r.bookings[j]);
      assert r.bookings[j] == L.bookings[j];
      assert Has(L.sessions, sid);
      assert !Doomed(L, sid, gid);
    }
  }

  /**
   * `update`: write the given fields; when the schedule changed and the
   * group is (still) active, tear down the future and generate sessions
   * again over `[from, to]`. The regeneration is done by a scheduler
   * service that is not part of this model, so its range is a parameter;
   * its failures are swallowed and the update still succeeds.
   */
  method Update(L: Ledger, id: Id, u: GroupUpdate, from: int, to: int) returns (r: Result<Ledger, Error>)
    ensures r.Ok? <==> Has(L.groups, id)
    ensures r.Err? ==> r.error == NotFound
    ensures r.Ok? ==> r.value.groups == Put(L.groups, id, Apply(Get(L.groups, id), u))
    ensures r.Ok? && !Regenerates(L, id, u) ==> r.value == L.(groups := r.value.groups)
    ensures r.Ok? && Regenerates(L, id, u) ==>
      r.value == L.(groups := r.value.groups, sessions := r.value.sessions, bookings := r.value.bookings) &&
      |r.value.sessions| >= |L.sessions| && |r.value.bookings| >= |L.bookings|
    ensures r.Ok? && Regenerates(L, id, u) ==>
      (forall j :: 0 <= j < |L.sessions| ==> r.value.sessions[j] == if Doomed(L, j, id) then None else L.sessions[j]) &&
      (forall j :: 0 <= j < |L.bookings| ==> r.value.bookings[j] == if DoomedBooking(L, j, id) then None else L.bookings[j]) &&
      (forall j :: |L.sessions| <= j < |r.value.sessions| ==>
         r.value.sessions[j].Some? && r.value.sessions[j].value.groupId == id &&
         r.value.sessions[j].value.status == SessionStatus.Scheduled)
    ensures r.Ok? && Regenerates(L, id, u) ==>
      forall j :: (0 <= j < |r.value.sessions| && r.value.sessions[j].Some? &&
                   r.value.sessions[j].value.groupId == id && r.value.sessions[j].value.date > L.now) ==>
        j >= |L.sessions|
    ensures r.Ok? && Regenerates(L, id, u) && !Generates(L, id, u, from, to) ==>
      r.value == Teardown(L.(groups := r.value.groups), id)
    ensures r.Ok? && Regenerates(L, id, u) && Generates(L, id, u, from, to) ==>
      var T := Teardown(L.(groups := r.value.groups), id);
      var s := u.schedule.value;
      var R := r.value;
      R == T.(sessions := R.sessions, bookings := R.bookings) &&
      |R.sessions| >= |T.sessions| && (forall j :: 0 <= j < |T.sessions| ==> R.sessions[j] == T.sessions[j]) &&
      |R.bookings| >= |T.bookings| && (forall j :: 0 <= j < |T.bookings| ==> R.bookings[j] == T.bookings[j]) &&
      (forall j :: |T.sessions| <= j < |R.sessions| ==> GroupSessions.Generated(T, R, j, id, s, from, to)) &&
      (forall j :: |T.bookings| <= j < |R.bookings| ==>
         |T.sessions| <= GroupBookings.SessionOf(R.bookings[j]) < |R.sessions| &&
         GroupSessions.FanOutOf(T, R.bookings, j, GroupBookings.SessionOf(R.bookings[j]), id, Get(R.groups, id).price)) &&
      (forall j, y :: |T.sessions| <= j < |R.sessions| && GroupSessions.ActiveMember(T, y, id) ==>
         GroupBookings.HasBookingFor(R.bookings, j, T.enrollments[y].value.userId)) &&
      GroupSessions.OnePerSession(T, R) &&
      (forall k :: GroupSessions.Due(s.daysOfWeek.value, from, to, k) && GroupSessions.Slot(s.time.value, from, k).Some? ==>
         GroupSessions.SessionAt(R, id, GroupSessions.Slot(s.time.value, from, k).value))
  {
    if !Has(L.groups, id) {
      return Err(NotFound);
    }
    var g := Get(L.groups, id);
    var L1 := L.(groups := Put(L.groups, id, Apply(g, u)));
    if !Regenerates(L, id, u) {
      return Ok(L1);
    }
    var T := Teardown(L1, id);
    var regenerated := GroupSessions.GenerateSessions(T, id, from, to);
    if regenerated.Err? {
      return Ok(T);
    }
    var L2 := regenerated.value.0;
    forall j | |L.sessions| <= j < |L2.sessions|
      ensures L2.sessions[j].Some? && L2.sessions[j].value.groupId == id && L2.sessions[j].value.status == SessionStatus.Scheduled
    {
      assert GroupSessions.Generated(T, L2, j, id, Get(T.groups, id).schedule.value, from, to);
    }
    return Ok(L2);
  }

  /** The regeneration after a schedule change succeeds: the new schedule
      passes the service's check and, when its time does not read, no day
      of `[from, to]` is due. */
  ghost predicate Generates(L: Ledger, id: Id, u: GroupUpdate, from: int, to: int)
    requires Has(L.groups, id)
  {
    var s := Apply(Get(L.groups, id), u).schedule;
    GroupSessions.Usable(s) &&
    (KrasnoyarskTime.ParseTime(s.value.time.value).None? ==> forall k :: !GroupSessions.Due(s.value.daysOfWeek.value, from, to, k))
  }

  /**
   * The same update made twice leaves the store as the first one did: the
   * stored schedule now equals the new one, so nothing is regenerated and
   * the fields written again are the ones already there.
   */
  method UpdateTwice(L: Ledger, id: Id, u: GroupUpdate, from: int, to: int)
    returns (first: Result<Ledger, Error>, second: Result<Ledger, Error>)
    ensures first.Ok? ==> second == first
    ensures first.Err? ==> second == first
  {
    first := Update(L, id, u, from, to);
    if first.Err? {
      second := first;
      return;
    }
    var g := Apply(Get(L.groups, id), u);
    assert Get(first.value.groups, id) == g;
    if u.schedule.Some? {
      ScheduleChangedIff(g.schedule, u.schedule.value);
    }
    assert Apply(g, u) == g;
    second := Update(first.value, id, u, from, to);
    assert second.value.groups == first.value.groups;
  }

  /** `toggleActive`: flip the active flag and nothing else. */
  function ToggleActive(L: Ledger, id: Id): (r: Result<Ledger, Error>)
    ensures r.Ok? <==> Has(L.groups, id)
    ensures r.Err? ==> r.error == NotFound
    ensures r.Ok? ==> r.value == L.(groups := r.value.groups) && |r.value.groups| == |L.groups|
    ensures r.Ok? ==> forall j :: 0 <= j < |L.groups| && j != id ==> r.value.groups[j] == L.groups[j]
    ensures r.Ok? ==> (Has(r.value.groups, id) &&
                       Get(r.value.groups, id) == Get(L.groups, id).(isActive := !Get(L.groups, id).isActive))
  {
    if !Has(L.groups, id) then Err(NotFound)
    else
      var g := Get(L.groups, id);
      Ok(L.(groups := Put(L.groups, id, g.(isActive := !g.isActive))))
  }

  /** Toggling twice gives back the store it started from. */
  lemma ToggleTwiceRestores(L: Ledger, id: Id)
    requires Has(L.groups, id)
    ensures ToggleActive(ToggleActive(L, id).value, id) == Ok(L)
  {
    var L1 := ToggleActive(L, id).value;
    assert ToggleActive(L1, id).value.groups == L.groups;
  }
}

=== FILE: ledger.dfy ===
/**
 * The studio's relational store as one immutable value: a table per entity
 * plus the clock. Every service operation of the model is a pure function
 * from a Ledger to a new Ledger (or an error, which leaves the store as it
 * was).
 *
 * A table is a sequence indexed by id: the store hands out ids in creation
 * order, never reuses one, and a deleted row leaves a hole (None).
 */
module Ledger {
  import opened Wrappers

  type Id = nat

  /** Money is exact; the service multiplies by 0.9 without rounding. */
  type Money = real

  type Table<T> = seq<Option<T>>

  // Status enumerations of the shared type definitions.

  datatype SubscriptionStatus = Active | Expired | Depleted | Cancelled
  datatype EventStatus = Draft | Published | Cancelled | Completed
  datatype SessionStatus = Scheduled | Cancelled | Completed
  datatype EnrollmentStatus = Active | Paused | Cancelled | Completed
  datatype BookingStatus = Pending | Confirmed | Cancelled | Attended
  datatype OrderStatus = Pending | Confirmed | Ready | Completed | Cancelled
  datatype PaymentMethod = BySubscription | OnSite | Online

  // Entities.

  datatype Participant = Participant(fullName: string, phone: string, age: Option<int>)

  /** A purchasable template: `amount` is credited, `price` is paid;
      a `durationDays` of 0 stands for "no duration" (null or 0 alike). */
  datatype SubscriptionType = SubscriptionType(
    name: string, amount: Money, price: Money, durationDays: int, isActive: bool)

  /** A prepaid balance owned by a user. `updatedAt` is the store's
      automatic last-write stamp, used by "most recently updated" lookups. */
  datatype Subscription = Subscription(
    userId: Id, typeId: Option<Id>, name: string,
    totalBalance: Money, remainingBalance: Money, price: Money,
    status: SubscriptionStatus, expiresAt: Option<int>, updatedAt: int)

  /** A one-off master-class. */
  datatype Event = Event(
    status: EventStatus, startDate: int,
    maxParticipants: int, currentParticipants: int, price: Money)

  /** The weekly schedule of a recurring group, stored as JSON: the weekday
      list and the "HH:MM" time may be absent; the duration is in minutes. */
  datatype Schedule = Schedule(daysOfWeek: Option<seq<int>>, time: Option<string>, duration: int)

  datatype Group = Group(
    schedule: Option<Schedule>, price: Money, maxParticipants: int, isActive: bool)

  /** One dated occurrence of a group; its seat limit is the group's. */
  datatype Session = Session(
    groupId: Id, date: int, duration: int, status: SessionStatus,
    currentParticipants: int, notes: Option<string>)

  datatype Enrollment = Enrollment(
    userId: Id, groupId: Id, subscriptionId: Option<Id>, status: EnrollmentStatus,
    participants: seq<Participant>, contactEmail: string, notes: Option<string>)

  /** What a booking reserves seats on: exactly one of an event or a session. */
  datatype Target = OnEvent(eventId: Id) | OnSession(sessionId: Id)

  datatype Booking = Booking(
    userId: Option<Id>, target: Target, groupEnrollmentId: Option<Id>,
    subscriptionId: Option<Id>, status: BookingStatus,
    participantsCount: int, totalPrice: Money, paymentMethod: PaymentMethod,
    participants: seq<Participant>, contactEmail: string, notes: Option<string>)

  datatype Product = Product(name: string, stockQuantity: int, isAvailable: bool)

  datatype OrderItem = OrderItem(productId: Id, quantity: int, price: Money)

  datatype Order = Order(
    userId: Id, items: seq<OrderItem>, totalAmount: Money,
    status: OrderStatus, paymentMethod: PaymentMethod)

  /** An online subscription purchase in progress. `key` is the record's
      textual primary key as the store generated it; `status` is the
      gateway's free-form status text; `processedAt` and `rolledBackAt` are
      the at-most-once gates of the webhook. */
  datatype Payment = Payment(
    key: string, userId: Id, typeId: Id, amount: Money, price: Money, status: string,
    paymentId: Option<string>, paymentUrl: Option<string>,
    processedAt: Option<int>, rolledBackAt: Option<int>, subscriptionId: Option<Id>)

  /** The whole store, plus the clock `now` (epoch milliseconds). */
  datatype Ledger = Ledger(
    now: int,
    users: set<Id>,
    subscriptionTypes: Table<SubscriptionType>,
    subscriptions: Table<Subscription>,
    events: Table<Event>,
    groups: Table<Group>,
    sessions: Table<Session>,
    enrollments: Table<Enrollment>,
    bookings: Table<Booking>,
    products: Table<Product>,
    orders: Table<Order>,
    payments: Table<Payment>)

  /** The errors the services raise, one per distinct failure the services
      report (an HTTP exception and its message). */
  datatype Error =
    | InvalidRequest
    | NotFound
    | Unavailable
    | Unauthenticated
    | Forbidden
    | InvalidState
    | Conflict
    | OnlineOnly
    | SubscriptionRequired
    | CapacityExceeded(seatsLeft: int)
    | InsufficientBalance(required: Money, held: Money, subscriptions: nat)
    | CancellationWindowExpired(hoursLeft: int)
    | OutOfStock(productId: Id)
    | MissingToken
    | InvalidSignature
    | NotConfigured
    | InvalidDate
    | GatewayFailure

  // Table access.

  predicate Has<T>(t: Table<T>, id: Id) {
    id < |t| && t[id].Some?
  }

  function Get<T>(t: Table<T>, id: Id): T
    requires Has(t, id)
  {
    t[id].value
  }

  /** Overwrite an existing row. */
  function Put<T>(t: Table<T>, id: Id, x: T): (r: Table<T>)
    requires Has(t, id)
    ensures |r| == |t| && Has(r, id) && Get(r, id) == x
    ensures forall j :: 0 <= j < |t| && j != id ==> r[j] == t[j]
  {
    t[id := Some(x)]
  }

  /** Insert a row; it receives the next id. */
  function Append<T>(t: Table<T>, x: T): (r: Table<T>)
    ensures |r| == |t| + 1 && Has(r, |t|) && Get(r, |t|) == x
    ensures forall j :: 0 <= j < |t| ==> r[j] == t[j]
  {
    t + [Some(x)]
  }

  /** Delete a row; its id is never handed out again. */
  function Delete<T>(t: Table<T>, id: Id): (r: Table<T>)
    requires id < |t|
    ensures |r| == |t| && !Has(r, id)
    ensures forall j :: 0 <= j < |t| && j != id ==> r[j] == t[j]
  {
    t[id := None]
  }

  /** The sum of a sequence of amounts, added from the first. */
  function Total(xs: seq<Money>): Money {
    if xs == [] then 0.0 else Total(xs[..|xs| - 1]) + xs[|xs| - 1]
  }

  /** A count of participants as money, for price arithmetic. */
  function Count(n: int): Money {
    n as real
  }
}

=== FILE: orders.dfy ===
/**
 * Shop orders: placing an order (stock screening, subscription debit,
 * order row, stock decrements) and status updates, where cancelling puts
 * the goods back and refunds a subscription.
 *
 * The service screens every order line against the stock on hand before
 * anything is written, then decrements line by line. Two lines naming the
 * same product pass the screen one at a time and then overdraw it; the
 * decrement that fails comes after the debit and the order row, with no
 * transaction to undo them. `CreateAsWritten` keeps that behaviour;
 * `Create` screens each line against the demand accumulated so far, which
 * makes every decrement succeed.
 */
module Orders {
  import opened Wrappers
  import opened Ledger
  import Subscriptions
  import Products

  datatype OrderRequest = OrderRequest(
    userId: Id, items: seq<OrderItem>, totalAmount: Money, paymentMethod: PaymentMethod)

  /** Total quantity of product `pid` over the lines. */
  function Demand(items: seq<OrderItem>, pid: Id): int {
    if items == [] then 0
    else (if items[0].productId == pid then items[0].quantity else 0) + Demand(items[1..], pid)
  }

  /** Every line names a product that exists. */
  predicate AllPresent(L: Ledger, items: seq<OrderItem>) {
    forall k :: 0 <= k < |items| ==> Has(L.products, items[k].productId)
  }

  /** Line by line, each decrement finds enough stock: the demand of the
      lines up to and including line `k` does not exceed the stock. */
  predicate Coverable(L: Ledger, items: seq<OrderItem>) {
    forall k :: 0 <= k < |items| ==>
      Has(L.products, items[k].productId) &&
      Demand(items[..k + 1], items[k].productId) <= Products.Stock(L, items[k].productId)
  }

  /** Only stock quantities differ between the two ledgers. */
  ghost predicate OnlyStockMoved(L: Ledger, L': Ledger) {
    L' == L.(products := L'.products) && OnlyStock(L.products, L'.products)
  }

  /** The two product tables have the same rows, differing at most in stock. */
  ghost predicate OnlyStock(P: Table<Product>, P': Table<Product>) {
    |P'| == |P| && (forall j :: Has(P', j) <==> Has(P, j)) &&
    forall j :: Has(P, j) ==> Get(P', j) == Get(P, j).(stockQuantity := Get(P', j).stockQuantity)
  }

  /**
   * The decrement loop: one stock decrease per line, in order. Returns the
   * ledger as it stands when the loop ends, and the error of the line that
   * failed, if any; the lines before it stay decremented.
   */
  function Unstock(L: Ledger, items: seq<OrderItem>): (r: (Ledger, Option<Error>))
    decreases |items|
    ensures OnlyStockMoved(L, r.0)
    ensures r.1.None? ==> forall p :: Has(L.products, p) ==>
      Products.Stock(r.0, p) == Products.Stock(L, p) - Demand(items, p)
  {
    if items == [] then (L, None)
    else
      match Products.DecreaseStock(L, items[0].productId, items[0].quantity)
      case Err(e) => (L, Some(e))
      case Ok(L1) => Unstock(L1, items[1..])
  }

  /** The restocking loop of a cancellation: one increase per line. */
  function Restock(L: Ledger, items: seq<OrderItem>): (r: Result<Ledger, Error>)
    decreases |items|
    ensures r.Ok? <==> AllPresent(L, items)
    ensures r.Err? ==> r.error == NotFound
    ensures r.Ok? ==> OnlyStockMoved(L, r.value)
    ensures r.Ok? ==> forall p :: Has(L.products, p) ==>
      Products.Stock(r.value, p) == Products.Stock(L, p) + Demand(items, p)
  {
    if items == [] then Ok(L)
    else
      match Products.IncreaseStock(L, items[0].productId, items[0].quantity)
      case Err(e) => Err(e)
      case Ok(L1) =>
        var r := Restock(L1, items[1..]);
        assert r.Ok? <==> AllPresent(L, items) by {
          assert AllPresent(L1, items[1..]) <==> AllPresent(L, items[1..]);
          assert forall k :: 1 <= k < |items| ==> items[k] == items[1..][k - 1];
        }
        r
  }

  /** The cumulative screen is exactly the condition under which the
      decrement loop runs to the end. */
  lemma {:induction false} UnstockSucceedsIff(L: Ledger, items: seq<OrderItem>)
    ensures Unstock(L, items).1.None? <==> Coverable(L, items)
    decreases |items|
  {
    if items != [] {
      var x := items[0];
      var rest := items[1..];
      assert items[..1] == [x];
      assert Demand(items[..1], x.productId) == x.quantity by {
        assert items[..1][1..] == [];
      }
      forall k | 0 <= k < |rest|
        ensures items[..k + 2] == [x] + rest[..k + 1] && items[k + 1] == rest[k]
      {
      }
      match Products.DecreaseStock(L, x.productId, x.quantity)
      case Err(_) =>
        assert !Coverable(L, items) by {
          assert !(Has(L.products, x.productId) && Demand(items[..1], x.productId) <= Products.Stock(L, x.productId));
        }
      case Ok(L1) =>
        UnstockSucceedsIff(L1, rest);
        forall k | 0 <= k < |rest|
          ensures (Has(L1.products, rest[k].productId) &&
                   Demand(rest[..k + 1], rest[k].productId) <= Products.Stock(L1, rest[k].productId))
              <==> (Has(L.products, items[k + 1].productId) &&
                    Demand(items[..k + 2], items[k + 1].productId) <= Products.Stock(L, items[k + 1].productId))
        {
          var p := rest[k].productId;
          assert ([x] + rest[..k + 1])[1..] == rest[..k + 1];
          if Has(L.products, p) {
            assert Demand(items[..k + 2], p) == (if x.productId == p then x.quantity else 0) + Demand(rest[..k + 1], p);
          }
        }
        assert Coverable(L1, rest) <==> Coverable(L, items) by {
          if Coverable(L1, rest) {
            forall k | 0 <= k < |items|
              ensures Has(L.products, items[k].productId) &&
                      Demand(items[..k + 1], items[k].productId) <= Products.Stock(L, items[k].productId)
            {
              if k > 0 {
                assert items[..(k - 1) + 2] == items[..k + 1];
              }
            }
          }
          if Coverable(L, items) {
            forall k | 0 <= k < |rest|
              ensures Has(L1.products, rest[k].productId) &&
                      Demand(rest[..k + 1], rest[k].productId) <= Products.Stock(L1, rest[k].productId)
            {
              assert items[..(k + 1) + 1] == items[..k + 2];
            }
          }
        }
    }
  }

  /** Which screen the order service applies to a line. */
  datatype StockRule =
    /** The line's own quantity against the stock (the service as written). */
    | PerLine
    /** The quantity of this and all earlier lines for the same product. */
    | Cumulative

  /** Why line `k` is refused, if it is. */
  function LineRefusal(L: Ledger, items: seq<OrderItem>, k: nat, rule: StockRule): (r: Option<Error>)
    requires k < |items|
    ensures r.None? <==>
      Has(L.products, items[k].productId) && Get(L.products, items[k].productId).isAvailable &&
      Products.Stock(L, items[k].productId) >=
        (if rule == PerLine then items[k].quantity else Demand(items[..k + 1], items[k].productId))
  {
    var pid := items[k].productId;
    if !Has(L.products, pid) then Some(NotFound)
    else if !Get(L.products, pid).isAvailable then Some(Unavailable)
    else if Products.Stock(L, pid) < (if rule == PerLine then items[k].quantity else Demand(items[..k + 1], pid))
    then Some(OutOfStock(pid))
    else None
  }

  /** The first refusal among lines `i..`. */
  function Screen(L: Ledger, items: seq<OrderItem>, rule: StockRule, i: nat): (r: Option<Error>)
    requires i <= |items|
    ensures r.None? <==> forall k :: i <= k < |items| ==> LineRefusal(L, items, k, rule).None?
    decreases |items| - i
  {
    if i == |items| then None
    else if LineRefusal(L, items, i, rule).Some? then LineRefusal(L, items, i, rule)
    else Screen(L, items, rule, i + 1)
  }

  /** The cumulative screen admits exactly the orders whose lines are all
      available and coverable. */
  lemma CumulativeScreenIsCoverable(L: Ledger, items: seq<OrderItem>)
    ensures Screen(L, items, Cumulative, 0).None? ==> Coverable(L, items)
  {
    if Screen(L, items, Cumulative, 0).None? {
      forall k | 0 <= k < |items|
        ensures Has(L.products, items[k].productId) &&
                Demand(items[..k + 1], items[k].productId) <= Products.Stock(L, items[k].productId)
      {
        assert LineRefusal(L, items, k, Cumulative).None?;
      }
    }
  }

  /** Take the order amount off the user's soonest-expiring ACTIVE
      subscription that covers it. */
  function Charge(L: Ledger, user: Id, amount: Money): (r: Option<Ledger>)
    ensures var q := Subscriptions.Query(L.subscriptions, user, Subscriptions.SoonestExpiring(amount, L.now));
      (r.None? <==> q.None?) &&
      (r.Some? ==>
        r.value == L.(subscriptions := Put(L.subscriptions, q.value,
                        Subscriptions.Debit(Get(L.subscriptions, q.value), amount, L.now))) &&
        Get(L.subscriptions, q.value).remainingBalance >= amount)
  {
    match Subscriptions.Query(L.subscriptions, user, Subscriptions.SoonestExpiring(amount, L.now))
    case None => None
    case Some(sid) =>
      Some(L.(subscriptions := Put(L.subscriptions, sid, Subscriptions.Debit(Get(L.subscriptions, sid), amount, L.now))))
  }

  function NewOrder(req: OrderRequest): Order {
    Order(req.userId, req.items, req.totalAmount, OrderStatus.Pending, req.paymentMethod)
  }

  /** Everything before the decrement loop: screen, payment method, debit,
      order row. Returns the ledger with the debit and the new order. */
  function Place(L: Ledger, req: OrderRequest, rule: StockRule): (r: Result<Ledger, Error>)
    ensures Screen(L, req.items, rule, 0).Some? ==> r == Err(Screen(L, req.items, rule, 0).value)
    ensures Screen(L, req.items, rule, 0).None? && req.paymentMethod == Online ==> r == Err(OnlineOnly)
    ensures r.Ok? ==> Screen(L, req.items, rule, 0).None? && req.paymentMethod != Online
    ensures r.Ok? ==> r.value.products == L.products
    ensures r.Ok? ==> (|r.value.orders| == |L.orders| + 1 && Has(r.value.orders, |L.orders|) &&
                       Get(r.value.orders, |L.orders|) == NewOrder(req))
    ensures r.Ok? && req.paymentMethod == OnSite ==> r.value == L.(orders := Append(L.orders, NewOrder(req)))
    ensures (Screen(L, req.items, rule, 0).None? && req.paymentMethod == BySubscription) ==>
      match Charge(L, req.userId, req.totalAmount)
      case None => r == Err(InvalidRequest)
      case Some(L1) => r == Ok(L1.(orders := Append(L1.orders, NewOrder(req))))
  {
    match Screen(L, req.items, rule, 0)
    case Some(e) => Err(e)
    case None =>
      if req.paymentMethod == Online then Err(OnlineOnly)
      else
        var paid := if req.paymentMethod == BySubscription then Charge(L, req.userId, req.totalAmount) else Some(L);
        match paid
        case None => Err(InvalidRequest)
        case Some(L1) => Ok(L1.(orders := Append(L1.orders, NewOrder(req))))
  }

  /**
   * Order creation as the service performs it. A failed screen, payment
   * method or debit leaves the store as it was; a failed decrement leaves
   * the debit, the order row and the earlier decrements in place.
   */
  function CreateAsWritten(L: Ledger, req: OrderRequest): (r: (Ledger, Result<Id, Error>))
    ensures Place(L, req, PerLine).Err? ==> r == (L, Err(Place(L, req, PerLine).error))
    ensures Place(L, req, PerLine).Ok? ==>
      r.0 == Unstock(Place(L, req, PerLine).value, req.items).0 &&
      (r.1.Ok? <==> Coverable(Place(L, req, PerLine).value, req.items))
    ensures r.1.Ok? ==> r.1.value == |L.orders| && Has(r.0.orders, r.1.value)
  {
    match Place(L, req, PerLine)
    case Err(e) => (L, Err(e))
    case Ok(L1) =>
      UnstockSucceedsIff(L1, req.items);
      var (L2, failed) := Unstock(L1, req.items);
      if failed.Some? then (L2, Err(failed.value)) else (L2, Ok(|L.orders|))
  }

  /**
   * Order creation with the cumulative screen: it fails with no change at
   * all, or it debits, records the order PENDING and takes every line's
   * quantity out of stock.
   */
  function Create(L: Ledger, req: OrderRequest): (r: Result<(Ledger, Id), Error>)
    ensures r.Err? <==> Place(L, req, Cumulative).Err?
    ensures r.Err? ==> r.error == Place(L, req, Cumulative).error
    ensures r.Ok? ==> Coverable(L, req.items)
    ensures r.Ok? ==> (r.value.1 == |L.orders| && Has(r.value.0.orders, r.value.1) &&
                       Get(r.value.0.orders, r.value.1) == NewOrder(req))
    ensures r.Ok? ==> OnlyStockMoved(Place(L, req, Cumulative).value, r.value.0)
    ensures r.Ok? ==> forall p :: Has(L.products, p) ==>
      Products.Stock(r.value.0, p) == Products.Stock(L, p) - Demand(req.items, p)
  {
    match Place(L, req, Cumulative)
    case Err(e) => Err(e)
    case Ok(L1) =>
      CumulativeScreenIsCoverable(L, req.items);
      UnstockSucceedsIff(L1, req.items);
      Ok((Unstock(L1, req.items).0, |L.orders|))
  }

  /** Whenever the per-line screen is enough, the service as written and
      the corrected creation agree. */
  lemma AsWrittenAgreesWhenCoverable(L: Ledger, req: OrderRequest)
    requires Place(L, req, PerLine).Ok? && Coverable(L, req.items)
    ensures Create(L, req).Ok?
    ensures CreateAsWritten(L, req) == (Create(L, req).value.0, Ok(Create(L, req).value.1))
  {
    assert Screen(L, req.items, Cumulative, 0).None? by {
      forall k | 0 <= k < |req.items|
        ensures LineRefusal(L, req.items, k, Cumulative).None?
      {
        assert LineRefusal(L, req.items, k, PerLine).None?;
      }
    }
    assert Place(L, req, PerLine) == Place(L, req, Cumulative);
  }

  /** A shop with one product, three in stock. */
  function OneProductShop(): Ledger {
    Ledger(0, {}, [], [], [], [], [], [], [], [Some(Product("mug", 3, true))], [], [])
  }

  /** Two lines of two mugs each, paid on site. */
  function TwoLinesOfTwo(): OrderRequest {
    OrderRequest(0, [OrderItem(0, 2, 100.0), OrderItem(0, 2, 100.0)], 400.0, OnSite)
  }

  /** The per-line screen lets four mugs through against a stock of three:
      the order fails, yet the order row and one decrement remain. The
      cumulative screen refuses it and leaves the shop untouched. */
  lemma RepeatedLineOverdraws()
    ensures var r := CreateAsWritten(OneProductShop(), TwoLinesOfTwo());
      r.1 == Err(OutOfStock(0)) && |r.0.orders| == 1 && Products.Stock(r.0, 0) == 1
    ensures Create(OneProductShop(), TwoLinesOfTwo()) == Err(OutOfStock(0))
  {
    var L := OneProductShop();
    var items := TwoLinesOfTwo().items;
    assert items[..1] == [items[0]] && items[..2] == items;
    assert LineRefusal(L, items, 0, PerLine).None?;
    assert LineRefusal(L, items, 1, PerLine).None?;
    assert Demand(items[..2], 0) == 4;
    assert LineRefusal(L, items, 0, Cumulative).None?;
    assert LineRefusal(L, items, 1, Cumulative) == Some(OutOfStock(0));
    var L1 := Place(L, TwoLinesOfTwo(), PerLine).value;
    var L2 := Products.DecreaseStock(L1, 0, 2).value;
    assert Products.DecreaseStock(L2, 0, 2) == Err(OutOfStock(0));
    assert items[1..][1..] == [];
  }

  // Status updates.

  /** Credit a cancelled order's amount to the user's most recently updated
      ACTIVE or DEPLETED subscription, if there is one. */
  function Refund(L: Ledger, user: Id, amount: Money): (r: Ledger)
    ensures var q := Subscriptions.Query(L.subscriptions, user, Subscriptions.LatestTouched);
      (q.None? ==> r == L) &&
      (q.Some? ==> r == L.(subscriptions := Put(L.subscriptions, q.value,
                             Subscriptions.Credit(Get(L.subscriptions, q.value), amount, L.now))))
  {
    match Subscriptions.Query(L.subscriptions, user, Subscriptions.LatestTouched)
    case None => L
    case Some(sid) => L.(subscriptions := Put(L.subscriptions, sid, Subscriptions.Credit(Get(L.subscriptions, sid), amount, L.now)))
  }

  /** The order leaves a live status for CANCELLED. */
  predicate Cancelling(o: Order, status: OrderStatus) {
    status == OrderStatus.Cancelled && o.status != OrderStatus.Cancelled
  }

  /**
   * Set an order's status. Cancelling a live order puts every line back in
   * stock and, for a subscription order, refunds the amount; any other
   * update, including cancelling a cancelled order, writes the status only.
   */
  function UpdateStatus(L: Ledger, id: Id, status: OrderStatus): (r: Result<Ledger, Error>)
    ensures !Has(L.orders, id) ==> r == Err(NotFound)
    ensures r.Ok? ==> (Has(L.orders, id) && Has(r.value.orders, id) &&
                       Get(r.value.orders, id) == Get(L.orders, id).(status := status))
    ensures r.Ok? ==> OnlyStock(L.products, r.value.products)
    ensures Has(L.orders, id) && !Cancelling(Get(L.orders, id), status) ==>
      r == Ok(L.(orders := Put(L.orders, id, Get(L.orders, id).(status := status))))
    ensures Has(L.orders, id) && Cancelling(Get(L.orders, id), status) ==>
      var o := Get(L.orders, id);
      (r.Ok? <==> AllPresent(L, o.items)) &&
      (r.Ok? ==> forall p :: Has(L.products, p) ==>
         Has(r.value.products, p) && Products.Stock(r.value, p) == Products.Stock(L, p) + Demand(o.items, p)) &&
      (r.Ok? && o.paymentMethod != BySubscription ==> r.value.subscriptions == L.subscriptions) &&
      (r.Ok? && o.paymentMethod == BySubscription ==>
         r.value.subscriptions == Refund(L, o.userId, o.totalAmount).subscriptions)
  {
    if !Has(L.orders, id) then Err(NotFound)
    else
      var o := Get(L.orders, id);
      if Cancelling(o, status) then
        match Restock(L, o.items)
        case Err(e) => Err(e)
        case Ok(L1) =>
          var L2 := if o.paymentMethod == BySubscription then Refund(L1, o.userId, o.totalAmount) else L1;
          Ok(L2.(orders := Put(L2.orders, id, o.(status := status))))
      else Ok(L.(orders := Put(L.orders, id, o.(status := status))))
  }

  /** Cancelling a cancelled order changes nothing. */
  lemma CancelIsIdempotent(L: Ledger, id: Id)
    requires Has(L.orders, id) && Get(L.orders, id).status == OrderStatus.Cancelled
    ensures UpdateStatus(L, id, OrderStatus.Cancelled) == Ok(L)
  {
    assert Put(L.orders, id, Get(L.orders, id).(status := OrderStatus.Cancelled)) == L.orders;
  }

  /** Cancelling an order right after creating it gives the shop back
      exactly the stock it had. */
  lemma CreateThenCancelRestoresStock(L: Ledger, req: OrderRequest)
    requires Create(L, req).Ok?
    ensures var (L1, id) := Create(L, req).value;
      UpdateStatus(L1, id, OrderStatus.Cancelled).Ok? &&
      UpdateStatus(L1, id, OrderStatus.Cancelled).value.products == L.products
  {
    var (L1, id) := Create(L, req).value;
    var P := Place(L, req, Cumulative).value;
    assert AllPresent(L1, req.items) by {
      forall k | 0 <= k < |req.items| ensures Has(L1.products, req.items[k].productId) {
        assert Has(L.products, req.items[k].productId);
      }
    }
    var L2 := UpdateStatus(L1, id, OrderStatus.Cancelled).value;
    assert OnlyStock(L.products, L1.products);
    ProductsRestored(L, L1, L2);
  }

  /** Stock taken out and put back by the same demand leaves the product
      table as it was. */
  lemma ProductsRestored(L: Ledger, L1: Ledger, L2: Ledger)
    requires OnlyStock(L.products, L1.products) && OnlyStock(L1.products, L2.products)
    requires forall p :: Has(L.products, p) ==> Products.Stock(L2, p) == Products.Stock(L, p)
    ensures L2.products == L.products
  {
    forall j | 0 <= j < |L.products| ensures L2.products[j] == L.products[j] {
      if Has(L.products, j) {
        assert Products.Stock(L2, j) == Products.Stock(L, j);
      }
    }
  }
}

=== FILE: payments.dfy ===
/**
 * Online subscription purchases through the Tinkoff acquiring gateway:
 * opening a payment, the request signature ("token"), and the webhook
 * that reconciles the gateway's notifications against the ledger. A
 * confirmed payment buys the subscription at most once; a payment that
 * fails after that rolls the purchase back at most once.
 */
module Payments {
  import opened Wrappers
  import opened Ledger
  import Subscriptions
  import KrasnoyarskTime

  // JavaScript values as a JSON body delivers them.

  /** A field value. Numbers are modelled as integers; a nested object or
      array is `JObject`. */
  datatype JsValue = JStr(s: string) | JNum(n: int) | JBool(b: bool) | JNull | JUndefined | JObject

  predicate Truthy(v: JsValue) {
    match v
    case JStr(s) => s != ""
    case JNum(n) => n != 0
    case JBool(b) => b
    case JNull => false
    case JUndefined => false
    case JObject => true
  }

  function Digit(d: int): char
    requires 0 <= d < 10
  {
    ('0' as int + d) as char
  }

  /** The decimal text of a natural number. */
  function NatText(n: nat): (r: string)
    ensures |r| >= 1 && KrasnoyarskTime.AllDigits(r)
    ensures KrasnoyarskTime.DigitsValue(r) == n
    decreases n
  {
    if n < 10 then [Digit(n)]
    else
      var r := NatText(n / 10) + [Digit(n % 10)];
      assert r[..|r| - 1] == NatText(n / 10);
      r
  }

  /** `String(v)`. */
  function JsString(v: JsValue): string {
    match v
    case JStr(s) => s
    case JNum(n) => if n < 0 then "-" + NatText(-n) else NatText(n)
    case JBool(b) => if b then "true" else "false"
    case JNull => "null"
    case JUndefined => "undefined"
    case JObject => "[object Object]"
  }

  type Entry = (string, JsValue)

  predicate DistinctKeys(p: seq<Entry>) {
    forall i, j :: 0 <= i < j < |p| ==> p[i].0 != p[j].0
  }

  /** A JSON object: its fields in order, each name at most once. */
  type Payload = p: seq<Entry> | DistinctKeys(p) witness []

  predicate HasKey(p: seq<Entry>, k: string) {
    exists i :: 0 <= i < |p| && p[i].0 == k
  }

  /** `payload[k]`: the field's value, `undefined` when there is none. */
  function Field(p: seq<Entry>, k: string): (v: JsValue)
    ensures HasKey(p, k) ==> exists i :: 0 <= i < |p| && p[i] == (k, v)
    ensures !HasKey(p, k) ==> v == JUndefined
  {
    if p == [] then JUndefined
    else if p[0].0 == k then p[0].1
    else
      var v := Field(p[1..], k);
      assert HasKey(p[1..], k) ==> exists i :: 0 <= i < |p| && p[i] == (k, v) by {
        if HasKey(p[1..], k) {
          var i :| 0 <= i < |p[1..]| && p[1..][i] == (k, v);
          assert p[i + 1] == (k, v);
        }
      }
      assert HasKey(p, k) ==> HasKey(p[1..], k) by {
        if HasKey(p, k) {
          var i :| 0 <= i < |p| && p[i].0 == k;
          assert p[1..][i - 1].0 == k;
        }
      }
      v
  }

  /** In an object, the value of a field is the one stored under its name. */
  lemma FieldOfObject(p: Payload, i: nat)
    requires i < |p|
    ensures Field(p, p[i].0) == p[i].1
  {
    var k := p[i].0;
    var j :| 0 <= j < |p| && p[j] == (k, Field(p, k));
  }

  /** The fields other than `k`, in order. */
  function Without(p: seq<Entry>, k: string): (r: seq<Entry>)
    ensures !HasKey(r, k)
    ensures forall e :: e in r <==> e in p && e.0 != k
  {
    if p == [] then []
    else (if p[0].0 == k then [] else [p[0]]) + Without(p[1..], k)
  }

  // The request signature.

  /** Field names the signature never covers. */
  const Unsigned: set<string> := {"Token", "Receipt", "DATA", "ReceiptData", "EncryptedPaymentData"}

  /** A field the signature covers: a signed name with a scalar value. */
  predicate Signed(e: Entry) {
    e.0 !in Unsigned && !e.1.JNull? && !e.1.JUndefined? && !e.1.JObject?
  }

  /** The covered fields, in payload order, with their values as text. */
  function Entries(p: seq<Entry>): seq<(string, string)> {
    if p == [] then []
    else (if Signed(p[0]) then [(p[0].0, JsString(p[0].1))] else []) + Entries(p[1..])
  }

  /** The entries are exactly the covered fields, as text. */
  lemma {:induction false} EntriesAreSignedFields(p: seq<Entry>)
    ensures forall e :: e in Entries(p) ==> exists i :: 0 <= i < |p| && Signed(p[i]) && e == (p[i].0, JsString(p[i].1))
    ensures forall i :: 0 <= i < |p| && Signed(p[i]) ==> (p[i].0, JsString(p[i].1)) in Entries(p)
    decreases |p|
  {
    if p != [] {
      var rest := Entries(p[1..]);
      EntriesAreSignedFields(p[1..]);
      forall e | e in rest
        ensures exists i :: 0 <= i < |p| && Signed(p[i]) && e == (p[i].0, JsString(p[i].1))
      {
        var i :| 0 <= i < |p[1..]| && Signed(p[1..][i]) && e == (p[1..][i].0, JsString(p[1..][i].1));
        assert p[i + 1] == p[1..][i];
      }
      forall i | 1 <= i < |p| && Signed(p[i])
        ensures (p[i].0, JsString(p[i].1)) in rest
      {
        assert p[1..][i - 1] == p[i];
      }
    }
  }

  /** Strict lexicographic order of strings by character code. */
  predicate Below(a: string, b: string)
    decreases |a|
  {
    if a == [] then b != []
    else if b == [] then false
    else if a[0] != b[0] then a[0] < b[0]
    else Below(a[1..], b[1..])
  }

  lemma {:induction false} BelowIsAsymmetric(a: string, b: string)
    requires Below(a, b)
    ensures !Below(b, a)
    decreases |a|
  {
    if a != [] && b != [] && a[0] == b[0] {
      BelowIsAsymmetric(a[1..], b[1..]);
    }
  }

  lemma {:induction false} BelowIsIrreflexive(a: string)
    ensures !Below(a, a)
    decreases |a|
  {
    if a != [] {
      BelowIsIrreflexive(a[1..]);
    }
  }

  lemma {:induction false} BelowIsTransitive(a: string, b: string, c: string)
    requires Below(a, b) && Below(b, c)
    ensures Below(a, c)
    decreases |a|
  {
    if a != [] && a[0] == b[0] && b[0] == c[0] {
      BelowIsTransitive(a[1..], b[1..], c[1..]);
    }
  }

  lemma {:induction false} BelowIsTotal(a: string, b: string)
    requires a != b
    ensures Below(a, b) || Below(b, a)
    decreases |a|
  {
    if a != [] && b != [] && a[0] == b[0] {
      assert a == [a[0]] + a[1..] && b == [b[0]] + b[1..];
      BelowIsTotal(a[1..], b[1..]);
    }
  }

  /** "Not after" is transitive: the order is a total preorder. */
  lemma NotBelowIsTransitive(a: string, b: string, c: string)
    requires !Below(b, a) && !Below(c, b)
    ensures !Below(c, a)
  {
    if Below(c, a) && a != b {
      BelowIsTotal(a, b);
      BelowIsTransitive(c, a, b);
    }
  }

  /** Sorted by name, equal names in any order. */
  predicate Sorted(s: seq<(string, string)>) {
    forall i, j :: 0 <= i < j < |s| ==> !Below(s[j].0, s[i].0)
  }

  /** Put `x` before every entry whose name is not smaller than its own. */
  function Insert(x: (string, string), s: seq<(string, string)>): (r: seq<(string, string)>)
    requires Sorted(s)
    ensures Sorted(r)
    ensures multiset(r) == multiset(s) + multiset{x}
  {
    if s == [] then [x]
    else if !Below(s[0].0, x.0) then
      assert forall j :: 0 <= j < |s| ==> !Below(s[j].0, x.0) by {
        forall j | 0 <= j < |s|
          ensures !Below(s[j].0, x.0)
        {
          if j > 0 {
            NotBelowIsTransitive(x.0, s[0].0, s[j].0);
          }
        }
      }
      PrependSorted(x, s);
      [x] + s
    else
      var rest := Insert(x, s[1..]);
      assert s == [s[0]] + s[1..];
      BelowIsAsymmetric(s[0].0, x.0);
      HeadStaysFirst(s, x, rest);
      PrependSorted(s[0], rest);
      [s[0]] + rest
  }

  /** Nothing in the rest of a sorted sequence, nor `x`, is below its head. */
  lemma HeadStaysFirst(s: seq<(string, string)>, x: (string, string), rest: seq<(string, string)>)
    requires s != [] && Sorted(s) && !Below(x.0, s[0].0)
    requires multiset(rest) == multiset(s[1..]) + multiset{x}
    ensures forall k :: 0 <= k < |rest| ==> !Below(rest[k].0, s[0].0)
  {
    forall k | 0 <= k < |rest|
      ensures !Below(rest[k].0, s[0].0)
    {
      assert rest[k] in multiset(rest);
      if rest[k] != x {
        assert rest[k] in multiset(s[1..]);
        var i :| 0 <= i < |s[1..]| && s[1..][i] == rest[k];
        assert s[i + 1] == rest[k];
      }
    }
  }

  lemma PrependSorted(a: (string, string), rest: seq<(string, string)>)
    requires Sorted(rest) && forall k :: 0 <= k < |rest| ==> !Below(rest[k].0, a.0)
    ensures Sorted([a] + rest)
  {
    var r := [a] + rest;
    forall i, j | 0 <= i < j < |r| ensures !Below(r[j].0, r[i].0) {
      assert r[j] == rest[j - 1];
      if i > 0 {
        assert r[i] == rest[i - 1];
      }
    }
  }

  /** Stable sort by name (`Array.prototype.sort` is stable). */
  function SortByName(s: seq<(string, string)>): (r: seq<(string, string)>)
    ensures Sorted(r) && multiset(r) == multiset(s)
  {
    if s == [] then []
    else
      assert s == [s[0]] + s[1..];
      Insert(s[0], SortByName(s[1..]))
  }

  function Values(s: seq<(string, string)>): string {
    if s == [] then "" else s[0].1 + Values(s[1..])
  }

  /** The text that is hashed: the covered fields plus the password, sorted
      by name, values concatenated. */
  function SigningText(p: seq<Entry>, secret: string): string {
    Values(SortByName(Entries(p) + [("Password", secret)]))
  }

  /** A configuration value is present when it is a non-empty string. */
  predicate Given(o: Option<string>) {
    o.Some? && o.value != ""
  }

  /**
   * `buildTinkoffToken`: the hash of the covered values and the password,
   * concatenated in name order. The hash function (SHA-256, hex) is a
   * parameter. When the names are distinct, every name-sorted arrangement
   * gives the same text, so the token does not depend on the sort used.
   */
  function Token(p: seq<Entry>, password: Option<string>, hash: string -> string): (r: Result<string, Error>)
    ensures r.Err? <==> !Given(password)
    ensures r.Err? ==> r.error == NotConfigured
    ensures r.Ok? ==> exists s :: Sorted(s) && multiset(s) == multiset(Entries(p) + [("Password", password.value)]) &&
                                 r.value == hash(Values(s))
    ensures r.Ok? && DistinctKeys(p) && !HasKey(p, "Password") ==>
      forall s :: Sorted(s) && multiset(s) == multiset(Entries(p) + [("Password", password.value)]) ==>
        r.value == hash(Values(s))
  {
    if !Given(password) then Err(NotConfigured)
    else
      var es := Entries(p) + [("Password", password.value)];
      assert Sorted(SortByName(es)) && multiset(SortByName(es)) == multiset(es);
      SigningTextOfAnySorted(p, password.value);
      Ok(hash(SigningText(p, password.value)))
  }

  /** With distinct names and no Password field, every name-sorted
      arrangement of the covered entries and the password has the same
      values as the signing text. */
  lemma SigningTextOfAnySorted(p: seq<Entry>, secret: string)
    ensures DistinctKeys(p) && !HasKey(p, "Password") ==>
      forall s :: Sorted(s) && multiset(s) == multiset(Entries(p) + [("Password", secret)]) ==>
        Values(s) == SigningText(p, secret)
  {
    if DistinctKeys(p) && !HasKey(p, "Password") {
      var es := Entries(p) + [("Password", secret)];
      forall s | Sorted(s) && multiset(s) == multiset(es)
        ensures Values(s) == SigningText(p, secret)
      {
        EntriesNameFunctional(p, ("Password", secret));
        SortedIsUnique(SortByName(es), s);
      }
    }
  }

  lemma {:induction false} EntriesAppend(a: seq<Entry>, b: seq<Entry>)
    ensures Entries(a + b) == Entries(a) + Entries(b)
    decreases |a|
  {
    if a == [] {
      assert a + b == b;
    } else {
      assert (a + b)[1..] == a[1..] + b;
      EntriesAppend(a[1..], b);
    }
  }

  lemma {:induction false} EntriesWithoutUnsigned(p: seq<Entry>, k: string)
    requires k in Unsigned
    ensures Entries(Without(p, k)) == Entries(p)
    decreases |p|
  {
    if p != [] {
      EntriesWithoutUnsigned(p[1..], k);
      var head := if p[0].0 == k then [] else [p[0]];
      EntriesAppend(head, Without(p[1..], k));
    }
  }

  /** The Token field, or any other unsigned field, does not affect the token:
      adding, removing or changing it gives the same token. */
  lemma TokenIgnoresUnsignedField(p: seq<Entry>, q: seq<Entry>, k: string, password: Option<string>, hash: string -> string)
    requires k in Unsigned
    requires Without(p, k) == Without(q, k)
    ensures Token(p, password, hash) == Token(q, password, hash)
  {
    EntriesWithoutUnsigned(p, k);
    EntriesWithoutUnsigned(q, k);
  }

  lemma {:induction false} EntriesOfPermutation(p: seq<Entry>, q: seq<Entry>)
    requires multiset(p) == multiset(q)
    ensures multiset(Entries(p)) == multiset(Entries(q))
    decreases |p|
  {
    if p != [] {
      assert p[0] in multiset(q);
      var k :| 0 <= k < |q| && q[k] == p[0];
      RemoveMatching(p, q, k);
      EntriesOfPermutation(p[1..], q[..k] + q[k + 1..]);
      EntriesAround(p, q, k);
      MultisetOfConcat(Entries(q[..k]), Entries([p[0]]), Entries(q[k + 1..]));
    }
  }

  /** Splitting both sides of the permutation step into their entries. */
  lemma EntriesAround(p: seq<Entry>, q: seq<Entry>, k: nat)
    requires p != [] && k < |q| && q[k] == p[0]
    ensures Entries(p) == Entries([p[0]]) + Entries(p[1..])
    ensures Entries(q) == Entries(q[..k]) + Entries([p[0]]) + Entries(q[k + 1..])
    ensures Entries(q[..k] + q[k + 1..]) == Entries(q[..k]) + Entries(q[k + 1..])
  {
    var a, b := q[..k], q[k + 1..];
    assert q == a + [p[0]] + b;
    assert p == [p[0]] + p[1..];
    EntriesAppend([p[0]], p[1..]);
    EntriesAppend(a, [p[0]]);
    EntriesAppend(a + [p[0]], b);
    EntriesAppend(a, b);
  }

  lemma MultisetOfConcat<T>(a: seq<T>, x: seq<T>, b: seq<T>)
    ensures multiset(a + x + b) == multiset(x) + multiset(a + b)
  {
  }

  /** No two entries of the multiset share a name unless they are equal. */
  predicate NameFunctional(m: multiset<(string, string)>) {
    forall x, y :: x in m && y in m && x.0 == y.0 ==> x == y
  }

  /** Taking the first element off one sequence and a matching element
      off another keeps them permutations of each other. */
  lemma RemoveMatching<T>(p: seq<T>, q: seq<T>, k: nat)
    requires p != [] && k < |q| && q[k] == p[0] && multiset(p) == multiset(q)
    ensures multiset(p[1..]) == multiset(q[..k] + q[k + 1..])
  {
    var r := q[..k] + q[k + 1..];
    assert p == [p[0]] + p[1..];
    assert q == q[..k] + [q[k]] + q[k + 1..];
    assert multiset(q) == multiset(q[..k]) + multiset{p[0]} + multiset(q[k + 1..]);
    assert multiset(r) == multiset(q[..k]) + multiset(q[k + 1..]);
    assert multiset(p) == multiset{p[0]} + multiset(p[1..]);
    assert multiset(p[1..]) == multiset(p) - multiset{p[0]};
    assert multiset(r) == multiset(q) - multiset{p[0]};
  }

  lemma NameFunctionalShrinks(m: multiset<(string, string)>, m': multiset<(string, string)>)
    requires NameFunctional(m) && m' <= m
    ensures NameFunctional(m')
  {
  }

  /** Two sorted arrangements of the same entries with functional names
      start with the same entry. */
  lemma SortedHeadsAgree(a: seq<(string, string)>, b: seq<(string, string)>)
    requires a != [] && Sorted(a) && Sorted(b) && multiset(a) == multiset(b) && NameFunctional(multiset(a))
    ensures b != [] && a[0] == b[0]
  {
    assert a[0] in multiset(b);
    var j :| 0 <= j < |b| && b[j] == a[0];
    assert b[0] in multiset(a);
    var i :| 0 <= i < |a| && a[i] == b[0];
    BelowIsIrreflexive(a[0].0);
    BelowIsIrreflexive(b[0].0);
    assert !Below(a[0].0, b[0].0) by {
      if j > 0 {
        assert !Below(b[j].0, b[0].0);
      }
    }
    assert !Below(b[0].0, a[0].0) by {
      if i > 0 {
        assert !Below(a[i].0, a[0].0);
      }
    }
    if a[0].0 != b[0].0 {
      BelowIsTotal(a[0].0, b[0].0);
    }
  }

  lemma SortedTail(s: seq<(string, string)>)
    requires s != [] && Sorted(s)
    ensures Sorted(s[1..])
  {
    forall i, j | 0 <= i < j < |s| - 1
      ensures !Below(s[1..][j].0, s[1..][i].0)
    {
      assert s[1..][j] == s[j + 1] && s[1..][i] == s[i + 1];
    }
  }

  /** Equal heads leave the tails permutations of each other, with names
      still functional. */
  lemma TailsPermuted(a: seq<(string, string)>, b: seq<(string, string)>)
    requires a != [] && b != [] && a[0] == b[0] && multiset(a) == multiset(b) && NameFunctional(multiset(a))
    ensures multiset(a[1..]) == multiset(b[1..]) && NameFunctional(multiset(a[1..]))
  {
    RemoveMatching(a, b, 0);
    assert b[..0] + b[1..] == b[1..];
    assert multiset(a[1..]) <= multiset(a) by {
      assert a == [a[0]] + a[1..];
    }
    NameFunctionalShrinks(multiset(a), multiset(a[1..]));
  }

  /** A sorted arrangement of entries with functional names is unique. */
  lemma {:induction false} SortedIsUnique(a: seq<(string, string)>, b: seq<(string, string)>)
    requires Sorted(a) && Sorted(b) && multiset(a) == multiset(b) && NameFunctional(multiset(a))
    ensures a == b
    decreases |a|
  {
    if a != [] {
      SortedHeadsAgree(a, b);
      TailsPermuted(a, b);
      SortedTail(a);
      SortedTail(b);
      SortedIsUnique(a[1..], b[1..]);
      assert a == [a[0]] + a[1..] && b == [b[0]] + b[1..];
    }
  }

  lemma EntriesNameFunctional(p: Payload, pw: (string, string))
    requires !HasKey(p, pw.0)
    ensures NameFunctional(multiset(Entries(p) + [pw]))
  {
    var es := Entries(p) + [pw];
    EntriesAreSignedFields(p);
    forall x: (string, string), y: (string, string) | x in multiset(es) && y in multiset(es) && x.0 == y.0
      ensures x == y
    {
      assert x in es && y in es;
      if x != pw && y != pw {
        assert x in Entries(p) && y in Entries(p);
        var i :| 0 <= i < |p| && Signed(p[i]) && x == (p[i].0, JsString(p[i].1));
        var i' :| 0 <= i' < |p| && Signed(p[i']) && y == (p[i'].0, JsString(p[i'].1));
      }
    }
  }

  /** The order of the payload's fields does not affect the token. */
  lemma TokenIgnoresFieldOrder(p: Payload, q: Payload, password: Option<string>, hash: string -> string)
    requires multiset(p) == multiset(q)
    requires !HasKey(p, "Password")
    ensures Token(p, password, hash) == Token(q, password, hash)
  {
    if Given(password) {
      var pw := ("Password", password.value);
      EntriesOfPermutation(p, q);
      assert multiset(Entries(p) + [pw]) == multiset(Entries(q) + [pw]);
      EntriesNameFunctional(p, pw);
      SortedIsUnique(SortByName(Entries(p) + [pw]), SortByName(Entries(q) + [pw]));
    }
  }

  /** The payload carries a token, and it is the one the password gives. */
  predicate Authentic(p: Payload, password: Option<string>, hash: string -> string) {
    Given(password) && Truthy(Field(p, "Token")) && Field(p, "Token") == JStr(hash(SigningText(p, password.value)))
  }

  // Opening a payment.

  /** The gateway settings read from the environment. */
  datatype Config = Config(
    password: Option<string>, terminalKey: Option<string>, notificationUrl: Option<string>,
    successUrl: Option<string>, failUrl: Option<string>, frontendUrl: Option<string>)

  const DefaultFrontend: string := "https://universnazare.ru"

  function Frontend(c: Config): string {
    if Given(c.frontendUrl) then c.frontendUrl.value else DefaultFrontend
  }

  function SuccessUrl(c: Config): string {
    if Given(c.successUrl) then c.successUrl.value else Frontend(c) + "/profile?payment=success"
  }

  function FailUrl(c: Config): string {
    if Given(c.failUrl) then c.failUrl.value else Frontend(c) + "/profile?payment=fail"
  }

  /** `Math.round(price * 100)`: the nearest whole number of kopecks, halves
      rounded up. */
  function Kopecks(price: Money): (r: int)
    ensures price * 100.0 - 0.5 < r as real <= price * 100.0 + 0.5
  {
    (price * 100.0 + 0.5).Floor
  }

  /** The string with every '-' removed. */
  function WithoutDashes(s: string): (r: string)
    ensures forall i :: 0 <= i < |r| ==> r[i] != '-'
    ensures |r| <= |s|
    ensures (forall i :: 0 <= i < |s| ==> s[i] != '-') ==> r == s
    ensures |r| == |s| ==> forall i :: 0 <= i < |s| ==> s[i] != '-'
  {
    if s == [] then []
    else
      var rest := WithoutDashes(s[1..]);
      assert |rest| == |s| - 1 ==> forall i :: 1 <= i < |s| ==> s[i] != '-' by {
        if |rest| == |s| - 1 {
          forall i | 1 <= i < |s|
            ensures s[i] != '-'
          {
            assert s[1..][i - 1] == s[i];
          }
        }
      }
      if s[0] == '-' then rest else [s[0]] + rest
  }

  /** The order id the gateway receives: the payment's key without dashes,
      cut to 20 characters. */
  function GatewayOrderId(key: string): (r: string)
    ensures |r| <= 20 && forall i :: 0 <= i < |r| ==> r[i] != '-'
    ensures r <= WithoutDashes(key)
  {
    var d := WithoutDashes(key);
    if |d| <= 20 then d else d[..20]
  }

  /** The order id is the key itself exactly for keys of at most 20
      characters without dashes. */
  lemma GatewayOrderIdIsKeyIff(key: string)
    ensures GatewayOrderId(key) == key <==> |key| <= 20 && forall i :: 0 <= i < |key| ==> key[i] != '-'
  {
    if GatewayOrderId(key) == key {
      assert |WithoutDashes(key)| == |key|;
    }
  }

  /** The gateway's answer to the Init request. */
  datatype GatewayReply = GatewayReply(success: bool, paymentUrl: Option<string>, paymentId: JsValue, status: Option<string>)

  /** What a successful start hands back: the request sent to the gateway
      and the payment page address. */
  datatype Started = Started(request: Payload, paymentUrl: Option<string>)

  /** The Init request's field names, in the order they are sent. */
  const InitNames: seq<string> :=
    ["TerminalKey", "Amount", "OrderId", "Description", "SuccessURL", "FailURL", "NotificationURL", "CustomerKey"]

  lemma InitNamesFacts()
    ensures |InitNames| == 8
    ensures forall i, j :: 0 <= i < j < |InitNames| ==> InitNames[i] != InitNames[j]
    ensures forall i :: 0 <= i < |InitNames| ==> InitNames[i] != "Token" && InitNames[i] != "Password"
  {
    var initials := "TAODSFNC";
    assert forall i :: 0 <= i < 8 ==> |InitNames[i]| > 0 && InitNames[i][0] == initials[i];
    assert forall i :: 0 <= i < 8 ==> |InitNames[i]| != 5 && |InitNames[i]| != 8;
  }

  /** The Init request's fields before signing. */
  function InitFields(c: Config, orderId: string, amount: int, description: string, customerKey: string): (r: Payload)
    requires Given(c.terminalKey) && Given(c.notificationUrl)
    ensures !HasKey(r, "Token") && !HasKey(r, "Password")
    ensures Field(r, "OrderId") == JStr(orderId) && Field(r, "Amount") == JNum(amount)
  {
    var values := [
      JStr(c.terminalKey.value), JNum(amount), JStr(orderId), JStr(description), JStr(SuccessUrl(c)),
      JStr(FailUrl(c)), JStr(c.notificationUrl.value), JStr(customerKey)];
    InitNamesFacts();
    var r: seq<Entry> := seq(8, i requires 0 <= i < 8 => (InitNames[i], values[i]));
    assert DistinctKeys(r);
    FieldOfObject(r, 1);
    FieldOfObject(r, 2);
    r
  }

  lemma {:induction false} FieldAppend(p: seq<Entry>, k: string, v: JsValue, k': string)
    ensures Field(p + [(k, v)], k') == if HasKey(p, k') then Field(p, k') else if k' == k then v else JUndefined
    decreases |p|
  {
    if p != [] {
      assert (p + [(k, v)])[1..] == p[1..] + [(k, v)];
      FieldAppend(p[1..], k, v, k');
      if p[0].0 != k' {
        assert HasKey(p, k') ==> HasKey(p[1..], k') by {
          if HasKey(p, k') {
            var i :| 0 <= i < |p| && p[i].0 == k';
            assert p[1..][i - 1].0 == k';
          }
        }
        assert HasKey(p[1..], k') ==> HasKey(p, k') by {
          if HasKey(p[1..], k') {
            var i :| 0 <= i < |p[1..]| && p[1..][i].0 == k';
            assert p[i + 1].0 == k';
          }
        }
      }
    }
  }

  /** The request as sent: the fields with the token added. */
  function SignedRequest(fields: Payload, token: string): (r: Payload)
    requires !HasKey(fields, "Token")
    ensures Field(r, "Token") == JStr(token)
    ensures forall k :: k != "Token" ==> Field(r, k) == Field(fields, k)
    ensures Without(r, "Token") == Without(fields, "Token")
  {
    var r := fields + [("Token", JStr(token))];
    assert DistinctKeys(r);
    FieldAppend(fields, "Token", JStr(token), "Token");
    forall k | k != "Token"
      ensures Field(r, k) == Field(fields, k)
    {
      FieldAppend(fields, "Token", JStr(token), k);
    }
    WithoutAppend(fields, [("Token", JStr(token))], "Token");
    r
  }

  lemma {:induction false} WithoutAppend(a: seq<Entry>, b: seq<Entry>, k: string)
    ensures Without(a + b, k) == Without(a, k) + Without(b, k)
    decreases |a|
  {
    if a == [] {
      assert a + b == b;
    } else {
      assert (a + b)[1..] == a[1..] + b;
      WithoutAppend(a[1..], b, k);
    }
  }

  /** The customer key: the user's e-mail, or else the user's id. */
  function CustomerKey(user: Id, email: Option<string>): string {
    if Given(email) then email.value else NatText(user)
  }

  /** The type can be bought online: it exists, is active and costs something. */
  predicate Opens(L: Ledger, typeId: Id) {
    Has(L.subscriptionTypes, typeId) && Get(L.subscriptionTypes, typeId).isActive &&
    Get(L.subscriptionTypes, typeId).price > 0.0
  }

  /** Adding the Token field leaves the signing text as it was. */
  lemma SignedRequestSigns(fields: Payload, token: string, secret: string)
    requires !HasKey(fields, "Token")
    ensures SigningText(SignedRequest(fields, token), secret) == SigningText(fields, secret)
  {
    EntriesWithoutUnsigned(SignedRequest(fields, token), "Token");
    EntriesWithoutUnsigned(fields, "Token");
  }

  /** The gateway can be reached: terminal key, notification address and
      password are all set. */
  predicate Ready(c: Config) {
    Given(c.terminalKey) && Given(c.notificationUrl) && Given(c.password)
  }

  /**
   * `initTinkoffPayment` up to the HTTP call: the signed Init request for
   * gateway order `orderId` and a price of `price` roubles. It needs the
   * terminal key, then the notification address, then the password.
   */
  function Request(c: Config, orderId: string, price: Money, description: string, customerKey: string,
                   hash: string -> string): (r: Result<Payload, Error>)
    ensures r.Ok? <==> Ready(c)
    ensures r.Err? ==> r.error == NotConfigured
    ensures r.Ok? ==>
      Field(r.value, "OrderId") == JStr(orderId) && Field(r.value, "Amount") == JNum(Kopecks(price)) &&
      Field(r.value, "Token") == JStr(hash(SigningText(r.value, c.password.value)))
  {
    if !Given(c.terminalKey) || !Given(c.notificationUrl) then Err(NotConfigured)
    else
      var fields := InitFields(c, orderId, Kopecks(price), description, customerKey);
      match Token(fields, c.password, hash)
      case Err(e) => Err(e)
      case Ok(token) =>
        var rq := SignedRequest(fields, token);
        SignedRequestSigns(fields, token, c.password.value);
        Ok(rq)
  }

  /** The record as the gateway's answer leaves it: status and payment page
      when the gateway sent them, the payment id as text in any case. */
  function Answered(rec: Payment, reply: GatewayReply): (r: Payment)
    ensures r == rec.(status := r.status, paymentId := r.paymentId, paymentUrl := r.paymentUrl)
    ensures r.status == reply.status.GetOr(rec.status) && r.paymentId == Some(JsString(reply.paymentId))
    ensures r.paymentUrl == if reply.paymentUrl.Some? then reply.paymentUrl else rec.paymentUrl
  {
    rec.(status := reply.status.GetOr(rec.status), paymentId := Some(JsString(reply.paymentId)),
         paymentUrl := if reply.paymentUrl.Some? then reply.paymentUrl else rec.paymentUrl)
  }

  /**
   * `initSubscriptionPayment`: record a PENDING payment for the type's
   * amount and price under the store-generated `key`, sign and send the
   * Init request, and record the gateway's answer. The record stays, still
   * PENDING, when the gateway is not configured or refuses; the HTTP call
   * itself is the `reply` parameter.
   */
  function Init(L: Ledger, user: Id, typeId: Id, email: Option<string>, key: string, c: Config,
                reply: GatewayReply, hash: string -> string): (r: (Ledger, Result<Started, Error>))
    ensures !Has(L.subscriptionTypes, typeId) ==> r == (L, Err(NotFound))
    ensures Has(L.subscriptionTypes, typeId) && !Opens(L, typeId) ==> r == (L, Err(InvalidRequest))
    ensures Opens(L, typeId) ==>
      r.0 == L.(payments := r.0.payments) && |r.0.payments| == |L.payments| + 1 &&
      r.0.payments[..|L.payments|] == L.payments && Has(r.0.payments, |L.payments|)
    ensures Opens(L, typeId) ==>
      var ty := Get(L.subscriptionTypes, typeId);
      var rec := Get(r.0.payments, |L.payments|);
      rec.key == key && rec.userId == user && rec.typeId == typeId && rec.amount == ty.amount &&
      rec.price == ty.price && rec.processedAt.None? && rec.rolledBackAt.None? && rec.subscriptionId.None?
    ensures Opens(L, typeId) && r.1.Err? ==>
      var rec := Get(r.0.payments, |L.payments|);
      rec.status == "PENDING" && rec.paymentId.None? && rec.paymentUrl.None?
    ensures Opens(L, typeId) && !Ready(c) ==> r.1 == Err(NotConfigured)
    ensures Opens(L, typeId) && Ready(c) && !reply.success ==> r.1 == Err(GatewayFailure)
    ensures r.1.Ok? <==> Opens(L, typeId) && Ready(c) && reply.success
    ensures r.1.Ok? ==>
      var rec := Get(r.0.payments, |L.payments|);
      rec.status == reply.status.GetOr("PENDING") && rec.paymentId == Some(JsString(reply.paymentId)) &&
      rec.paymentUrl == reply.paymentUrl && r.1.value.paymentUrl == reply.paymentUrl
    ensures r.1.Ok? ==>
      var rq := r.1.value.request;
      Field(rq, "OrderId") == JStr(GatewayOrderId(key)) &&
      Field(rq, "Amount") == JNum(Kopecks(Get(L.subscriptionTypes, typeId).price)) &&
      Field(rq, "Token") == JStr(hash(SigningText(rq, c.password.value)))
  {
    if !Has(L.subscriptionTypes, typeId) then (L, Err(NotFound))
    else
      var ty := Get(L.subscriptionTypes, typeId);
      if !ty.isActive || ty.price <= 0.0 then (L, Err(InvalidRequest))
      else
        var rec := Payment(key, user, typeId, ty.amount, ty.price, "PENDING", None, None, None, None, None);
        var L1 := L.(payments := Append(L.payments, rec));
        assert L1.payments[..|L.payments|] == L.payments;
        match Request(c, GatewayOrderId(key), ty.price, "Абонемент: " + ty.name, CustomerKey(user, email), hash)
        case Err(e) => (L1, Err(e))
        case Ok(rq) =>
          if !reply.success then (L1, Err(GatewayFailure))
          else
            var L2 := L.(payments := Append(L.payments, Answered(rec, reply)));
            assert L2.payments[..|L.payments|] == L.payments;
            (L2, Ok(Started(rq, reply.paymentUrl)))
  }

  /** Every record's gates were set in order: a purchase is recorded with
      its subscription, and a rollback only follows a purchase. */
  predicate GatesInOrder(rec: Payment) {
    (rec.subscriptionId.Some? ==> rec.processedAt.Some?) && (rec.rolledBackAt.Some? ==> rec.subscriptionId.Some?)
  }

  predicate GatesConsistent(L: Ledger) {
    forall j :: 0 <= j < |L.payments| && L.payments[j].Some? ==> GatesInOrder(L.payments[j].value)
  }

  /** Starting a payment keeps the gates in order. */
  lemma InitKeepsGatesInOrder(L: Ledger, user: Id, typeId: Id, email: Option<string>, key: string, c: Config,
                              reply: GatewayReply, hash: string -> string)
    requires GatesConsistent(L)
    ensures GatesConsistent(Init(L, user, typeId, email, key, c, reply, hash).0)
  {
    if Opens(L, typeId) {
      var t := StartedTable(L, user, typeId, email, key, c, reply, hash);
      assert GatesInOrder(t[|L.payments|].value);
      AppendKeepsGates(L.payments, t[|L.payments|]);
    }
  }

  lemma AppendKeepsGates(t: Table<Payment>, x: Option<Payment>)
    requires forall j :: 0 <= j < |t| && t[j].Some? ==> GatesInOrder(t[j].value)
    requires x.Some? ==> GatesInOrder(x.value)
    ensures forall j :: 0 <= j < |t + [x]| && (t + [x])[j].Some? ==> GatesInOrder((t + [x])[j].value)
  {
    forall j | 0 <= j < |t + [x]| && (t + [x])[j].Some?
      ensures GatesInOrder((t + [x])[j].value)
    {
      if j < |t| {
        assert (t + [x])[j] == t[j];
      }
    }
  }

  // The webhook.

  /** What the OrderId of a notification is compared with. */
  datatype Fallback = ByRecordKey | ByGatewayOrderId

  /** How a notification picks its payment record. */
  datatype Lookup = ByPaymentId(pid: string) | ByOrderId(orderId: string, fallback: Fallback)

  predicate Matches(rec: Payment, c: Lookup) {
    match c
    case ByPaymentId(pid) => rec.paymentId == Some(pid)
    case ByOrderId(o, f) => (if f == ByRecordKey then rec.key else GatewayOrderId(rec.key)) == o
  }

  predicate MatchAt(t: Table<Payment>, j: int, c: Lookup) {
    0 <= j < |t| && t[j].Some? && Matches(t[j].value, c)
  }

  /** The first matching record from row `n` on. */
  function Find(t: Table<Payment>, c: Lookup, n: nat): (r: Option<Id>)
    ensures r.Some? ==> n <= r.value && MatchAt(t, r.value, c) && forall k :: n <= k < r.value ==> !MatchAt(t, k, c)
    ensures r.None? ==> forall k :: n <= k < |t| ==> !MatchAt(t, k, c)
    decreases |t| - n
  {
    if n >= |t| then None
    else if MatchAt(t, n, c) then Some(n)
    else Find(t, c, n + 1)
  }

  /** The notification's PaymentId as text, when it is truthy. */
  function PaymentIdOf(p: Payload): Option<string> {
    var v := Field(p, "PaymentId");
    if Truthy(v) then Some(JsString(v)) else None
  }

  /** The notification has no PaymentId, or no record carries it. */
  predicate UnknownPaymentId(t: Table<Payment>, p: Payload) {
    PaymentIdOf(p).None? || forall k :: 0 <= k < |t| ==> !MatchAt(t, k, ByPaymentId(PaymentIdOf(p).value))
  }

  /**
   * The record a notification is about: the first one carrying its
   * PaymentId; failing that, the first one its OrderId matches under
   * `fallback`. An OrderId that is not a string makes the store reject
   * the query.
   */
  function Locate(t: Table<Payment>, p: Payload, fallback: Fallback): (r: Result<Id, Error>)
    ensures r.Ok? ==> Has(t, r.value)
    ensures r.Err? ==> r.error == NotFound || r.error == InvalidRequest
    ensures !UnknownPaymentId(t, p) ==>
      r.Ok? && MatchAt(t, r.value, ByPaymentId(PaymentIdOf(p).value)) &&
      forall k :: 0 <= k < r.value ==> !MatchAt(t, k, ByPaymentId(PaymentIdOf(p).value))
    ensures UnknownPaymentId(t, p) && !Truthy(Field(p, "OrderId")) ==> r == Err(NotFound)
    ensures UnknownPaymentId(t, p) && Truthy(Field(p, "OrderId")) && !Field(p, "OrderId").JStr? ==> r == Err(InvalidRequest)
    ensures UnknownPaymentId(t, p) && Truthy(Field(p, "OrderId")) && Field(p, "OrderId").JStr? ==>
      ((r.Ok? <==> exists k :: MatchAt(t, k, ByOrderId(Field(p, "OrderId").s, fallback))) &&
       (r.Ok? ==> MatchAt(t, r.value, ByOrderId(Field(p, "OrderId").s, fallback)) &&
                  forall k :: 0 <= k < r.value ==> !MatchAt(t, k, ByOrderId(Field(p, "OrderId").s, fallback))))
  {
    var pid := PaymentIdOf(p);
    var byPid := if pid.Some? then Find(t, ByPaymentId(pid.value), 0) else None;
    if byPid.Some? then Ok(byPid.value)
    else
      var o := Field(p, "OrderId");
      if !Truthy(o) then Err(NotFound)
      else if !o.JStr? then Err(InvalidRequest)
      else
        match Find(t, ByOrderId(o.s, fallback), 0)
        case Some(j) =>
          assert MatchAt(t, j, ByOrderId(o.s, fallback));
          assert exists k :: MatchAt(t, k, ByOrderId(Field(p, "OrderId").s, fallback));
          Ok(j)
        case None => Err(NotFound)
  }

  /** The lookup as written: the OrderId is compared with the record's own key. */
  function ResolveAsWritten(t: Table<Payment>, p: Payload): Result<Id, Error> {
    Locate(t, p, ByRecordKey)
  }

  /** The lookup as intended: the OrderId is compared with the order id the
      gateway was given for the record. */
  function Resolve(t: Table<Payment>, p: Payload): Result<Id, Error> {
    Locate(t, p, ByGatewayOrderId)
  }

  const Confirmed: string := "CONFIRMED"

  /** Gateway statuses that undo a payment. */
  const FailureStatuses: set<string> := {
    "REJECTED", "CANCELLED", "CANCELED", "DEADLINE_EXPIRED", "REVERSING", "REVERSED",
    "REFUNDING", "REFUNDED", "PARTIAL_REVERSED", "PARTIAL_REFUNDED"}

  /** The notification's Status when it is a non-empty string. */
  function StatusOf(p: Payload): Option<string> {
    var v := Field(p, "Status");
    if v.JStr? && v.s != "" then Some(v.s) else None
  }

  /** A truthy Status that is not a string cannot be stored. */
  predicate StorableStatus(p: Payload) {
    !Truthy(Field(p, "Status")) || Field(p, "Status").JStr?
  }

  /** The notification buys the subscription: CONFIRMED, not yet processed. */
  predicate Purchases(rec: Payment, status: Option<string>) {
    status == Some(Confirmed) && rec.processedAt.None?
  }

  /** The notification undoes the purchase: a failure status on a record
      with a subscription that was not rolled back yet. */
  predicate RollsBack(rec: Payment, status: Option<string>) {
    status.Some? && status.value in FailureStatuses && rec.subscriptionId.Some? && rec.rolledBackAt.None?
  }

  /** The record with the notification's status and PaymentId written. */
  function Noted(rec: Payment, status: Option<string>, pid: Option<string>): Payment {
    rec.(status := status.GetOr(rec.status), paymentId := if pid.Some? then pid else rec.paymentId)
  }

  function Buy(L: Ledger, rec: Payment): (r: Result<(Ledger, Id), Error>)
    ensures r.Ok? ==> r.value.0 == L.(subscriptions := r.value.0.subscriptions)
  {
    Subscriptions.Purchase(L, rec.userId, rec.typeId, true, true)
  }

  function Undo(L: Ledger, rec: Payment): (r: Result<Ledger, Error>)
    ensures r.Ok? ==> r.value == L.(subscriptions := r.value.subscriptions)
  {
    Subscriptions.Rollback(L, rec.userId, rec.subscriptionId, rec.amount)
  }

  /**
   * The effect of a verified notification on record `j`: the status and
   * PaymentId are noted; a purchase or a rollback, when due, changes the
   * subscriptions and closes its gate at `now`; nothing else changes.
   */
  predicate Applied(L: Ledger, L': Ledger, j: Id, status: Option<string>, pid: Option<string>)
    requires Has(L.payments, j)
  {
    var rec := Get(L.payments, j);
    L' == L.(subscriptions := L'.subscriptions, payments := L'.payments) &&
    |L'.payments| == |L.payments| && Has(L'.payments, j) &&
    (forall k :: 0 <= k < |L.payments| && k != j ==> L'.payments[k] == L.payments[k]) &&
    (Purchases(rec, status) ==>
      Buy(L, rec).Ok? && L'.subscriptions == Buy(L, rec).value.0.subscriptions &&
      Get(L'.payments, j) == Noted(rec, status, pid).(processedAt := Some(L.now), subscriptionId := Some(Buy(L, rec).value.1))) &&
    (RollsBack(rec, status) ==>
      Undo(L, rec).Ok? && L'.subscriptions == Undo(L, rec).value.subscriptions &&
      Get(L'.payments, j) == Noted(rec, status, pid).(rolledBackAt := Some(L.now))) &&
    (!Purchases(rec, status) && !RollsBack(rec, status) ==>
      L'.subscriptions == L.subscriptions && Get(L'.payments, j) == Noted(rec, status, pid))
  }

  /** Apply a verified notification to record `j`. */
  function Settle(L: Ledger, j: Id, status: Option<string>, pid: Option<string>): (r: Result<Ledger, Error>)
    requires Has(L.payments, j)
    ensures r.Ok? <==>
      (Purchases(Get(L.payments, j), status) ==> Buy(L, Get(L.payments, j)).Ok?) &&
      (RollsBack(Get(L.payments, j), status) ==> Undo(L, Get(L.payments, j)).Ok?)
    ensures r.Err? && Purchases(Get(L.payments, j), status) ==> r.error == Buy(L, Get(L.payments, j)).error
    ensures r.Err? && RollsBack(Get(L.payments, j), status) ==> r.error == Undo(L, Get(L.payments, j)).error
    ensures r.Ok? ==> Applied(L, r.value, j, status, pid)
  {
    var rec := Get(L.payments, j);
    var noted := Noted(rec, status, pid);
    if Purchases(rec, status) then
      match Buy(L, rec)
      case Err(e) => Err(e)
      case Ok((L1, sid)) =>
        var x := noted.(processedAt := Some(L.now), subscriptionId := Some(sid));
        PutRecordFrame(L, L1, j, x);
        Ok(L1.(payments := Put(L.payments, j, x)))
    else if RollsBack(rec, status) then
      match Undo(L, rec)
      case Err(e) => Err(e)
      case Ok(L1) =>
        var x := noted.(rolledBackAt := Some(L.now));
        PutRecordFrame(L, L1, j, x);
        Ok(L1.(payments := Put(L.payments, j, x)))
    else
      PutRecordFrame(L, L, j, noted);
      Ok(L.(payments := Put(L.payments, j, noted)))
  }

  /** Rewriting record `j` on top of a change to the subscriptions alone
      changes nothing else. */
  lemma PutRecordFrame(L: Ledger, L1: Ledger, j: Id, x: Payment)
    requires Has(L.payments, j) && L1 == L.(subscriptions := L1.subscriptions)
    ensures var L' := L1.(payments := Put(L.payments, j, x));
      L' == L.(subscriptions := L'.subscriptions, payments := L'.payments) &&
      |L'.payments| == |L.payments| && Has(L'.payments, j) && Get(L'.payments, j) == x &&
      (forall k :: 0 <= k < |L.payments| && k != j ==> L'.payments[k] == L.payments[k])
  {
  }

  /**
   * `handleTinkoffNotification`. The token is checked before anything is
   * looked up or written; an error leaves the ledger as it was. `fallback`
   * says how an OrderId is compared with a record: `ByRecordKey` is the
   * service as written, `ByGatewayOrderId` the corrected lookup.
   */
  function Webhook(L: Ledger, p: Payload, password: Option<string>, hash: string -> string, fallback: Fallback): (r: Result<Ledger, Error>)
    ensures !Truthy(Field(p, "Token")) ==> r == Err(MissingToken)
    ensures Truthy(Field(p, "Token")) && !Given(password) ==> r == Err(NotConfigured)
    ensures Truthy(Field(p, "Token")) && Given(password) && !Authentic(p, password, hash) ==> r == Err(InvalidSignature)
    ensures Authentic(p, password, hash) && Locate(L.payments, p, fallback).Err? ==> r == Err(Locate(L.payments, p, fallback).error)
    ensures Authentic(p, password, hash) && Locate(L.payments, p, fallback).Ok? && !StorableStatus(p) ==> r == Err(InvalidRequest)
    ensures r.Ok? <==>
      Authentic(p, password, hash) && Locate(L.payments, p, fallback).Ok? && StorableStatus(p) &&
      (var rec := Get(L.payments, Locate(L.payments, p, fallback).value);
       (Purchases(rec, StatusOf(p)) ==> Buy(L, rec).Ok?) && (RollsBack(rec, StatusOf(p)) ==> Undo(L, rec).Ok?))
    ensures r.Ok? ==> Applied(L, r.value, Locate(L.payments, p, fallback).value, StatusOf(p), PaymentIdOf(p))
  {
    var token := Field(p, "Token");
    if !Truthy(token) then Err(MissingToken)
    else if !Given(password) then Err(NotConfigured)
    else if token != JStr(hash(SigningText(p, password.value))) then Err(InvalidSignature)
    else
      match Locate(L.payments, p, fallback)
      case Err(e) => Err(e)
      case Ok(j) =>
        if !StorableStatus(p) then Err(InvalidRequest)
        else Settle(L, j, StatusOf(p), PaymentIdOf(p))
  }

  /** A webhook keeps the gates in order. */
  lemma WebhookKeepsGatesInOrder(L: Ledger, p: Payload, password: Option<string>, hash: string -> string, fallback: Fallback)
    requires GatesConsistent(L) && Webhook(L, p, password, hash, fallback).Ok?
    ensures GatesConsistent(Webhook(L, p, password, hash, fallback).value)
  {
    var L' := Webhook(L, p, password, hash, fallback).value;
    var j := Locate(L.payments, p, fallback).value;
    assert GatesInOrder(Get(L.payments, j));
    forall k | 0 <= k < |L'.payments| && L'.payments[k].Some?
      ensures GatesInOrder(L'.payments[k].value)
    {
      if k != j {
        assert L'.payments[k] == L.payments[k];
      }
    }
  }

  /** Once a payment has been rolled back, no notification about it touches
      the subscriptions again. */
  lemma SettledPaymentIsInert(L: Ledger, p: Payload, password: Option<string>, hash: string -> string, fallback: Fallback)
    requires GatesConsistent(L) && Webhook(L, p, password, hash, fallback).Ok?
    requires Get(L.payments, Locate(L.payments, p, fallback).value).rolledBackAt.Some?
    ensures Webhook(L, p, password, hash, fallback).value.subscriptions == L.subscriptions
  {
    var j := Locate(L.payments, p, fallback).value;
    assert GatesInOrder(Get(L.payments, j));
  }

  /** Noting a notification on the record it was located at does not change
      where it is located, under either OrderId comparison. */
  lemma LocateAfterNoting(t: Table<Payment>, t': Table<Payment>, p: Payload, j: Id, fallback: Fallback)
    requires Locate(t, p, fallback) == Ok(j)
    requires |t'| == |t| && Has(t', j) && forall k :: 0 <= k < |t| && k != j ==> t'[k] == t[k]
    requires t'[j].value.key == t[j].value.key
    requires t'[j].value.paymentId == if PaymentIdOf(p).Some? then PaymentIdOf(p) else t[j].value.paymentId
    ensures Locate(t', p, fallback) == Ok(j)
  {
    var pid := PaymentIdOf(p);
    if pid.Some? {
      var c := ByPaymentId(pid.value);
      assert MatchAt(t', j, c);
      assert forall k :: 0 <= k < j ==> !MatchAt(t', k, c) by {
        forall k | 0 <= k < j
          ensures !MatchAt(t', k, c)
        {
          assert t'[k] == t[k];
          assert !MatchAt(t, k, c);
        }
      }
    } else {
      var o := Field(p, "OrderId");
      forall k | 0 <= k < |t|
        ensures MatchAt(t', k, ByOrderId(o.s, fallback)) == MatchAt(t, k, ByOrderId(o.s, fallback))
      {
        if k != j {
          assert t'[k] == t[k];
        }
      }
      if o.JStr? && Truthy(o) {
        assert MatchAt(t, j, ByOrderId(o.s, fallback));
      }
    }
  }

  /** Delivering the same notification again, at any later time, changes
      nothing: the gates are closed and the status and PaymentId are
      already noted. */
  lemma WebhookIsIdempotent(L: Ledger, p: Payload, password: Option<string>, hash: string -> string, fallback: Fallback, t: int)
    requires Webhook(L, p, password, hash, fallback).Ok?
    ensures var L1 := Webhook(L, p, password, hash, fallback).value;
      Webhook(L1.(now := t), p, password, hash, fallback) == Ok(L1.(now := t))
  {
    var L1 := Webhook(L, p, password, hash, fallback).value;
    var j := Locate(L.payments, p, fallback).value;
    var L2 := L1.(now := t);
    LocateAfterNoting(L.payments, L1.payments, p, j, fallback);
    AppliedClosesGates(L, L1, j, StatusOf(p), PaymentIdOf(p));
    SettleClosed(L2, j, StatusOf(p), PaymentIdOf(p));
  }

  /** A record whose gates are closed and whose status and PaymentId are
      noted settles to no change at all. */
  lemma SettleClosed(L: Ledger, j: Id, status: Option<string>, pid: Option<string>)
    requires Has(L.payments, j)
    requires var rec := Get(L.payments, j);
      !Purchases(rec, status) && !RollsBack(rec, status) && Noted(rec, status, pid) == rec
    ensures Settle(L, j, status, pid) == Ok(L)
  {
    var r := Settle(L, j, status, pid).value;
    assert r.payments == L.payments by {
      assert forall k :: 0 <= k < |L.payments| && k != j ==> r.payments[k] == L.payments[k];
      assert r.payments[j] == L.payments[j];
    }
  }

  /** After a notification is applied, applying the same status and
      PaymentId again is due no effect and notes nothing new. */
  lemma AppliedClosesGates(L: Ledger, L1: Ledger, j: Id, status: Option<string>, pid: Option<string>)
    requires Has(L.payments, j) && Applied(L, L1, j, status, pid)
    ensures var rec' := Get(L1.payments, j);
      !Purchases(rec', status) && !RollsBack(rec', status) && Noted(rec', status, pid) == rec'
  {
    var rec := Get(L.payments, j);
    var rec' := Get(L1.payments, j);
    ConfirmedIsNoFailure();
    if Purchases(rec, status) {
      assert rec'.processedAt.Some? && rec'.status == Confirmed && rec'.paymentId == Noted(rec, status, pid).paymentId;
    } else if RollsBack(rec, status) {
      assert rec'.rolledBackAt.Some? && rec'.status == status.value && rec'.paymentId == Noted(rec, status, pid).paymentId;
    } else {
      assert rec' == Noted(rec, status, pid);
    }
  }

  lemma ConfirmedIsNoFailure()
    ensures Confirmed !in FailureStatuses
  {
  }

  // Runs of notifications.

  /** One delivery at time `at`; a rejected notification changes nothing but
      the clock. */
  function Deliver(L: Ledger, at: int, p: Payload, password: Option<string>, hash: string -> string, fallback: Fallback): Ledger {
    match Webhook(L.(now := at), p, password, hash, fallback)
    case Ok(L1) => L1
    case Err(_) => L.(now := at)
  }

  /** The delivery at `at` bought a subscription for record `j`. */
  predicate Bought(L: Ledger, at: int, p: Payload, password: Option<string>, hash: string -> string, fallback: Fallback, j: Id) {
    var L0 := L.(now := at);
    Webhook(L0, p, password, hash, fallback).Ok? && Locate(L0.payments, p, fallback) == Ok(j) && Purchases(Get(L0.payments, j), StatusOf(p))
  }

  /** The delivery at `at` rolled back the purchase of record `j`. */
  predicate RolledBack(L: Ledger, at: int, p: Payload, password: Option<string>, hash: string -> string, fallback: Fallback, j: Id) {
    var L0 := L.(now := at);
    Webhook(L0, p, password, hash, fallback).Ok? && Locate(L0.payments, p, fallback) == Ok(j) && RollsBack(Get(L0.payments, j), StatusOf(p))
  }

  /** How many deliveries of the run bought a subscription for record `j`. */
  function Purchased(L: Ledger, run: seq<(int, Payload)>, password: Option<string>, hash: string -> string, fallback: Fallback, j: Id): nat
    decreases |run|
  {
    if run == [] then 0
    else
      (if Bought(L, run[0].0, run[0].1, password, hash, fallback, j) then 1 else 0) +
      Purchased(Deliver(L, run[0].0, run[0].1, password, hash, fallback), run[1..], password, hash, fallback, j)
  }

  /** How many deliveries of the run rolled back record `j`. */
  function RolledBackTimes(L: Ledger, run: seq<(int, Payload)>, password: Option<string>, hash: string -> string, fallback: Fallback, j: Id): nat
    decreases |run|
  {
    if run == [] then 0
    else
      (if RolledBack(L, run[0].0, run[0].1, password, hash, fallback, j) then 1 else 0) +
      RolledBackTimes(Deliver(L, run[0].0, run[0].1, password, hash, fallback), run[1..], password, hash, fallback, j)
  }

  /** A delivery keeps record `j`, never reopens a closed gate, and closes
      the gate of the effect it applied. */
  lemma DeliverKeepsGates(L: Ledger, at: int, p: Payload, password: Option<string>, hash: string -> string, fallback: Fallback, j: Id)
    requires Has(L.payments, j)
    ensures var L1 := Deliver(L, at, p, password, hash, fallback);
      Has(L1.payments, j) &&
      (Get(L.payments, j).processedAt.Some? ==> Get(L1.payments, j).processedAt.Some?) &&
      (Get(L.payments, j).rolledBackAt.Some? ==> Get(L1.payments, j).rolledBackAt.Some?) &&
      (Bought(L, at, p, password, hash, fallback, j) ==> Get(L1.payments, j).processedAt.Some?) &&
      (RolledBack(L, at, p, password, hash, fallback, j) ==> Get(L1.payments, j).rolledBackAt.Some?)
  {
    var L0 := L.(now := at);
    var w := Webhook(L0, p, password, hash, fallback);
    if w.Ok? {
      var i := Locate(L0.payments, p, fallback).value;
      if i != j {
        assert w.value.payments[j] == L.payments[j];
      }
    }
  }

  /** However many notifications arrive, in whatever order and at whatever
      times, a payment buys its subscription at most once, and never again
      once it has been processed. */
  lemma {:induction false} PurchaseAtMostOnce(L: Ledger, run: seq<(int, Payload)>, password: Option<string>,
                                              hash: string -> string, fallback: Fallback, j: Id)
    requires Has(L.payments, j)
    ensures Purchased(L, run, password, hash, fallback, j) <= if Get(L.payments, j).processedAt.None? then 1 else 0
    decreases |run|
  {
    if run != [] {
      var L1 := Deliver(L, run[0].0, run[0].1, password, hash, fallback);
      DeliverKeepsGates(L, run[0].0, run[0].1, password, hash, fallback, j);
      PurchaseAtMostOnce(L1, run[1..], password, hash, fallback, j);
      if Bought(L, run[0].0, run[0].1, password, hash, fallback, j) {
        assert Get(L.payments, j).processedAt.None?;
      }
    }
  }

  /** Likewise a payment is rolled back at most once, and never again once
      it has been rolled back. */
  lemma {:induction false} RollbackAtMostOnce(L: Ledger, run: seq<(int, Payload)>, password: Option<string>,
                                              hash: string -> string, fallback: Fallback, j: Id)
    requires Has(L.payments, j)
    ensures RolledBackTimes(L, run, password, hash, fallback, j) <= if Get(L.payments, j).rolledBackAt.None? then 1 else 0
    decreases |run|
  {
    if run != [] {
      var L1 := Deliver(L, run[0].0, run[0].1, password, hash, fallback);
      DeliverKeepsGates(L, run[0].0, run[0].1, password, hash, fallback, j);
      RollbackAtMostOnce(L1, run[1..], password, hash, fallback, j);
      if RolledBack(L, run[0].0, run[0].1, password, hash, fallback, j) {
        assert Get(L.payments, j).rolledBackAt.None?;
      }
    }
  }

  // The OrderId fallback.

  /** As written, a notification that identifies a payment only by the
      order id the gateway was given never finds it when the key is longer
      than 20 characters or contains a dash, as "pay-1" does. */
  lemma OrderIdFallbackMisses()
    ensures var key := "pay-1";
      var t := [Some(Payment(key, 0, 0, 1.0, 1.0, "NEW", None, None, None, None, None))];
      var p: Payload := [("OrderId", JStr(GatewayOrderId(key)))];
      ResolveAsWritten(t, p) == Err(NotFound) && Resolve(t, p) == Ok(0)
  {
    var key := "pay-1";
    var t := [Some(Payment(key, 0, 0, 1.0, 1.0, "NEW", None, None, None, None, None))];
    OrderIdOfSample();
    var p: Payload := [("OrderId", JStr("pay1"))];
    SampleNoticeFields(p);
    assert !MatchAt(t, 0, ByOrderId("pay1", ByRecordKey));
    assert MatchAt(t, 0, ByOrderId("pay1", ByGatewayOrderId));
    LocateByOrderId(t, p, "pay1", ByRecordKey);
    LocateByOrderId(t, p, "pay1", ByGatewayOrderId);
  }

  lemma SampleNoticeFields(p: Payload)
    requires p == [("OrderId", JStr("pay1"))]
    ensures PaymentIdOf(p).None? && Field(p, "OrderId") == JStr("pay1")
  {
    assert p[0].0 != "PaymentId";
    assert Field(p, "PaymentId") == JUndefined;
  }

  /** Without a known PaymentId, a one-record table is searched by OrderId. */
  lemma LocateByOrderId(t: Table<Payment>, p: Payload, o: string, fallback: Fallback)
    requires |t| == 1 && PaymentIdOf(p).None? && Field(p, "OrderId") == JStr(o) && o != ""
    ensures Locate(t, p, fallback) == if MatchAt(t, 0, ByOrderId(o, fallback)) then Ok(0) else Err(NotFound)
  {
  }

  lemma OrderIdOfSample()
    ensures GatewayOrderId("pay-1") == "pay1"
  {
    var k := "pay-1";
    assert k[1..] == "ay-1" && k[2..] == "y-1" && k[3..] == "-1" && k[4..] == "1";
    assert WithoutDashes("1") == "1";
    assert WithoutDashes("-1") == "1";
    assert WithoutDashes("y-1") == "y1";
    assert WithoutDashes("ay-1") == "ay1";
  }

  /** As written, the fallback misses every payment started with a key that
      is not already its own order id, unless some other record's key
      happens to equal that order id. */
  lemma FallbackAsWrittenMissesStarted(L: Ledger, user: Id, typeId: Id, email: Option<string>, key: string, c: Config,
                                       reply: GatewayReply, hash: string -> string, p: Payload)
    requires Opens(L, typeId)
    requires |key| > 20 || exists i :: 0 <= i < |key| && key[i] == '-'
    requires forall k :: 0 <= k < |L.payments| && L.payments[k].Some? ==> L.payments[k].value.key != GatewayOrderId(key)
    requires Field(p, "OrderId") == JStr(GatewayOrderId(key)) && GatewayOrderId(key) != ""
    requires UnknownPaymentId(Init(L, user, typeId, email, key, c, reply, hash).0.payments, p)
    ensures ResolveAsWritten(Init(L, user, typeId, email, key, c, reply, hash).0.payments, p) == Err(NotFound)
  {
    var o := GatewayOrderId(key);
    var t := StartedTable(L, user, typeId, email, key, c, reply, hash);
    GatewayOrderIdIsKeyIff(key);
    forall k | 0 <= k < |L.payments| ensures !MatchAt(L.payments, k, ByOrderId(o, ByRecordKey)) {
    }
    LocateAppended(L.payments, t[|L.payments|].value, p, o, ByRecordKey);
  }

  /** Corrected, the fallback finds a started payment by the order id the
      gateway was given, provided no older record shares that order id. */
  lemma StartedPaymentIsLocated(L: Ledger, user: Id, typeId: Id, email: Option<string>, key: string, c: Config,
                                reply: GatewayReply, hash: string -> string, p: Payload)
    requires Opens(L, typeId)
    requires forall k :: 0 <= k < |L.payments| && L.payments[k].Some? ==>
      GatewayOrderId(L.payments[k].value.key) != GatewayOrderId(key)
    requires Field(p, "OrderId") == JStr(GatewayOrderId(key)) && GatewayOrderId(key) != ""
    requires UnknownPaymentId(Init(L, user, typeId, email, key, c, reply, hash).0.payments, p)
    ensures Resolve(Init(L, user, typeId, email, key, c, reply, hash).0.payments, p) == Ok(|L.payments|)
  {
    var o := GatewayOrderId(key);
    var t := StartedTable(L, user, typeId, email, key, c, reply, hash);
    forall k | 0 <= k < |L.payments| ensures !MatchAt(L.payments, k, ByOrderId(o, ByGatewayOrderId)) {
    }
    LocateAppended(L.payments, t[|L.payments|].value, p, o, ByGatewayOrderId);
  }

  /** The payments table after a payment is opened: the old one plus the
      new record, which carries the key. */
  function StartedTable(L: Ledger, user: Id, typeId: Id, email: Option<string>, key: string, c: Config,
                        reply: GatewayReply, hash: string -> string): (t: Table<Payment>)
    requires Opens(L, typeId)
    ensures t == Init(L, user, typeId, email, key, c, reply, hash).0.payments
    ensures |t| == |L.payments| + 1 && t == L.payments + [t[|L.payments|]]
    ensures t[|L.payments|].Some? && t[|L.payments|].value.key == key
  {
    var t := Init(L, user, typeId, email, key, c, reply, hash).0.payments;
    assert t == t[..|L.payments|] + [t[|L.payments|]];
    t
  }

  /** Looking up by OrderId in a table with one record appended, when no
      earlier record matches: the new record is found exactly when it
      matches. */
  lemma LocateAppended(t: Table<Payment>, rec: Payment, p: Payload, o: string, fallback: Fallback)
    requires forall k :: 0 <= k < |t| ==> !MatchAt(t, k, ByOrderId(o, fallback))
    requires Field(p, "OrderId") == JStr(o) && o != ""
    requires UnknownPaymentId(t + [Some(rec)], p)
    ensures Locate(t + [Some(rec)], p, fallback) == if Matches(rec, ByOrderId(o, fallback)) then Ok(|t|) else Err(NotFound)
  {
    var t' := t + [Some(rec)];
    forall k | 0 <= k < |t| ensures !MatchAt(t', k, ByOrderId(o, fallback)) {
      assert t'[k] == t[k] && !MatchAt(t, k, ByOrderId(o, fallback));
    }
    assert MatchAt(t', |t|, ByOrderId(o, fallback)) == Matches(rec, ByOrderId(o, fallback));
  }
}

=== FILE: products.dfy ===
/**
 * The shop's stock keeping: the availability listing, the two stock
 * movements the order service drives, and removal, which archives a
 * product that order lines still point at instead of deleting it.
 */
module Products {
  import opened Wrappers
  import opened Ledger

  /** Stock of a product row that exists. */
  function Stock(L: Ledger, id: Id): int
    requires Has(L.products, id)
  {
    Get(L.products, id).stockQuantity
  }

  /** Only the stock of product `id` differs between the two ledgers. */
  predicate StockMoved(L: Ledger, L': Ledger, id: Id, delta: int)
    requires Has(L.products, id)
  {
    L' == L.(products := L'.products) &&
    |L'.products| == |L.products| && Has(L'.products, id) &&
    Get(L'.products, id) == Get(L.products, id).(stockQuantity := Stock(L, id) + delta) &&
    forall j :: 0 <= j < |L.products| && j != id ==> L'.products[j] == L.products[j]
  }

  /** Take `quantity` out of stock; refused when less is on hand. */
  function DecreaseStock(L: Ledger, id: Id, quantity: int): (r: Result<Ledger, Error>)
    ensures !Has(L.products, id) ==> r == Err(NotFound)
    ensures Has(L.products, id) && Stock(L, id) < quantity ==> r == Err(OutOfStock(id))
    ensures r.Ok? <==> Has(L.products, id) && Stock(L, id) >= quantity
    ensures r.Ok? ==> StockMoved(L, r.value, id, -quantity)
    ensures r.Ok? ==> Stock(r.value, id) >= 0
  {
    if !Has(L.products, id) then Err(NotFound)
    else
      var p := Get(L.products, id);
      if p.stockQuantity < quantity then Err(OutOfStock(id))
      else Ok(L.(products := Put(L.products, id, p.(stockQuantity := p.stockQuantity - quantity))))
  }

  /** Put `quantity` back into stock. Updating a missing row fails in the
      store, which the service passes on. */
  function IncreaseStock(L: Ledger, id: Id, quantity: int): (r: Result<Ledger, Error>)
    ensures r.Ok? <==> Has(L.products, id)
    ensures r.Err? ==> r.error == NotFound
    ensures r.Ok? ==> StockMoved(L, r.value, id, quantity)
  {
    if !Has(L.products, id) then Err(NotFound)
    else
      var p := Get(L.products, id);
      Ok(L.(products := Put(L.products, id, p.(stockQuantity := p.stockQuantity + quantity))))
  }

  /** Increasing by the quantity a decrease took restores the store exactly. */
  lemma IncreaseUndoesDecrease(L: Ledger, id: Id, quantity: int)
    requires DecreaseStock(L, id, quantity).Ok?
    ensures IncreaseStock(DecreaseStock(L, id, quantity).value, id, quantity) == Ok(L)
  {
    var L1 := DecreaseStock(L, id, quantity).value;
    var L2 := IncreaseStock(L1, id, quantity).value;
    assert L2.products == L.products;
  }

  /** A product on offer in the shop. */
  predicate OnOffer(L: Ledger, id: int) {
    0 <= id < |L.products| && L.products[id].Some? &&
    L.products[id].value.isAvailable && L.products[id].value.stockQuantity > 0
  }

  /** Products on offer among the first `n` rows, newest (highest id) first. */
  function OfferedAmong(L: Ledger, n: nat): (r: seq<Id>)
    requires n <= |L.products|
    ensures forall x :: x in r <==> x < n && OnOffer(L, x)
    ensures forall i, j :: 0 <= i < j < |r| ==> r[i] > r[j]
  {
    if n == 0 then []
    else
      var rest := OfferedAmong(L, n - 1);
      if OnOffer(L, n - 1) then
        var r := [n - 1] + rest;
        assert forall i, j :: 0 <= i < j < |r| ==> r[i] > r[j] by {
          forall i, j | 0 <= i < j < |r| ensures r[i] > r[j] {
            assert r[j] == rest[j - 1] && rest[j - 1] in rest;
          }
        }
        r
      else rest
  }

  /** The shop listing: available products with stock, newest first. */
  function FindAvailable(L: Ledger): (r: seq<Id>)
    ensures forall x :: x in r <==> OnOffer(L, x)
    ensures forall i, j :: 0 <= i < j < |r| ==> r[i] > r[j]
  {
    OfferedAmong(L, |L.products|)
  }

  /** Some order line, of any order, names the product. */
  predicate Referenced(L: Ledger, id: Id) {
    exists o, k :: 0 <= o < |L.orders| && L.orders[o].Some? &&
      0 <= k < |L.orders[o].value.items| && L.orders[o].value.items[k].productId == id
  }

  /** Every order line names a product that exists. */
  predicate OrderLinesResolve(L: Ledger) {
    forall o, k :: (0 <= o < |L.orders| && L.orders[o].Some? &&
                    0 <= k < |L.orders[o].value.items|) ==> Has(L.products, L.orders[o].value.items[k].productId)
  }

  /**
   * Remove a product. The store refuses to delete a row that order lines
   * reference; the service then archives it: unavailable, stock 0.
   */
  function Remove(L: Ledger, id: Id): (r: Result<Ledger, Error>)
    ensures r.Err? <==> !Has(L.products, id)
    ensures r.Err? ==> r.error == NotFound
    ensures r.Ok? ==> r.value == L.(products := r.value.products) && |r.value.products| == |L.products|
    ensures r.Ok? ==> forall j :: 0 <= j < |L.products| && j != id ==> r.value.products[j] == L.products[j]
    ensures r.Ok? && Referenced(L, id) ==>
      Has(r.value.products, id) &&
      Get(r.value.products, id) == Get(L.products, id).(isAvailable := false, stockQuantity := 0)
    ensures r.Ok? && !Referenced(L, id) ==> !Has(r.value.products, id)
  {
    if !Has(L.products, id) then Err(NotFound)
    else if Referenced(L, id) then
      Ok(L.(products := Put(L.products, id, Get(L.products, id).(isAvailable := false, stockQuantity := 0))))
    else Ok(L.(products := Delete(L.products, id)))
  }

  /** A removed product is no longer offered, whichever way it went. */
  lemma RemovedIsNotOffered(L: Ledger, id: Id)
    requires Remove(L, id).Ok?
    ensures id !in FindAvailable(Remove(L, id).value)
  {
  }

  /** Removal keeps every order line pointing at an existing product. */
  lemma RemoveKeepsOrderLinesResolvable(L: Ledger, id: Id)
    requires OrderLinesResolve(L) && Remove(L, id).Ok?
    ensures OrderLinesResolve(Remove(L, id).value)
  {
    var L' := Remove(L, id).value;
    forall o, k | 0 <= o < |L'.orders| && L'.orders[o].Some? && 0 <= k < |L'.orders[o].value.items|
      ensures Has(L'.products, L'.orders[o].value.items[k].productId)
    {
      var pid := L.orders[o].value.items[k].productId;
      assert Has(L.products, pid);
      if pid == id {
        assert Referenced(L, id);
      }
    }
  }
}

=== FILE: sessions.dfy ===
/**
 * The dated sessions of recurring groups: generating them from the weekly
 * schedule by walking business days, booking every ACTIVE member onto a
 * new session, cancelling and deleting.
 */
module GroupSessions {
  import opened Wrappers
  import opened Ledger
  import opened KrasnoyarskTime
  import opened GroupBookings

  // ---------------------------------------------------------------------
  // Booking the members of a group onto one session
  // ---------------------------------------------------------------------

  /** Enrollment row `x` is an ACTIVE enrollment in group `g`. */
  predicate ActiveMember(L: Ledger, x: int, g: Id) {
    0 <= x < |L.enrollments| && L.enrollments[x].Some? &&
    L.enrollments[x].value.groupId == g && L.enrollments[x].value.status == EnrollmentStatus.Active
  }

  /** An ACTIVE member of `g` with no booking on `sid` yet. */
  predicate Wanting(L: Ledger, x: int, sid: Id, g: Id) {
    ActiveMember(L, x, g) && !HasBookingFor(L.bookings, sid, L.enrollments[x].value.userId)
  }

  /** The user a booking row belongs to, or -1. */
  function UserOf(b: Option<Booking>): int {
    if b.Some? && b.value.userId.Some? then b.value.userId.value else -1
  }

  /** Booking row `j` of `t` is the fan-out booking, on `sid`, of an ACTIVE
      member of `g` in `L`. */
  predicate FanOutOf(L: Ledger, t: Table<Booking>, j: int, sid: Id, g: Id, price: Money) {
    0 <= j < |t| && t[j].Some? && t[j].value.groupEnrollmentId.Some? &&
    ActiveMember(L, t[j].value.groupEnrollmentId.value, g) &&
    t[j].value == FanOutBooking(L.enrollments[t[j].value.groupEnrollmentId.value].value,
                                t[j].value.groupEnrollmentId.value, sid, price)
  }

  /** `r` differs from `L` only by appended bookings and by the seat count
      of session `sid`, which rose by exactly their seats on it. */
  ghost predicate OnlySessionFilled(L: Ledger, r: Ledger, sid: Id)
    requires Has(L.sessions, sid)
  {
    r == L.(bookings := r.bookings, sessions := r.sessions) &&
    |r.bookings| >= |L.bookings| && (forall j :: 0 <= j < |L.bookings| ==> r.bookings[j] == L.bookings[j]) &&
    |r.sessions| == |L.sessions| && (forall j :: 0 <= j < |L.sessions| && j != sid ==> r.sessions[j] == L.sessions[j]) &&
    Has(r.sessions, sid) &&
    Get(r.sessions, sid) == Get(L.sessions, sid).(currentParticipants :=
      Get(L.sessions, sid).currentParticipants + SeatsFrom(r.bookings, |L.bookings|, sid))
  }

  /** What booking the members has achieved once enrollments `0..x` are
      visited. */
  ghost predicate Filling(L: Ledger, r: Ledger, x: int, sid: Id, g: Id, price: Money)
    requires Has(L.sessions, sid)
  {
    0 <= x <= |L.enrollments| && OnlySessionFilled(L, r, sid) &&
    FreshFanOut(L, r, sid, g, price) && OneEach(L, r) &&
    (forall y :: 0 <= y < x && ActiveMember(L, y, g) ==> HasBookingFor(r.bookings, sid, L.enrollments[y].value.userId)) &&
    ((forall y :: !Wanting(L, y, sid, g)) ==> r == L)
  }

  /** Every booking added is the fan-out booking of a member who had none. */
  ghost predicate FreshFanOut(L: Ledger, r: Ledger, sid: Id, g: Id, price: Money) {
    |r.bookings| >= |L.bookings| &&
    forall j :: |L.bookings| <= j < |r.bookings| ==>
      FanOutOf(L, r.bookings, j, sid, g, price) && !HasBookingFor(L.bookings, sid, UserOf(r.bookings[j]))
  }

  /** No two bookings added belong to one user. */
  ghost predicate OneEach(L: Ledger, r: Ledger) {
    forall i, j :: |L.bookings| <= i < j < |r.bookings| ==> UserOf(r.bookings[i]) != UserOf(r.bookings[j])
  }

  /** Booking one more member keeps the seat count in step. */
  lemma BookKeepsFilled(L: Ledger, r: Ledger, sid: Id, x: Id, price: Money)
    requires Has(L.sessions, sid) && OnlySessionFilled(L, r, sid) && Has(r.enrollments, x)
    ensures OnlySessionFilled(L, BookSession(r, sid, x, price), sid)
  {
    SeatsFromAppend(r.bookings, |L.bookings|, sid, FanOutBooking(Get(r.enrollments, x), x, sid, price));
  }

  /** One turn of the members loop: book enrollment `x` if it is an ACTIVE
      member of `g` whose user has no booking on `sid` yet. */
  function Enlist(r: Ledger, x: Id, sid: Id, g: Id, price: Money): (r': Ledger)
    requires Has(r.sessions, sid)
    ensures r' == r || (ActiveMember(r, x, g) && r' == BookSession(r, sid, x, price))
  {
    if ActiveMember(r, x, g) && !HasBookingFor(r.bookings, sid, r.enrollments[x].value.userId)
    then BookSession(r, sid, x, price)
    else r
  }

  lemma EnlistKeepsFilling(L: Ledger, r: Ledger, x: Id, sid: Id, g: Id, price: Money)
    requires Has(L.sessions, sid) && x < |L.enrollments| && Filling(L, r, x, sid, g, price)
    ensures Filling(L, Enlist(r, x, sid, g, price), x + 1, sid, g, price)
  {
    if ActiveMember(r, x, g) && !HasBookingFor(r.bookings, sid, r.enrollments[x].value.userId) {
      BookKeepsFilled(L, r, sid, x, price);
      BookKeepsFresh(L, r, x, sid, g, price);
      BookKeepsOneEach(L, r, x, sid, g, price);
      assert Wanting(L, x, sid, g);
    }
  }

  lemma BookKeepsFresh(L: Ledger, r: Ledger, x: Id, sid: Id, g: Id, price: Money)
    requires Has(L.sessions, sid) && OnlySessionFilled(L, r, sid) && FreshFanOut(L, r, sid, g, price)
    requires r.enrollments == L.enrollments && ActiveMember(L, x, g)
    requires !HasBookingFor(r.bookings, sid, L.enrollments[x].value.userId)
    ensures FreshFanOut(L, BookSession(r, sid, x, price), sid, g, price)
  {
    var r' := BookSession(r, sid, x, price);
    forall j | |L.bookings| <= j < |r'.bookings|
      ensures FanOutOf(L, r'.bookings, j, sid, g, price) && !HasBookingFor(L.bookings, sid, UserOf(r'.bookings[j]))
    {
      if j < |r.bookings| {
        assert r'.bookings[j] == r.bookings[j];
      } else {
        assert !HasBookingFor(L.bookings, sid, L.enrollments[x].value.userId) by {
          HasBookingForPrefix(L.bookings, r.bookings, sid, L.enrollments[x].value.userId);
        }
      }
    }
  }

  /** A booking of a table's prefix is a booking of the table. */
  lemma HasBookingForPrefix(t: Table<Booking>, t': Table<Booking>, sid: Id, u: Id)
    requires |t'| >= |t| && forall j :: 0 <= j < |t| ==> t'[j] == t[j]
    ensures HasBookingFor(t, sid, u) ==> HasBookingFor(t', sid, u)
  {
    if HasBookingFor(t, sid, u) {
      var j :| 0 <= j < |t| && t[j].Some? && t[j].value.target == OnSession(sid) && t[j].value.userId == Some(u);
      assert t'[j] == t[j];
    }
  }

  lemma BookKeepsOneEach(L: Ledger, r: Ledger, x: Id, sid: Id, g: Id, price: Money)
    requires Has(L.sessions, sid) && OnlySessionFilled(L, r, sid) && FreshFanOut(L, r, sid, g, price) && OneEach(L, r)
    requires r.enrollments == L.enrollments && ActiveMember(L, x, g)
    requires !HasBookingFor(r.bookings, sid, L.enrollments[x].value.userId)
    ensures OneEach(L, BookSession(r, sid, x, price))
  {
    var u := L.enrollments[x].value.userId;
    var r' := BookSession(r, sid, x, price);
    forall i, j | |L.bookings| <= i < j < |r'.bookings|
      ensures UserOf(r'.bookings[i]) != UserOf(r'.bookings[j])
    {
      if j == |r.bookings| {
        assert r'.bookings[i] == r.bookings[i] && FanOutOf(L, r.bookings, i, sid, g, price);
        assert UserOf(r'.bookings[j]) == u;
      } else {
        assert r'.bookings[i] == r.bookings[i] && r'.bookings[j] == r.bookings[j];
      }
    }
  }

  /**
   * Book every ACTIVE member of group `g` who has no booking on session
   * `sid` yet, one fan-out booking each, in enrollment order. A user with
   * two ACTIVE enrollments gets one booking. Nothing is debited and the
   * seat limit is not consulted.
   */
  method BookMembers(L: Ledger, sid: Id, g: Id, price: Money) returns (r: Ledger)
    requires Has(L.sessions, sid)
    ensures OnlySessionFilled(L, r, sid)
    ensures forall j :: |L.bookings| <= j < |r.bookings| ==>
      FanOutOf(L, r.bookings, j, sid, g, price) && !HasBookingFor(L.bookings, sid, UserOf(r.bookings[j]))
    ensures forall i, j :: |L.bookings| <= i < j < |r.bookings| ==> UserOf(r.bookings[i]) != UserOf(r.bookings[j])
    ensures forall y :: ActiveMember(L, y, g) ==> HasBookingFor(r.bookings, sid, L.enrollments[y].value.userId)
    ensures (forall y :: !Wanting(L, y, sid, g)) ==> r == L
  {
    r := L;
    var x := 0;
    while x < |L.enrollments|
      invariant Filling(L, r, x, sid, g, price)
    {
      EnlistKeepsFilling(L, r, x, sid, g, price);
      r := Enlist(r, x, sid, g, price);
      x := x + 1;
    }
  }

  /**
   * `createBookingsForSession`: the session must exist; the price per seat
   * is its group's, discounted. The members come from group `g`.
   */
  method CreateBookingsForSession(L: Ledger, sid: Id, g: Id) returns (r: Result<Ledger, Error>)
    ensures r.Ok? <==> Has(L.sessions, sid) && Has(L.groups, Get(L.sessions, sid).groupId)
    ensures r.Err? ==> r.error == NotFound
    ensures r.Ok? ==> OnlySessionFilled(L, r.value, sid)
    ensures r.Ok? ==> forall j :: |L.bookings| <= j < |r.value.bookings| ==>
      FanOutOf(L, r.value.bookings, j, sid, g, Get(L.groups, Get(L.sessions, sid).groupId).price) &&
      !HasBookingFor(L.bookings, sid, UserOf(r.value.bookings[j]))
    ensures r.Ok? ==> forall i, j :: |L.bookings| <= i < j < |r.value.bookings| ==>
      UserOf(r.value.bookings[i]) != UserOf(r.value.bookings[j])
    ensures r.Ok? ==> forall y :: ActiveMember(L, y, g) ==> HasBookingFor(r.value.bookings, sid, L.enrollments[y].value.userId)
    ensures r.Ok? && (forall y :: !Wanting(L, y, sid, g)) ==> r.value == L
  {
    if !Has(L.sessions, sid) || !Has(L.groups, Get(L.sessions, sid).groupId) {
      return Err(NotFound);
    }
    var L' := BookMembers(L, sid, g, Get(L.groups, Get(L.sessions, sid).groupId).price);
    return Ok(L');
  }

  // ---------------------------------------------------------------------
  // Generating sessions from the schedule
  // ---------------------------------------------------------------------

  /** The schedule passes the service's check: present, with a weekday
      list (possibly empty) and a non-empty time. */
  predicate Usable(s: Option<Schedule>) {
    s.Some? && s.value.daysOfWeek.Some? && s.value.time.Some? && s.value.time.value != ""
  }

  /** The `k`-th business day of the walk that starts on the day of `start`. */
  function Day(start: int, k: int): int {
    AddDays(StartOfDay(start), k)
  }

  /** The walk covers day `k` when it is not after the day of `end`. */
  predicate InWalk(start: int, end: int, k: int) {
    0 <= k && Day(start, k) <= StartOfDay(end)
  }

  /** Day `k` of the walk falls on one of the scheduled weekdays. */
  predicate Due(days: seq<int>, start: int, end: int, k: int) {
    InWalk(start, end, k) && DayOfWeek(Day(start, k)) in days
  }

  /** The instant of the session of day `k`; None for an unreadable time. */
  function Slot(time: string, start: int, k: int): Option<int> {
    BuildDateTimeForDay(Day(start, k), time)
  }

  /** Some session of group `g` is dated `date`, in any status. */
  predicate SessionAt(L: Ledger, g: Id, date: int) {
    exists i :: 0 <= i < |L.sessions| && L.sessions[i].Some? &&
      L.sessions[i].value.groupId == g && L.sessions[i].value.date == date
  }

  /** Rows `i` and `j` are two sessions of one group at one instant. */
  predicate Clash(t: Table<Session>, i: int, j: int) {
    0 <= i < |t| && 0 <= j < |t| && i != j && t[i].Some? && t[j].Some? &&
    t[i].value.groupId == t[j].value.groupId && t[i].value.date == t[j].value.date
  }

  /** No group has two sessions at the same instant. */
  ghost predicate NoDoubleSlots(L: Ledger) {
    forall i, j :: !Clash(L.sessions, i, j)
  }

  /** Walk days are one day apart, so later days come later. */
  lemma DayMonotone(start: int, a: int, b: int)
    requires a <= b
    ensures Day(start, a) <= Day(start, b)
    ensures a < b ==> Day(start, a) < Day(start, b)
  {
    assert Day(start, b) - Day(start, a) == (b - a) * DayMs;
  }

  /** A session created by the walk: of group `g`, scheduled, with the
      schedule's duration, at the slot of a due day, holding exactly the
      seats of the bookings the walk added on it. */
  ghost predicate Generated(L: Ledger, r: Ledger, j: int, g: Id, s: Schedule, start: int, end: int)
    requires s.daysOfWeek.Some? && s.time.Some?
  {
    0 <= j < |r.sessions| && r.sessions[j].Some? &&
    var n := r.sessions[j].value;
    n.groupId == g && n.status == SessionStatus.Scheduled && n.duration == s.duration && n.notes == None &&
    n.currentParticipants == SeatsFrom(r.bookings, |L.bookings|, j) &&
    exists k :: Due(s.daysOfWeek.value, start, end, k) && Slot(s.time.value, start, k) == Some(n.date)
  }

  /** What the walk has achieved once days `0..k` are visited. */
  ghost predicate Walked(L: Ledger, r: Ledger, created: seq<Id>, g: Id, s: Schedule, price: Money,
                         start: int, end: int, k: int)
    requires s.daysOfWeek.Some? && s.time.Some?
  {
    0 <= k && WalkFrame(L, r, created) && WalkMade(L, r, g, s, price, start, end) &&
    WalkCovered(L, r, created, g, s, start, end, k)
  }

  /** The walk only appends sessions (listed in `created`) and bookings. */
  ghost predicate WalkFrame(L: Ledger, r: Ledger, created: seq<Id>) {
    r == L.(sessions := r.sessions, bookings := r.bookings) &&
    |r.sessions| == |L.sessions| + |created| &&
    (forall i :: 0 <= i < |created| ==> created[i] == |L.sessions| + i) &&
    (forall j :: 0 <= j < |L.sessions| ==> r.sessions[j] == L.sessions[j]) &&
    |r.bookings| >= |L.bookings| && (forall j :: 0 <= j < |L.bookings| ==> r.bookings[j] == L.bookings[j])
  }

  /** The appended sessions and bookings are the generated ones. */
  ghost predicate WalkMade(L: Ledger, r: Ledger, g: Id, s: Schedule, price: Money, start: int, end: int)
    requires s.daysOfWeek.Some? && s.time.Some?
  {
    |r.sessions| >= |L.sessions| && |r.bookings| >= |L.bookings| &&
    (forall j :: |L.sessions| <= j < |r.sessions| ==> Generated(L, r, j, g, s, start, end)) &&
    (forall j :: |L.bookings| <= j < |r.bookings| ==>
       |L.sessions| <= SessionOf(r.bookings[j]) < |r.sessions| &&
       FanOutOf(L, r.bookings, j, SessionOf(r.bookings[j]), g, price)) &&
    (forall j, y :: |L.sessions| <= j < |r.sessions| && ActiveMember(L, y, g) ==>
       HasBookingFor(r.bookings, j, L.enrollments[y].value.userId)) &&
    OnePerSession(L, r) &&
    (forall i, j :: |L.sessions| <= j < |r.sessions| ==> !Clash(r.sessions, i, j))
  }

  /** No two bookings added on one session belong to one user. */
  ghost predicate OnePerSession(L: Ledger, r: Ledger) {
    forall i, j :: |L.bookings| <= i < j < |r.bookings| && SessionOf(r.bookings[i]) == SessionOf(r.bookings[j]) ==>
      UserOf(r.bookings[i]) != UserOf(r.bookings[j])
  }

  /** Every due day before `k` whose time reads has a session of `g` at
      its slot. */
  ghost predicate Covers(r: Ledger, g: Id, days: seq<int>, time: string, start: int, end: int, k: int) {
    forall k' :: 0 <= k' < k && Due(days, start, end, k') && Slot(time, start, k').Some? ==>
      SessionAt(r, g, Slot(time, start, k').value)
  }

  /** Every due day before `k` has its session, and nothing was created
      when every such day already had one or the time is unreadable. */
  ghost predicate WalkCovered(L: Ledger, r: Ledger, created: seq<Id>, g: Id, s: Schedule, start: int, end: int, k: int)
    requires s.daysOfWeek.Some? && s.time.Some?
  {
    var days := s.daysOfWeek.value;
    var time := s.time.value;
    Covers(r, g, days, time, start, end, k) &&
    (Covers(L, g, days, time, start, end, k) ==> r == L && created == []) &&
    (ParseTime(time).None? ==> r == L && created == [] && forall k' :: 0 <= k' < k ==> !Due(days, start, end, k'))
  }

  /** Passing a day that needs no new session keeps the coverage. */
  lemma CoversStep(r: Ledger, g: Id, days: seq<int>, time: string, start: int, end: int, k: int)
    requires Covers(r, g, days, time, start, end, k)
    requires !Due(days, start, end, k) || (Slot(time, start, k).Some? && SessionAt(r, g, Slot(time, start, k).value))
    ensures Covers(r, g, days, time, start, end, k + 1)
  {
  }

  /** Coverage up to a later day includes coverage up to an earlier one. */
  lemma CoversShrinks(r: Ledger, g: Id, days: seq<int>, time: string, start: int, end: int, k: int)
    requires Covers(r, g, days, time, start, end, k + 1)
    ensures Covers(r, g, days, time, start, end, k)
  {
  }

  /**
   * One day of the walk: on a scheduled weekday, create the session at the
   * scheduled time unless the group has one then, and book its members.
   * `unreadable` reports a time that gives no instant.
   */
  method VisitDay(L: Ledger, r: Ledger, created: seq<Id>, g: Id, s: Schedule, price: Money,
                  start: int, end: int, k: int)
    returns (r': Ledger, created': seq<Id>, unreadable: bool)
    requires s.daysOfWeek.Some? && s.time.Some? && Walked(L, r, created, g, s, price, start, end, k)
    requires InWalk(start, end, k)
    ensures unreadable <==> ParseTime(s.time.value).None? && Due(s.daysOfWeek.value, start, end, k)
    ensures !unreadable ==> Walked(L, r', created', g, s, price, start, end, k + 1)
  {
    r', created', unreadable := r, created, false;
    var day := Day(start, k);
    if DayOfWeek(day) in s.daysOfWeek.value {
      var date := BuildDateTimeForDay(day, s.time.value);
      if date.None? {
        unreadable := true;
      } else if !SessionAt(r, g, date.value) {
        var sid := |r.sessions|;
        var L1 := r.(sessions := Append(r.sessions, Session(g, date.value, s.duration, SessionStatus.Scheduled, 0, None)));
        var L2 := BookMembers(L1, sid, g, price);
        CreateKeepsWalked(L, r, L1, L2, created, g, s, price, start, end, k, date.value);
        r', created' := L2, created + [sid];
      } else {
        SkipKeepsWalked(L, r, created, g, s, price, start, end, k);
      }
    } else {
      SkipKeepsWalked(L, r, created, g, s, price, start, end, k);
    }
  }

  /**
   * `generateSessions`: walk the business days from the day of `start` to
   * the day of `end`, both included; on each day whose weekday is
   * scheduled, create the group's session at the scheduled time unless the
   * group already has one at that instant, and book its ACTIVE members onto
   * it. The result lists the sessions created, in creation order.
   */
  method GenerateSessions(L: Ledger, g: Id, start: int, end: int) returns (r: Result<(Ledger, seq<Id>), Error>)
    ensures !Has(L.groups, g) ==> r == Err(NotFound)
    ensures Has(L.groups, g) && !Usable(Get(L.groups, g).schedule) ==> r == Err(InvalidRequest)
    ensures r == Err(Error.InvalidDate) <==>
      Has(L.groups, g) && Usable(Get(L.groups, g).schedule) &&
      ParseTime(Get(L.groups, g).schedule.value.time.value).None? &&
      exists k :: Due(Get(L.groups, g).schedule.value.daysOfWeek.value, start, end, k)
    ensures r.Ok? <==>
      Has(L.groups, g) && Usable(Get(L.groups, g).schedule) &&
      (ParseTime(Get(L.groups, g).schedule.value.time.value).None? ==>
         forall k :: !Due(Get(L.groups, g).schedule.value.daysOfWeek.value, start, end, k))
    ensures r.Ok? ==>
      var (L', created) := r.value;
      var s := Get(L.groups, g).schedule.value;
      L' == L.(sessions := L'.sessions, bookings := L'.bookings) &&
      |L'.sessions| == |L.sessions| + |created| &&
      (forall i :: 0 <= i < |created| ==> created[i] == |L.sessions| + i) &&
      (forall j :: 0 <= j < |L.sessions| ==> L'.sessions[j] == L.sessions[j]) &&
      |L'.bookings| >= |L.bookings| && (forall j :: 0 <= j < |L.bookings| ==> L'.bookings[j] == L.bookings[j])
    ensures r.Ok? ==>
      var (L', created) := r.value;
      var s := Get(L.groups, g).schedule.value;
      (forall j :: |L.sessions| <= j < |L'.sessions| ==> Generated(L, L', j, g, s, start, end)) &&
      (forall j :: |L.bookings| <= j < |L'.bookings| ==>
         |L.sessions| <= SessionOf(L'.bookings[j]) < |L'.sessions| &&
         FanOutOf(L, L'.bookings, j, SessionOf(L'.bookings[j]), g, Get(L.groups, g).price)) &&
      (forall j, y :: |L.sessions| <= j < |L'.sessions| && ActiveMember(L, y, g) ==>
         HasBookingFor(L'.bookings, j, L.enrollments[y].value.userId)) &&
      (forall i, j :: |L.bookings| <= i < j < |L'.bookings| && SessionOf(L'.bookings[i]) == SessionOf(L'.bookings[j]) ==>
         UserOf(L'.bookings[i]) != UserOf(L'.bookings[j]))
    ensures r.Ok? ==>
      var (L', created) := r.value;
      var s := Get(L.groups, g).schedule.value;
      (forall k :: Due(s.daysOfWeek.value, start, end, k) && Slot(s.time.value, start, k).Some? ==>
         SessionAt(L', g, Slot(s.time.value, start, k).value)) &&
      (forall i, j :: |L.sessions| <= j < |L'.sessions| ==> !Clash(L'.sessions, i, j)) &&
      (NoDoubleSlots(L) ==> NoDoubleSlots(L'))
    ensures (r.Ok? &&
             forall k :: (Due(Get(L.groups, g).schedule.value.daysOfWeek.value, start, end, k) &&
                          Slot(Get(L.groups, g).schedule.value.time.value, start, k).Some?) ==>
               SessionAt(L, g, Slot(Get(L.groups, g).schedule.value.time.value, start, k).value)) ==>
      r.value == (L, [])
  {
    if !Has(L.groups, g) {
      return Err(NotFound);
    }
    var group := Get(L.groups, g);
    if !Usable(group.schedule) {
      return Err(InvalidRequest);
    }
    var s := group.schedule.value;
    var days := s.daysOfWeek.value;
    var time := s.time.value;
    var L' := L;
    var created: seq<Id> := [];
    var k := 0;
    while Day(start, k) <= StartOfDay(end)
      invariant Walked(L, L', created, g, s, group.price, start, end, k)
      decreases StartOfDay(end) - Day(start, k)
    {
      DayMonotone(start, k, k + 1);
      var unreadable;
      L', created, unreadable := VisitDay(L, L', created, g, s, group.price, start, end, k);
      if unreadable {
        return Err(Error.InvalidDate);
      }
      k := k + 1;
    }
    WalkDone(L, L', created, g, s, group.price, start, end, k);
    WalkDelivers(L, L', created, g, s, group.price, start, end, k);
    return Ok((L', created));
  }

  /** The finished walk's progress, unpacked into what generation promises. */
  lemma WalkDelivers(L: Ledger, r: Ledger, created: seq<Id>, g: Id, s: Schedule, price: Money,
                     start: int, end: int, k: int)
    requires s.daysOfWeek.Some? && s.time.Some? && Walked(L, r, created, g, s, price, start, end, k)
    ensures r == L.(sessions := r.sessions, bookings := r.bookings)
    ensures |r.sessions| == |L.sessions| + |created| && forall i :: 0 <= i < |created| ==> created[i] == |L.sessions| + i
    ensures forall j :: 0 <= j < |L.sessions| ==> r.sessions[j] == L.sessions[j]
    ensures |r.bookings| >= |L.bookings| && forall j :: 0 <= j < |L.bookings| ==> r.bookings[j] == L.bookings[j]
    ensures forall j :: |L.sessions| <= j < |r.sessions| ==> Generated(L, r, j, g, s, start, end)
    ensures forall j :: |L.bookings| <= j < |r.bookings| ==>
      |L.sessions| <= SessionOf(r.bookings[j]) < |r.sessions| &&
      FanOutOf(L, r.bookings, j, SessionOf(r.bookings[j]), g, price)
    ensures forall j, y :: |L.sessions| <= j < |r.sessions| && ActiveMember(L, y, g) ==>
      HasBookingFor(r.bookings, j, L.enrollments[y].value.userId)
    ensures forall i, j :: |L.bookings| <= i < j < |r.bookings| && SessionOf(r.bookings[i]) == SessionOf(r.bookings[j]) ==>
      UserOf(r.bookings[i]) != UserOf(r.bookings[j])
    ensures forall i, j :: |L.sessions| <= j < |r.sessions| ==> !Clash(r.sessions, i, j)
  {
  }

  /** A session of `L`'s group at `date` is still there in any ledger that
      keeps `L`'s session rows. */
  lemma SessionAtKept(L: Ledger, r: Ledger, g: Id, date: int)
    requires |L.sessions| <= |r.sessions| && forall j :: 0 <= j < |L.sessions| ==> r.sessions[j] == L.sessions[j]
    requires SessionAt(L, g, date)
    ensures SessionAt(r, g, date)
  {
    var i :| 0 <= i < |L.sessions| && L.sessions[i].Some? && L.sessions[i].value.groupId == g && L.sessions[i].value.date == date;
    assert r.sessions[i] == L.sessions[i];
  }

  /** A day on which nothing is created keeps the walk's progress. */
  lemma SkipKeepsWalked(L: Ledger, r: Ledger, created: seq<Id>, g: Id, s: Schedule, price: Money,
                        start: int, end: int, k: int)
    requires s.daysOfWeek.Some? && s.time.Some? && Walked(L, r, created, g, s, price, start, end, k)
    requires InWalk(start, end, k)
    requires !Due(s.daysOfWeek.value, start, end, k) ||
             (Slot(s.time.value, start, k).Some? && SessionAt(r, g, Slot(s.time.value, start, k).value))
    ensures Walked(L, r, created, g, s, price, start, end, k + 1)
  {
    var days, time := s.daysOfWeek.value, s.time.value;
    CoversStep(r, g, days, time, start, end, k);
    if Covers(L, g, days, time, start, end, k + 1) {
      CoversShrinks(L, g, days, time, start, end, k);
    }
    assert ParseTime(time).None? ==> Slot(time, start, k).None?;
  }

  /** The seats of an earlier generated session stay put when a later one
      is created and booked. */
  lemma CreateKeepsEarlierSeats(L: Ledger, r: Ledger, L1: Ledger, L2: Ledger, j: Id)
    requires |L.bookings| <= |r.bookings| && j < |r.sessions|
    requires L1.bookings == r.bookings && |L1.sessions| == |r.sessions| + 1 && Has(L1.sessions, |r.sessions|)
    requires forall i :: 0 <= i < |r.sessions| ==> L1.sessions[i] == r.sessions[i]
    requires OnlySessionFilled(L1, L2, |r.sessions|)
    requires forall i :: |L1.bookings| <= i < |L2.bookings| ==> SessionOf(L2.bookings[i]) == |r.sessions|
    ensures L2.sessions[j] == r.sessions[j]
    ensures SeatsFrom(L2.bookings, |L.bookings|, j) == SeatsFrom(r.bookings, |L.bookings|, j)
  {
    assert L2.sessions[j] == L1.sessions[j];
    SeatsFromExtend(r.bookings, L2.bookings, |L.bookings|, j);
  }

  /** The seats of the session just created are those of its bookings. */
  lemma CreateFillsNewSeats(L: Ledger, r: Ledger, L1: Ledger, L2: Ledger)
    requires |L.bookings| <= |r.bookings|
    requires forall i :: |L.bookings| <= i < |r.bookings| ==> SessionOf(r.bookings[i]) < |r.sessions|
    requires L1.bookings == r.bookings && |L1.sessions| == |r.sessions| + 1 && Has(L1.sessions, |r.sessions|)
    requires Get(L1.sessions, |r.sessions|).currentParticipants == 0
    requires OnlySessionFilled(L1, L2, |r.sessions|)
    ensures Get(L2.sessions, |r.sessions|).currentParticipants == SeatsFrom(L2.bookings, |L.bookings|, |r.sessions|)
  {
    forall i | |L.bookings| <= i < |r.bookings| ensures SessionOf(L2.bookings[i]) != |r.sessions| {
      assert L2.bookings[i] == r.bookings[i];
    }
    SeatsFromSkip(L2.bookings, |L.bookings|, |r.bookings|, |r.sessions|);
  }

  /** Seat counts after a session is created and its members booked. */
  lemma CreateKeepsSeats(L: Ledger, r: Ledger, L1: Ledger, L2: Ledger, g: Id, s: Schedule, price: Money,
                         start: int, end: int, k: int)
    requires s.daysOfWeek.Some? && s.time.Some?
    requires |r.sessions| >= |L.sessions| && |r.bookings| >= |L.bookings|
    requires forall j :: |L.sessions| <= j < |r.sessions| ==> Generated(L, r, j, g, s, start, end)
    requires forall j :: |L.bookings| <= j < |r.bookings| ==> SessionOf(r.bookings[j]) < |r.sessions|
    requires Due(s.daysOfWeek.value, start, end, k) && Slot(s.time.value, start, k).Some?
    requires L1 == r.(sessions := Append(r.sessions, Session(g, Slot(s.time.value, start, k).value, s.duration,
                                                             SessionStatus.Scheduled, 0, None)))
    requires OnlySessionFilled(L1, L2, |r.sessions|)
    requires forall j :: |L1.bookings| <= j < |L2.bookings| ==> SessionOf(L2.bookings[j]) == |r.sessions|
    ensures forall j :: |L.sessions| <= j < |L2.sessions| ==> Generated(L, L2, j, g, s, start, end)
  {
    var sid := |r.sessions|;
    forall j | |L.sessions| <= j < |L2.sessions|
      ensures Generated(L, L2, j, g, s, start, end)
    {
      if j < sid {
        CreateKeepsEarlierSeats(L, r, L1, L2, j);
        assert Generated(L, r, j, g, s, start, end);
      } else {
        CreateFillsNewSeats(L, r, L1, L2);
        assert Slot(s.time.value, start, k) == Some(L2.sessions[j].value.date);
      }
    }
  }

  /** No clash after a session is created at a slot the group had free. */
  lemma CreateKeepsSlotsApart(L: Ledger, r: Ledger, L2: Ledger, g: Id, date: int)
    requires |r.sessions| >= |L.sessions|
    requires forall i, j :: |L.sessions| <= j < |r.sessions| ==> !Clash(r.sessions, i, j)
    requires !SessionAt(r, g, date)
    requires |L2.sessions| == |r.sessions| + 1 && forall j :: 0 <= j < |r.sessions| ==> L2.sessions[j] == r.sessions[j]
    requires L2.sessions[|r.sessions|].Some? && L2.sessions[|r.sessions|].value.groupId == g &&
             L2.sessions[|r.sessions|].value.date == date
    ensures forall i, j :: |L.sessions| <= j < |L2.sessions| ==> !Clash(L2.sessions, i, j)
  {
    var sid := |r.sessions|;
    forall i, j | |L.sessions| <= j < |L2.sessions|
      ensures !Clash(L2.sessions, i, j)
    {
      if 0 <= i < sid {
        assert L2.sessions[i] == r.sessions[i];
      }
      if j < sid {
        assert L2.sessions[j] == r.sessions[j];
        if i != sid {
          assert !Clash(r.sessions, i, j);
        }
      }
      if j == sid && 0 <= i < sid && r.sessions[i].Some? && r.sessions[i].value.groupId == g {
        assert r.sessions[i].value.date != date;
      }
      if i == sid && |L.sessions| <= j < sid && r.sessions[j].Some? && r.sessions[j].value.groupId == g {
        assert r.sessions[j].value.date != date;
      }
    }
  }

  /** The bookings after a session is created and its members booked. */
  lemma CreateKeepsBookings(L: Ledger, r: Ledger, L1: Ledger, L2: Ledger, g: Id, price: Money)
    requires L1.enrollments == L.enrollments && L1.bookings == r.bookings && |L1.sessions| == |r.sessions| + 1
    requires |r.bookings| >= |L.bookings| && |r.sessions| >= |L.sessions|
    requires forall j :: |L.bookings| <= j < |r.bookings| ==>
       |L.sessions| <= SessionOf(r.bookings[j]) < |r.sessions| &&
       FanOutOf(L, r.bookings, j, SessionOf(r.bookings[j]), g, price)
    requires forall j, y :: |L.sessions| <= j < |r.sessions| && ActiveMember(L, y, g) ==>
       HasBookingFor(r.bookings, j, L.enrollments[y].value.userId)
    requires |L2.sessions| == |L1.sessions| && |L2.bookings| >= |L1.bookings|
    requires forall j :: 0 <= j < |L1.bookings| ==> L2.bookings[j] == L1.bookings[j]
    requires forall j :: |L1.bookings| <= j < |L2.bookings| ==> FanOutOf(L1, L2.bookings, j, |r.sessions|, g, price)
    requires forall y :: ActiveMember(L1, y, g) ==> HasBookingFor(L2.bookings, |r.sessions|, L1.enrollments[y].value.userId)
    ensures forall j :: |L.bookings| <= j < |L2.bookings| ==>
       |L.sessions| <= SessionOf(L2.bookings[j]) < |L2.sessions| &&
       FanOutOf(L, L2.bookings, j, SessionOf(L2.bookings[j]), g, price)
    ensures forall j, y :: |L.sessions| <= j < |L2.sessions| && ActiveMember(L, y, g) ==>
       HasBookingFor(L2.bookings, j, L.enrollments[y].value.userId)
  {
    var sid := |r.sessions|;
    forall j | |L.bookings| <= j < |L2.bookings|
      ensures |L.sessions| <= SessionOf(L2.bookings[j]) < |L2.sessions|
      ensures FanOutOf(L, L2.bookings, j, SessionOf(L2.bookings[j]), g, price)
    {
      if j < |r.bookings| {
        assert L2.bookings[j] == r.bookings[j];
      } else {
        assert FanOutOf(L1, L2.bookings, j, sid, g, price);
      }
    }
    forall j, y | |L.sessions| <= j < |L2.sessions| && ActiveMember(L, y, g)
      ensures HasBookingFor(L2.bookings, j, L.enrollments[y].value.userId)
    {
      var u := L.enrollments[y].value.userId;
      if j < sid {
        assert HasBookingFor(r.bookings, j, u);
        var i :| 0 <= i < |r.bookings| && r.bookings[i].Some? &&
          r.bookings[i].value.target == OnSession(j) && r.bookings[i].value.userId == Some(u);
        assert L2.bookings[i] == r.bookings[i];
      } else {
        assert ActiveMember(L1, y, g);
      }
    }
  }

  /** The bookings of a new session sit on no earlier session, so they
      keep one booking per user on every session. */
  lemma CreateKeepsOnePerSession(L: Ledger, r: Ledger, L1: Ledger, L2: Ledger)
    requires L1.bookings == r.bookings && |r.bookings| >= |L.bookings| && OnePerSession(L, r)
    requires forall j :: |L.bookings| <= j < |r.bookings| ==> SessionOf(r.bookings[j]) < |r.sessions|
    requires |L2.bookings| >= |L1.bookings| && forall j :: 0 <= j < |L1.bookings| ==> L2.bookings[j] == L1.bookings[j]
    requires forall j :: |L1.bookings| <= j < |L2.bookings| ==> SessionOf(L2.bookings[j]) == |r.sessions|
    requires OneEach(L1, L2)
    ensures OnePerSession(L, L2)
  {
    forall i, j | |L.bookings| <= i < j < |L2.bookings| && SessionOf(L2.bookings[i]) == SessionOf(L2.bookings[j])
      ensures UserOf(L2.bookings[i]) != UserOf(L2.bookings[j])
    {
      if j < |r.bookings| {
        assert L2.bookings[i] == r.bookings[i] && L2.bookings[j] == r.bookings[j];
      }
    }
  }

  /** A day on which a session is created keeps the walk's progress. */
  lemma CreateKeepsWalked(L: Ledger, r: Ledger, L1: Ledger, L2: Ledger, created: seq<Id>, g: Id, s: Schedule,
                          price: Money, start: int, end: int, k: int, date: int)
    requires s.daysOfWeek.Some? && s.time.Some? && Walked(L, r, created, g, s, price, start, end, k)
    requires Due(s.daysOfWeek.value, start, end, k) && Slot(s.time.value, start, k) == Some(date)
    requires !SessionAt(r, g, date)
    requires L1 == r.(sessions := Append(r.sessions, Session(g, date, s.duration, SessionStatus.Scheduled, 0, None)))
    requires OnlySessionFilled(L1, L2, |r.sessions|)
    requires forall j :: |L1.bookings| <= j < |L2.bookings| ==> FanOutOf(L1, L2.bookings, j, |r.sessions|, g, price)
    requires forall y :: ActiveMember(L1, y, g) ==> HasBookingFor(L2.bookings, |r.sessions|, L1.enrollments[y].value.userId)
    requires OneEach(L1, L2)
    ensures Walked(L, L2, created + [|r.sessions|], g, s, price, start, end, k + 1)
  {
    var sid := |r.sessions|;
    CreateKeepsFrame(L, r, L1, L2, created);
    forall j | |L1.bookings| <= j < |L2.bookings|
      ensures SessionOf(L2.bookings[j]) == sid
    {
      assert FanOutOf(L1, L2.bookings, j, sid, g, price);
    }
    CreateKeepsSeats(L, r, L1, L2, g, s, price, start, end, k);
    CreateKeepsBookings(L, r, L1, L2, g, price);
    CreateKeepsOnePerSession(L, r, L1, L2);
    assert L2.sessions[sid] == Some(L1.sessions[sid].value.(currentParticipants := L2.sessions[sid].value.currentParticipants));
    CreateKeepsSlotsApart(L, r, L2, g, date);
    assert WalkMade(L, L2, g, s, price, start, end);
    CreateCoversDays(r, L2, g, s, start, end, k);
    if SessionAt(L, g, date) {
      SessionAtKept(L, r, g, date);
    }
  }

  /** Creating one session and booking its members extends the frame. */
  lemma CreateKeepsFrame(L: Ledger, r: Ledger, L1: Ledger, L2: Ledger, created: seq<Id>)
    requires WalkFrame(L, r, created) && |L1.sessions| == |r.sessions| + 1
    requires L1 == r.(sessions := L1.sessions)
    requires forall j :: 0 <= j < |r.sessions| ==> L1.sessions[j] == r.sessions[j]
    requires Has(L1.sessions, |r.sessions|) && OnlySessionFilled(L1, L2, |r.sessions|)
    ensures WalkFrame(L, L2, created + [|r.sessions|])
  {
    forall j | 0 <= j < |L.sessions| ensures L2.sessions[j] == L.sessions[j] {
      assert L2.sessions[j] == L1.sessions[j] == r.sessions[j];
    }
  }

  /** Once the session of day `k` exists, every due day up to `k` has one. */
  lemma CreateCoversDays(r: Ledger, L2: Ledger, g: Id, s: Schedule, start: int, end: int, k: int)
    requires s.daysOfWeek.Some? && s.time.Some? && Slot(s.time.value, start, k).Some?
    requires |L2.sessions| == |r.sessions| + 1 && forall j :: 0 <= j < |r.sessions| ==> L2.sessions[j] == r.sessions[j]
    requires L2.sessions[|r.sessions|].Some? && L2.sessions[|r.sessions|].value.groupId == g &&
             L2.sessions[|r.sessions|].value.date == Slot(s.time.value, start, k).value
    requires Covers(r, g, s.daysOfWeek.value, s.time.value, start, end, k)
    ensures Covers(L2, g, s.daysOfWeek.value, s.time.value, start, end, k + 1)
  {
    var sid := |r.sessions|;
    forall k' | 0 <= k' < k + 1 && Due(s.daysOfWeek.value, start, end, k') && Slot(s.time.value, start, k').Some?
      ensures SessionAt(L2, g, Slot(s.time.value, start, k').value)
    {
      if k' < k {
        SessionAtKept(r, L2, g, Slot(s.time.value, start, k').value);
      } else {
        assert L2.sessions[sid].Some? && L2.sessions[sid].value.groupId == g;
      }
    }
  }

  /** When the walk has passed the day of `end`, every due day lies behind. */
  lemma WalkEnds(start: int, end: int, days: seq<int>, k: int)
    requires 0 <= k && Day(start, k) > StartOfDay(end)
    ensures forall k' :: Due(days, start, end, k') ==> k' < k
  {
    forall k' | Due(days, start, end, k') ensures k' < k {
      if k' >= k {
        DayMonotone(start, k, k');
      }
    }
  }

  /** What the finished walk has achieved, over every due day. */
  lemma WalkDone(L: Ledger, r: Ledger, created: seq<Id>, g: Id, s: Schedule, price: Money,
                 start: int, end: int, k: int)
    requires s.daysOfWeek.Some? && s.time.Some? && Walked(L, r, created, g, s, price, start, end, k)
    requires Day(start, k) > StartOfDay(end)
    ensures ParseTime(s.time.value).None? ==> forall k' :: !Due(s.daysOfWeek.value, start, end, k')
    ensures forall k' :: Due(s.daysOfWeek.value, start, end, k') && Slot(s.time.value, start, k').Some? ==>
      SessionAt(r, g, Slot(s.time.value, start, k').value)
    ensures (forall k' :: (Due(s.daysOfWeek.value, start, end, k') && Slot(s.time.value, start, k').Some?) ==>
               SessionAt(L, g, Slot(s.time.value, start, k').value)) ==>
      r == L && created == []
    ensures NoDoubleSlots(L) ==> NoDoubleSlots(r)
  {
    WalkEnds(start, end, s.daysOfWeek.value, k);
    if NoDoubleSlots(L) {
      NoClashAnywhere(L, r);
    }
  }

  /** Clashes read the same in either order. */
  lemma NoClashAnywhere(L: Ledger, r: Ledger)
    requires NoDoubleSlots(L)
    requires |r.sessions| >= |L.sessions| && forall j :: 0 <= j < |L.sessions| ==> r.sessions[j] == L.sessions[j]
    requires forall i, j :: |L.sessions| <= j < |r.sessions| ==> !Clash(r.sessions, i, j)
    ensures NoDoubleSlots(r)
  {
    forall i, j ensures !Clash(r.sessions, i, j) {
      if Clash(r.sessions, i, j) {
        if j >= |L.sessions| {
        } else if i >= |L.sessions| {
          assert Clash(r.sessions, j, i);
        } else {
          assert Clash(L.sessions, i, j);
        }
      }
    }
  }

  /**
   * Generating twice over the same range creates nothing the second time:
   * the first run leaves a session on every due day.
   */
  method GenerateTwice(L: Ledger, g: Id, start: int, end: int)
    returns (first: Result<(Ledger, seq<Id>), Error>, second: Result<(Ledger, seq<Id>), Error>)
    ensures first.Ok? ==> second == Ok((first.value.0, []))
    ensures first.Err? ==> second == first
  {
    first := GenerateSessions(L, g, start, end);
    if first.Err? {
      second := first;
      return;
    }
    second := GenerateSessions(first.value.0, g, start, end);
  }

  // ---------------------------------------------------------------------
  // Cancelling and deleting
  // ---------------------------------------------------------------------

  /**
   * `cancelSession`: any session but a COMPLETED one becomes CANCELLED. The
   * notes are overwritten when given and kept otherwise (an absent field is
   * not written). Bookings, seats and balances are left alone; the
   * members' notification emails are not modelled.
   */
  function CancelSession(L: Ledger, sid: Id, notes: Option<string>): (r: Result<Ledger, Error>)
    ensures !Has(L.sessions, sid) ==> r == Err(NotFound)
    ensures r.Ok? <==> Has(L.sessions, sid) && Get(L.sessions, sid).status != SessionStatus.Completed
    ensures r.Err? && Has(L.sessions, sid) ==> r.error == InvalidState
    ensures r.Ok? ==> r.value == L.(sessions := r.value.sessions) && |r.value.sessions| == |L.sessions|
    ensures r.Ok? ==> forall j :: 0 <= j < |L.sessions| && j != sid ==> r.value.sessions[j] == L.sessions[j]
    ensures r.Ok? ==> (Has(r.value.sessions, sid) &&
                       Get(r.value.sessions, sid) == Get(L.sessions, sid).(status := SessionStatus.Cancelled,
                         notes := if notes.Some? then notes else Get(L.sessions, sid).notes))
  {
    if !Has(L.sessions, sid) then Err(NotFound)
    else
      var n := Get(L.sessions, sid);
      if n.status == SessionStatus.Completed then Err(InvalidState)
      else Ok(L.(sessions := Put(L.sessions, sid, n.(status := SessionStatus.Cancelled,
                                                    notes := if notes.Some? then notes else n.notes))))
  }

  /** A cancelled session takes no more bookings: cancelling again changes
      nothing, and the session drops out of every upcoming list. */
  lemma CancelSessionIsIdempotent(L: Ledger, sid: Id, notes: Option<string>)
    requires CancelSession(L, sid, notes).Ok?
    ensures CancelSession(CancelSession(L, sid, notes).value, sid, notes) == CancelSession(L, sid, notes)
    ensures forall g :: !Upcoming(CancelSession(L, sid, notes).value, sid, g)
  {
    var L1 := CancelSession(L, sid, notes).value;
    assert CancelSession(L1, sid, notes).value.sessions == L1.sessions;
  }

  /** Some booking row, in any status, is on session `sid`. */
  predicate Booked(L: Ledger, sid: Id) {
    exists j :: 0 <= j < |L.bookings| && L.bookings[j].Some? && L.bookings[j].value.target == OnSession(sid)
  }

  /** Every booking on a session points at a session row that exists. */
  predicate SessionBookingsResolve(L: Ledger) {
    forall j :: 0 <= j < |L.bookings| && SessionOf(L.bookings[j]) >= 0 ==> Has(L.sessions, SessionOf(L.bookings[j]))
  }

  /** `deleteSession`: only a session nobody ever booked can be deleted;
      otherwise it has to be cancelled. */
  function DeleteSession(L: Ledger, sid: Id): (r: Result<Ledger, Error>)
    ensures !Has(L.sessions, sid) ==> r == Err(NotFound)
    ensures r.Ok? <==> Has(L.sessions, sid) && !Booked(L, sid)
    ensures r.Err? && Has(L.sessions, sid) ==> r.error == InvalidState
    ensures r.Ok? ==> r.value == L.(sessions := r.value.sessions) && |r.value.sessions| == |L.sessions|
    ensures r.Ok? ==> !Has(r.value.sessions, sid)
    ensures r.Ok? ==> forall j :: 0 <= j < |L.sessions| && j != sid ==> r.value.sessions[j] == L.sessions[j]
  {
    if !Has(L.sessions, sid) then Err(NotFound)
    else if Booked(L, sid) then Err(InvalidState)
    else Ok(L.(sessions := Delete(L.sessions, sid)))
  }

  /** Deleting a session never leaves a booking pointing at nothing. */
  lemma DeleteKeepsBookingsResolvable(L: Ledger, sid: Id)
    requires SessionBookingsResolve(L) && DeleteSession(L, sid).Ok?
    ensures SessionBookingsResolve(DeleteSession(L, sid).value)
  {
    var L' := DeleteSession(L, sid).value;
    forall j | 0 <= j < |L'.bookings| && SessionOf(L'.bookings[j]) >= 0
      ensures Has(L'.sessions, SessionOf(L'.bookings[j]))
    {
      NoRowOnUnbooked(L, sid, j);
    }
  }

  lemma NoRowOnUnbooked(L: Ledger, sid: Id, j: nat)
    requires !Booked(L, sid) && j < |L.bookings|
    ensures SessionOf(L.bookings[j]) != sid
  {
  }
}

=== FILE: sorting.dfy ===
/**
 * Ordering row ids by a key, as the store's `orderBy` on a date column
 * does. Equal keys keep their insertion order.
 */
module Sorting {

  predicate SortedBy(key: nat -> int, xs: seq<nat>) {
    forall i, j :: 0 <= i < j < |xs| ==> key(xs[i]) <= key(xs[j])
  }

  /** Insert `x` after every element whose key is not greater. */
  function InsertBy(key: nat -> int, xs: seq<nat>, x: nat): (r: seq<nat>)
    requires SortedBy(key, xs)
    ensures SortedBy(key, r)
    ensures multiset(r) == multiset(xs) + multiset{x}
  {
    if xs == [] then [x]
    else if key(x) < key(xs[0]) then [x] + xs
    else
      var rest := InsertBy(key, xs[1..], x);
      assert xs == [xs[0]] + xs[1..];
      LowerBoundKept(key, xs, x, rest);
      ConsSorted(key, xs[0], rest);
      [xs[0]] + rest
  }

  /** Everything after the head of a sorted sequence, and anything not
      below the head, keeps the head's key as a lower bound. */
  lemma LowerBoundKept(key: nat -> int, xs: seq<nat>, x: nat, rest: seq<nat>)
    requires xs != [] && SortedBy(key, xs) && key(xs[0]) <= key(x)
    requires multiset(rest) == multiset(xs[1..]) + multiset{x}
    ensures forall k :: 0 <= k < |rest| ==> key(xs[0]) <= key(rest[k])
  {
    forall k | 0 <= k < |rest|
      ensures key(xs[0]) <= key(rest[k])
    {
      assert rest[k] in multiset(rest);
      if rest[k] != x {
        assert rest[k] in multiset(xs[1..]);
        var i :| 0 <= i < |xs[1..]| && xs[1..][i] == rest[k];
        assert xs[i + 1] == rest[k];
      }
    }
  }

  lemma ConsSorted(key: nat -> int, a: nat, rest: seq<nat>)
    requires SortedBy(key, rest) && forall k :: 0 <= k < |rest| ==> key(a) <= key(rest[k])
    ensures SortedBy(key, [a] + rest)
  {
    var r := [a] + rest;
    forall i, j | 0 <= i < j < |r| ensures key(r[i]) <= key(r[j]) {
      assert r[j] == rest[j - 1];
      if i > 0 {
        assert r[i] == rest[i - 1];
      }
    }
  }

  /** A sequence in which nothing occurs twice has pairwise distinct entries. */
  lemma {:induction false} SingletonsAreDistinct(xs: seq<nat>)
    requires forall x :: multiset(xs)[x] <= 1
    ensures forall i, j :: 0 <= i < j < |xs| ==> xs[i] != xs[j]
  {
    if xs != [] {
      assert xs == [xs[0]] + xs[1..];
      assert forall x :: multiset(xs[1..])[x] <= multiset(xs)[x];
      SingletonsAreDistinct(xs[1..]);
      assert xs[0] !in multiset(xs[1..]);
      forall i, j | 0 <= i < j < |xs|
        ensures xs[i] != xs[j]
      {
        if i == 0 {
          assert xs[j] == xs[1..][j - 1];
          assert xs[j] in multiset(xs[1..]);
        } else {
          assert xs[i] == xs[1..][i - 1] && xs[j] == xs[1..][j - 1];
        }
      }
    }
  }
}

=== FILE: subscriptions.dfy ===
/**
 * Prepaid subscriptions: the selection rules the services use to pick "the"
 * subscription of a user, the balance movements (debit, credit), and the
 * user-service operations purchase, rollback, admin top-up and total balance.
 */
module Subscriptions {
  import opened Wrappers
  import opened Ledger
  import KrasnoyarskTime

  /** The store queries that pick one subscription of a user. */
  datatype Criterion =
    /** ACTIVE (and, when given, remaining >= floor); largest remaining first. */
    | RichestActive(floor: Option<Money>)
    /** ACTIVE with remaining > 0; no ordering. */
    | FundedActive
    /** ACTIVE or DEPLETED; most recently updated first. */
    | LatestTouched
    /** ACTIVE, remaining >= amount, no expiry or expiring after now;
        earliest expiry first, no expiry last. */
    | SoonestExpiring(amount: Money, now: int)

  predicate Eligible(s: Subscription, user: Id, c: Criterion) {
    s.userId == user &&
    match c
    case RichestActive(floor) =>
      s.status == SubscriptionStatus.Active && (floor.None? || s.remainingBalance >= floor.value)
    case FundedActive =>
      s.status == SubscriptionStatus.Active && s.remainingBalance > 0.0
    case LatestTouched =>
      s.status == SubscriptionStatus.Active || s.status == SubscriptionStatus.Depleted
    case SoonestExpiring(amount, now) =>
      s.status == SubscriptionStatus.Active && s.remainingBalance >= amount &&
      (s.expiresAt.None? || s.expiresAt.value > now)
  }

  /** `a` comes strictly before `b` in the query's ordering. */
  predicate Better(a: Subscription, b: Subscription, c: Criterion) {
    match c
    case RichestActive(_) => a.remainingBalance > b.remainingBalance
    case FundedActive => false
    case LatestTouched => a.updatedAt > b.updatedAt
    case SoonestExpiring(_, _) =>
      a.expiresAt.Some? && (b.expiresAt.None? || a.expiresAt.value < b.expiresAt.value)
  }

  /** Every ordering is a strict weak order: asymmetric, and anything better
      than `b` is better than whatever `b` does not beat. */
  lemma BetterIsStrictWeakOrder(a: Subscription, b: Subscription, x: Subscription, c: Criterion)
    ensures Better(a, b, c) ==> !Better(b, a, c)
    ensures Better(a, b, c) && !Better(x, b, c) ==> Better(a, x, c)
  {
  }

  predicate EligibleAt(t: Table<Subscription>, j: int, user: Id, c: Criterion) {
    0 <= j < |t| && t[j].Some? && Eligible(t[j].value, user, c)
  }

  /**
   * The first row of the first `n` that the query returns: an eligible one
   * that no eligible row beats; among equally good rows the lowest id.
   */
  function Select(t: Table<Subscription>, user: Id, c: Criterion, n: nat): (r: Option<Id>)
    requires n <= |t|
    ensures r.Some? ==> r.value < n && EligibleAt(t, r.value, user, c)
    ensures r.None? ==> forall j :: 0 <= j < n ==> !EligibleAt(t, j, user, c)
    ensures r.Some? ==> forall j :: 0 <= j < n && EligibleAt(t, j, user, c) ==>
      !Better(t[j].value, t[r.value].value, c)
    ensures r.Some? ==> forall j :: 0 <= j < r.value && EligibleAt(t, j, user, c) ==>
      Better(t[r.value].value, t[j].value, c)
  {
    if n == 0 then None
    else
      var prev := Select(t, user, c, n - 1);
      var i := n - 1;
      if EligibleAt(t, i, user, c) && (prev.None? || Better(t[i].value, t[prev.value].value, c)) then
        assert prev.Some? ==> forall j :: 0 <= j < i && EligibleAt(t, j, user, c) ==>
          Better(t[i].value, t[j].value, c) by {
          if prev.Some? {
            forall j | 0 <= j < i && EligibleAt(t, j, user, c)
              ensures Better(t[i].value, t[j].value, c)
            {
              BetterIsStrictWeakOrder(t[i].value, t[prev.value].value, t[j].value, c);
            }
          }
        }
        Some(i)
      else
        prev
  }

  /** The query over the whole table. */
  function Query(t: Table<Subscription>, user: Id, c: Criterion): (r: Option<Id>)
    ensures r.Some? ==> EligibleAt(t, r.value, user, c)
    ensures r.Some? ==> forall j :: EligibleAt(t, j, user, c) ==> !Better(t[j].value, t[r.value].value, c)
    ensures r.None? <==> forall j :: 0 <= j < |t| ==> !EligibleAt(t, j, user, c)
  {
    Select(t, user, c, |t|)
  }

  // Balance movements.

  /** Take `amount` off an ACTIVE subscription; it becomes DEPLETED exactly
      when nothing positive is left. */
  function Debit(s: Subscription, amount: Money, now: int): (r: Subscription)
    requires s.status == SubscriptionStatus.Active
    ensures r.remainingBalance == s.remainingBalance - amount
    ensures r.status == (if r.remainingBalance <= 0.0 then SubscriptionStatus.Depleted else SubscriptionStatus.Active)
    ensures r.(remainingBalance := s.remainingBalance, status := s.status, updatedAt := s.updatedAt) == s
  {
    var left := s.remainingBalance - amount;
    s.(remainingBalance := left,
       status := if left <= 0.0 then SubscriptionStatus.Depleted else s.status,
       updatedAt := now)
  }

  /** Give `amount` back; a DEPLETED subscription that is positive again
      becomes ACTIVE, any other status stays. */
  function Credit(s: Subscription, amount: Money, now: int): (r: Subscription)
    ensures r.remainingBalance == s.remainingBalance + amount
    ensures r.status == SubscriptionStatus.Active <==>
      s.status == SubscriptionStatus.Active ||
      (s.status == SubscriptionStatus.Depleted && r.remainingBalance > 0.0)
    ensures r.status != SubscriptionStatus.Active ==> r.status == s.status
    ensures r.(remainingBalance := s.remainingBalance, status := s.status, updatedAt := s.updatedAt) == s
  {
    var back := s.remainingBalance + amount;
    s.(remainingBalance := back,
       status := if s.status == SubscriptionStatus.Depleted && back > 0.0 then SubscriptionStatus.Active else s.status,
       updatedAt := now)
  }

  /** Credit undoes a debit of a subscription that was positive before. */
  lemma CreditUndoesDebit(s: Subscription, amount: Money, now: int)
    requires s.status == SubscriptionStatus.Active && s.remainingBalance > 0.0
    ensures Credit(Debit(s, amount, now), amount, now) == s.(updatedAt := now)
  {
  }

  // Purchase.

  const MergedMarker: string := "Объединённый"
  const MergedName: string := "Объединённый абонемент"

  /** `part` occurs somewhere in `text`. */
  predicate Contains(text: string, part: string)
    decreases |text|
  {
    part <= text || (|text| > 0 && Contains(text[1..], part))
  }

  /** Expiry of a subscription that absorbs a purchase of `days`
      (0 standing for a type without duration). */
  function ExtendedExpiry(expiresAt: Option<int>, days: int, now: int): (r: Option<int>)
    ensures days == 0 ==> r == expiresAt
    ensures days != 0 && expiresAt.Some? && expiresAt.value >= now ==> r == Some(expiresAt.value + days * KrasnoyarskTime.DayMs)
    ensures days != 0 && (expiresAt.None? || expiresAt.value < now) ==> r == Some(now + days * KrasnoyarskTime.DayMs)
  {
    if days != 0 && expiresAt.Some? then
      Some((if expiresAt.value > now then expiresAt.value else now) + days * KrasnoyarskTime.DayMs)
    else if days != 0 then Some(now + days * KrasnoyarskTime.DayMs)
    else expiresAt
  }

  /** Fold a purchased type into an existing subscription. */
  function Merge(s: Subscription, ty: SubscriptionType, now: int): (r: Subscription)
    ensures r.totalBalance - r.remainingBalance == s.totalBalance - s.remainingBalance
    ensures r.remainingBalance == s.remainingBalance + ty.amount
    ensures r.status == SubscriptionStatus.Active
    ensures Contains(r.name, MergedMarker)
    ensures Contains(s.name, MergedMarker) ==> r.name == s.name
    ensures !Contains(s.name, MergedMarker) ==> r.name == MergedName
    ensures r.expiresAt == ExtendedExpiry(s.expiresAt, ty.durationDays, now)
    ensures r.updatedAt == now
    ensures r == s.(totalBalance := r.totalBalance, remainingBalance := r.remainingBalance, name := r.name,
                    expiresAt := r.expiresAt, status := r.status, updatedAt := r.updatedAt)
  {
    assert MergedMarker <= MergedName;
    s.(totalBalance := s.totalBalance + ty.amount,
       remainingBalance := s.remainingBalance + ty.amount,
       name := if Contains(s.name, MergedMarker) then s.name else MergedName,
       expiresAt := ExtendedExpiry(s.expiresAt, ty.durationDays, now),
       status := SubscriptionStatus.Active,
       updatedAt := now)
  }

  /**
   * Buy a subscription type without going through the payment gateway.
   * Allowed when the caller bypasses payment or no gateway is configured.
   * The purchase is merged into the user's richest ACTIVE subscription, or
   * creates a fresh one. Returns the id of the subscription credited.
   */
  function Purchase(L: Ledger, user: Id, typeId: Id, bypassPayment: bool, gatewayConfigured: bool): (r: Result<(Ledger, Id), Error>)
    ensures !(bypassPayment || !gatewayConfigured) ==> r == Err(OnlineOnly)
    ensures (bypassPayment || !gatewayConfigured) && !Has(L.subscriptionTypes, typeId) ==> r == Err(NotFound)
    ensures ((bypassPayment || !gatewayConfigured) && Has(L.subscriptionTypes, typeId) &&
             !Get(L.subscriptionTypes, typeId).isActive) ==> r == Err(Conflict)
    ensures r.Ok? ==> Has(L.subscriptionTypes, typeId) && Get(L.subscriptionTypes, typeId).isActive
    ensures r.Ok? ==> r.value.0 == L.(subscriptions := r.value.0.subscriptions)
    ensures r.Ok? ==> Has(r.value.0.subscriptions, r.value.1)
    // merge into the richest ACTIVE subscription
    ensures r.Ok? && Query(L.subscriptions, user, RichestActive(None)).Some? ==>
      var sid := r.value.1;
      var ty := Get(L.subscriptionTypes, typeId);
      sid == Query(L.subscriptions, user, RichestActive(None)).value &&
      r.value.0.subscriptions == Put(L.subscriptions, sid, Merge(Get(L.subscriptions, sid), ty, L.now))
    // or open a new one
    ensures r.Ok? && Query(L.subscriptions, user, RichestActive(None)).None? ==>
      var ty := Get(L.subscriptionTypes, typeId);
      var s := Get(r.value.0.subscriptions, r.value.1);
      r.value.1 == |L.subscriptions| && r.value.0.subscriptions == Append(L.subscriptions, s) &&
      s.userId == user && s.typeId == Some(typeId) && s.name == ty.name &&
      s.totalBalance == ty.amount && s.remainingBalance == ty.amount && s.price == ty.price &&
      s.status == SubscriptionStatus.Active &&
      s.expiresAt == (if ty.durationDays != 0 then Some(L.now + ty.durationDays * KrasnoyarskTime.DayMs) else None)
  {
    if !(bypassPayment || !gatewayConfigured) then Err(OnlineOnly)
    else if !Has(L.subscriptionTypes, typeId) then Err(NotFound)
    else
      var ty := Get(L.subscriptionTypes, typeId);
      if !ty.isActive then Err(Conflict)
      else
        match Query(L.subscriptions, user, RichestActive(None))
        case Some(sid) =>
          var merged := Merge(Get(L.subscriptions, sid), ty, L.now);
          Ok((L.(subscriptions := Put(L.subscriptions, sid, merged)), sid))
        case None =>
          var created := Subscription(
            user, Some(typeId), ty.name, ty.amount, ty.amount, ty.price,
            SubscriptionStatus.Active,
            if ty.durationDays != 0 then Some(L.now + ty.durationDays * KrasnoyarskTime.DayMs) else None,
            L.now);
          Ok((L.(subscriptions := Append(L.subscriptions, created)), |L.subscriptions|))
  }

  // Rollback.

  function Floor0(x: Money): Money {
    if x > 0.0 then x else 0.0
  }

  predicate ReferencedByBooking(L: Ledger, sid: Id) {
    exists j :: 0 <= j < |L.bookings| && L.bookings[j].Some? && L.bookings[j].value.subscriptionId == Some(sid)
  }

  predicate ReferencedByEnrollment(L: Ledger, sid: Id) {
    exists j :: 0 <= j < |L.enrollments| && L.enrollments[j].Some? && L.enrollments[j].value.subscriptionId == Some(sid)
  }

  /** The subscription a rollback acts on: the given one when it belongs to
      the user, otherwise the user's most recently updated ACTIVE/DEPLETED one. */
  function RollbackTarget(L: Ledger, user: Id, given: Option<Id>): (r: Option<Id>)
    ensures given.Some? ==> (r.Some? <==> Has(L.subscriptions, given.value) && Get(L.subscriptions, given.value).userId == user)
    ensures given.Some? && r.Some? ==> r.value == given.value
    ensures given.None? ==> r == Query(L.subscriptions, user, LatestTouched)
    ensures r.Some? ==> Has(L.subscriptions, r.value) && Get(L.subscriptions, r.value).userId == user
  {
    match given
    case Some(sid) =>
      if Has(L.subscriptions, sid) && Get(L.subscriptions, sid).userId == user then Some(sid) else None
    case None => Query(L.subscriptions, user, LatestTouched)
  }

  /** The subscription after taking `amount` back off both balances. */
  function Reduced(s: Subscription, amount: Money, now: int): (r: Subscription)
    ensures r.totalBalance == Floor0(s.totalBalance - amount) && r.remainingBalance == Floor0(s.remainingBalance - amount)
    ensures r.status == (if r.remainingBalance <= 0.0 then SubscriptionStatus.Depleted else SubscriptionStatus.Active)
    ensures s.remainingBalance <= s.totalBalance ==> r.remainingBalance <= r.totalBalance
  {
    var total := Floor0(s.totalBalance - amount);
    var left := Floor0(s.remainingBalance - amount);
    s.(totalBalance := total, remainingBalance := left,
       status := if left <= 0.0 then SubscriptionStatus.Depleted else SubscriptionStatus.Active,
       updatedAt := now)
  }

  /**
   * Undo a purchase of `amount`: both balances drop, floored at zero. A
   * subscription left with nothing is deleted when nothing references it,
   * and otherwise zeroed, CANCELLED and expired now.
   */
  function Rollback(L: Ledger, user: Id, given: Option<Id>, amount: Money): (r: Result<Ledger, Error>)
    ensures amount <= 0.0 ==> r == Err(InvalidRequest)
    ensures amount > 0.0 && RollbackTarget(L, user, given).None? ==> r == Err(NotFound)
    ensures r.Ok? ==> amount > 0.0 && RollbackTarget(L, user, given).Some?
    ensures r.Ok? ==> r.value == L.(subscriptions := r.value.subscriptions)
    ensures r.Ok? ==>
      var sid := RollbackTarget(L, user, given).value;
      var s := Get(L.subscriptions, sid);
      var emptied := Floor0(s.totalBalance - amount) <= 0.0 && Floor0(s.remainingBalance - amount) <= 0.0;
      var referenced := ReferencedByBooking(L, sid) || ReferencedByEnrollment(L, sid);
      (emptied && !referenced ==> r.value.subscriptions == Delete(L.subscriptions, sid)) &&
      (emptied && referenced ==> r.value.subscriptions == Put(L.subscriptions, sid,
         s.(totalBalance := 0.0, remainingBalance := 0.0, status := SubscriptionStatus.Cancelled,
            expiresAt := Some(L.now), updatedAt := L.now))) &&
      (!emptied ==> r.value.subscriptions == Put(L.subscriptions, sid, Reduced(s, amount, L.now)))
  {
    if amount <= 0.0 then Err(InvalidRequest)
    else
      match RollbackTarget(L, user, given)
      case None => Err(NotFound)
      case Some(sid) =>
        var s := Get(L.subscriptions, sid);
        var reduced := Reduced(s, amount, L.now);
        if reduced.totalBalance <= 0.0 && reduced.remainingBalance <= 0.0 then
          if !ReferencedByBooking(L, sid) && !ReferencedByEnrollment(L, sid) then
            Ok(L.(subscriptions := Delete(L.subscriptions, sid)))
          else
            Ok(L.(subscriptions := Put(L.subscriptions, sid,
              s.(totalBalance := 0.0, remainingBalance := 0.0, status := SubscriptionStatus.Cancelled,
                 expiresAt := Some(L.now), updatedAt := L.now))))
        else
          Ok(L.(subscriptions := Put(L.subscriptions, sid, reduced)))
  }

  /** Rollback keeps remaining <= total on every subscription that had it. */
  lemma RollbackKeepsRemainingWithinTotal(L: Ledger, user: Id, given: Option<Id>, amount: Money, j: Id)
    requires Rollback(L, user, given, amount).Ok?
    requires Has(L.subscriptions, j) && Get(L.subscriptions, j).remainingBalance <= Get(L.subscriptions, j).totalBalance
    ensures var t := Rollback(L, user, given, amount).value.subscriptions;
      Has(t, j) ==> Get(t, j).remainingBalance <= Get(t, j).totalBalance
  {
    var sid := RollbackTarget(L, user, given).value;
    var s := Get(L.subscriptions, sid);
    if j == sid {
      assert Reduced(s, amount, L.now).remainingBalance <= Reduced(s, amount, L.now).totalBalance;
    }
  }

  // Admin top-up.

  const TopUpPrefix: string := "Пополнение администратором на "

  /** The oldest active subscription type, which a top-up subscription is filed under. */
  function FirstActiveType(types: Table<SubscriptionType>, n: nat): (r: Option<Id>)
    requires n <= |types|
    ensures r.Some? ==> r.value < n && Has(types, r.value) && Get(types, r.value).isActive
    ensures r.Some? ==> forall j :: 0 <= j < r.value && Has(types, j) ==> !Get(types, j).isActive
    ensures r.None? ==> forall j :: 0 <= j < n && Has(types, j) ==> !Get(types, j).isActive
  {
    if n == 0 then None
    else
      var earlier := FirstActiveType(types, n - 1);
      if earlier.Some? then earlier
      else if Has(types, n - 1) && Get(types, n - 1).isActive then Some(n - 1)
      else None
  }

  datatype TopUpReceipt = TopUpReceipt(ledger: Ledger, subscription: Id, previousBalance: Money)

  /**
   * Credit `amount` to a user: both balances of the richest ACTIVE
   * subscription rise by it, or a new ACTIVE subscription holding exactly
   * `amount` is created. `amountText` is how the amount is printed in the
   * new subscription's name.
   */
  function TopUp(L: Ledger, user: Id, amount: Money, amountText: string): (r: Result<TopUpReceipt, Error>)
    ensures user !in L.users <==> r == Err(NotFound)
    ensures r.Ok? ==> r.value.ledger == L.(subscriptions := r.value.ledger.subscriptions)
    ensures r.Ok? ==> Has(r.value.ledger.subscriptions, r.value.subscription)
    ensures r.Ok? && Query(L.subscriptions, user, RichestActive(None)).Some? ==>
      var sid := Query(L.subscriptions, user, RichestActive(None)).value;
      var s := Get(L.subscriptions, sid);
      var s' := Get(r.value.ledger.subscriptions, r.value.subscription);
      r.value.subscription == sid && r.value.previousBalance == s.remainingBalance &&
      r.value.ledger.subscriptions == Put(L.subscriptions, sid, s') &&
      s'.remainingBalance == s.remainingBalance + amount &&
      s'.totalBalance - s'.remainingBalance == s.totalBalance - s.remainingBalance &&
      s'.status == SubscriptionStatus.Active &&
      s' == s.(totalBalance := s'.totalBalance, remainingBalance := s'.remainingBalance, updatedAt := L.now)
    ensures r.Ok? && Query(L.subscriptions, user, RichestActive(None)).None? ==>
      var s := Get(r.value.ledger.subscriptions, r.value.subscription);
      r.value.subscription == |L.subscriptions| && r.value.previousBalance == 0.0 &&
      r.value.ledger.subscriptions == Append(L.subscriptions, s) &&
      s.userId == user && s.totalBalance == amount && s.remainingBalance == amount &&
      s.price == 0.0 && s.status == SubscriptionStatus.Active && s.expiresAt.None? &&
      s.typeId == FirstActiveType(L.subscriptionTypes, |L.subscriptionTypes|)
  {
    if user !in L.users then Err(NotFound)
    else
      match Query(L.subscriptions, user, RichestActive(None))
      case Some(sid) =>
        var s := Get(L.subscriptions, sid);
        var s' := s.(totalBalance := s.totalBalance + amount,
                     remainingBalance := s.remainingBalance + amount,
                     status := SubscriptionStatus.Active,
                     updatedAt := L.now);
        Ok(TopUpReceipt(L.(subscriptions := Put(L.subscriptions, sid, s')), sid, s.remainingBalance))
      case None =>
        var s := Subscription(
          user, FirstActiveType(L.subscriptionTypes, |L.subscriptionTypes|),
          TopUpPrefix + amountText + "₽", amount, amount, 0.0,
          SubscriptionStatus.Active, None, L.now);
        Ok(TopUpReceipt(L.(subscriptions := Append(L.subscriptions, s)), |L.subscriptions|, 0.0))
  }

  // Total balance.

  /** The shares of the first `n` rows, row by row. */
  function FundedShares(t: Table<Subscription>, user: Id, n: nat): seq<Money>
    requires n <= |t|
  {
    seq(n, j requires 0 <= j < n => Share(t[j], user))
  }

  /** The ids of the user's ACTIVE subscriptions with a positive balance
      among the first `n` rows. */
  ghost function FundedIds(t: Table<Subscription>, user: Id, n: nat): set<Id> {
    set j: Id | j < n && EligibleAt(t, j, user, FundedActive)
  }

  lemma FundedStep(t: Table<Subscription>, user: Id, n: nat)
    requires 0 < n <= |t|
    ensures Total(FundedShares(t, user, n)) == Total(FundedShares(t, user, n - 1)) + Share(t[n - 1], user)
    ensures FundedIds(t, user, n) ==
      FundedIds(t, user, n - 1) + (if EligibleAt(t, n - 1, user, FundedActive) then {n - 1} else {})
    ensures n - 1 !in FundedIds(t, user, n - 1)
  {
    assert FundedShares(t, user, n)[..n - 1] == FundedShares(t, user, n - 1);
  }

  /** Sum and count of the user's ACTIVE subscriptions with a positive
      balance among the first `n` rows: the sum of every row's share and
      the number of such rows. */
  function Holdings(t: Table<Subscription>, user: Id, n: nat): (r: (Money, nat))
    requires n <= |t|
    ensures r.0 == Total(FundedShares(t, user, n))
    ensures r.1 == |FundedIds(t, user, n)|
    ensures r.0 >= 0.0 && r.1 <= n
    ensures r.0 == 0.0 <==> r.1 == 0
    ensures r.1 == 0 <==> forall j :: 0 <= j < n ==> !EligibleAt(t, j, user, FundedActive)
  {
    if n == 0 then
      assert FundedIds(t, user, 0) == {};
      (0.0, 0)
    else
      var (sum, count) := Holdings(t, user, n - 1);
      FundedStep(t, user, n);
      if EligibleAt(t, n - 1, user, FundedActive) then (sum + t[n - 1].value.remainingBalance, count + 1)
      else (sum, count)
  }

  /** The user's spendable total: the sum over ACTIVE subscriptions with a
      positive balance, and how many there are. */
  function TotalBalance(L: Ledger, user: Id): (r: (Money, nat))
    ensures r == (Total(FundedShares(L.subscriptions, user, |L.subscriptions|)),
                  |FundedIds(L.subscriptions, user, |L.subscriptions|)|)
    ensures r.0 >= 0.0
    ensures r.0 > 0.0 <==> Query(L.subscriptions, user, FundedActive).Some?
  {
    Holdings(L.subscriptions, user, |L.subscriptions|)
  }

  /** What row `s` adds to the holdings of `user`. */
  function Share(s: Option<Subscription>, user: Id): Money {
    if s.Some? && Eligible(s.value, user, FundedActive) then s.value.remainingBalance else 0.0
  }

  lemma HoldingsStep(t: Table<Subscription>, user: Id, n: nat)
    requires 0 < n <= |t|
    ensures Holdings(t, user, n).0 == Holdings(t, user, n - 1).0 + Share(t[n - 1], user)
  {
  }

  /** Changing one row changes the holdings by that row's contribution only. */
  lemma {:induction false} HoldingsOfPut(t: Table<Subscription>, user: Id, n: nat, i: Id, x: Subscription)
    requires n <= |t| && Has(t, i)
    ensures Holdings(Put(t, i, x), user, n).0 ==
      Holdings(t, user, n).0 + (if i < n then Share(Some(x), user) - Share(t[i], user) else 0.0)
  {
    if n > 0 {
      HoldingsOfPut(t, user, n - 1, i, x);
      var t' := Put(t, i, x);
      HoldingsStep(t, user, n);
      HoldingsStep(t', user, n);
      if i == n - 1 {
        assert t'[n - 1] == Some(x);
      } else {
        assert t'[n - 1] == t[n - 1];
      }
    }
  }

  /** Appending a row adds its contribution. */
  lemma {:induction false} HoldingsOfAppend(t: Table<Subscription>, user: Id, n: nat, x: Subscription)
    requires n <= |t|
    ensures Holdings(Append(t, x), user, n) == Holdings(t, user, n)
  {
    if n > 0 {
      HoldingsOfAppend(t, user, n - 1, x);
    }
  }

  /** A top-up of a positive amount raises the user's total balance by
      exactly that amount, provided no ACTIVE balance was negative. */
  lemma TopUpRaisesTotalBalance(L: Ledger, user: Id, amount: Money, amountText: string)
    requires TopUp(L, user, amount, amountText).Ok? && amount > 0.0
    requires forall j :: EligibleAt(L.subscriptions, j, user, RichestActive(None)) ==> L.subscriptions[j].value.remainingBalance >= 0.0
    ensures TotalBalance(TopUp(L, user, amount, amountText).value.ledger, user).0 == TotalBalance(L, user).0 + amount
  {
    var r := TopUp(L, user, amount, amountText).value;
    var t := L.subscriptions;
    match Query(t, user, RichestActive(None))
    case Some(sid) =>
      TopUpOfHeld(t, user, sid, Get(r.ledger.subscriptions, sid), amount);
    case None =>
      TopUpOfNew(t, user, Get(r.ledger.subscriptions, |t|), amount);
  }

  /** Raising an ACTIVE non-negative balance raises the holdings by as much. */
  lemma TopUpOfHeld(t: Table<Subscription>, user: Id, sid: Id, s': Subscription, amount: Money)
    requires Has(t, sid) && amount > 0.0 && Eligible(Get(t, sid), user, RichestActive(None))
    requires Get(t, sid).remainingBalance >= 0.0
    requires s'.userId == user && s'.status == SubscriptionStatus.Active
    requires s'.remainingBalance == Get(t, sid).remainingBalance + amount
    ensures Holdings(Put(t, sid, s'), user, |t|).0 == Holdings(t, user, |t|).0 + amount
  {
    HoldingsOfPut(t, user, |t|, sid, s');
  }

  /** A new ACTIVE row holding `amount` adds `amount` to the holdings. */
  lemma TopUpOfNew(t: Table<Subscription>, user: Id, s: Subscription, amount: Money)
    requires amount > 0.0 && s.userId == user && s.status == SubscriptionStatus.Active && s.remainingBalance == amount
    ensures Holdings(Append(t, s), user, |t| + 1).0 == Holdings(t, user, |t|).0 + amount
  {
    HoldingsOfAppend(t, user, |t|, s);
    assert EligibleAt(Append(t, s), |t|, user, FundedActive);
  }

  /** A purchase of a type with a positive amount raises the user's total
      balance by exactly that amount, provided no ACTIVE balance was negative. */
  lemma PurchaseRaisesTotalBalance(L: Ledger, user: Id, typeId: Id, bypassPayment: bool, gatewayConfigured: bool)
    requires Purchase(L, user, typeId, bypassPayment, gatewayConfigured).Ok?
    requires Get(L.subscriptionTypes, typeId).amount > 0.0
    requires forall j :: EligibleAt(L.subscriptions, j, user, RichestActive(None)) ==> L.subscriptions[j].value.remainingBalance >= 0.0
    ensures TotalBalance(Purchase(L, user, typeId, bypassPayment, gatewayConfigured).value.0, user).0 ==
            TotalBalance(L, user).0 + Get(L.subscriptionTypes, typeId).amount
  {
    var (L1, sid) := Purchase(L, user, typeId, bypassPayment, gatewayConfigured).value;
    var t := L.subscriptions;
    var amount := Get(L.subscriptionTypes, typeId).amount;
    match Query(t, user, RichestActive(None))
    case Some(q) =>
      TopUpOfHeld(t, user, q, Get(L1.subscriptions, q), amount);
    case None =>
      TopUpOfNew(t, user, Get(L1.subscriptions, |t|), amount);
  }
}

=== FILE: time.dfy ===
/**
 * Business-time arithmetic of the studio. Instants are integer milliseconds
 * since the Unix epoch; the business day is the calendar day in Krasnoyarsk,
 * a fixed UTC+7 zone with no daylight-saving shifts.
 */
module KrasnoyarskTime {
  import opened Wrappers

  const MinuteMs: int := 60_000
  const HourMs: int := 3_600_000
  const DayMs: int := 86_400_000
  /** The fixed business-zone offset, +07:00. */
  const OffsetMs: int := 25_200_000

  /**
   * The UTC instant at which the Krasnoyarsk calendar day containing `t`
   * begins. Dafny's `/` is Euclidean, so the floor is taken for instants
   * before 1970 as well, as the UTC calendar fields of a JavaScript date do.
   */
  function StartOfDay(t: int): (r: int)
    ensures r <= t < r + DayMs
    ensures (r + OffsetMs) % DayMs == 0
  {
    ((t + OffsetMs) / DayMs) * DayMs - OffsetMs
  }

  /** The two postconditions of StartOfDay determine it uniquely. */
  lemma StartOfDayUnique(t: int, r: int)
    requires r <= t < r + DayMs
    requires (r + OffsetMs) % DayMs == 0
    ensures r == StartOfDay(t)
  {
    var k := (r + OffsetMs) / DayMs;
    assert r + OffsetMs == k * DayMs;
    assert k * DayMs <= t + OffsetMs < k * DayMs + DayMs;
    DivIsFloor(t + OffsetMs, k);
  }

  lemma DivIsFloor(x: int, k: int)
    requires k * DayMs <= x < k * DayMs + DayMs
    ensures x / DayMs == k
  {
    var q := x / DayMs;
    assert q * DayMs <= x < q * DayMs + DayMs;
    assert (q - k) * DayMs < DayMs && (k - q) * DayMs < DayMs;
  }

  lemma StartOfDayIdempotent(t: int)
    ensures StartOfDay(StartOfDay(t)) == StartOfDay(t)
  {
    StartOfDayUnique(StartOfDay(t), StartOfDay(t));
  }

  /** A day-aligned instant is its own start of day. */
  lemma StartOfDayOfAligned(d: int)
    requires (d + OffsetMs) % DayMs == 0
    ensures StartOfDay(d) == d
  {
    StartOfDayUnique(d, d);
  }

  /** `addDaysUTC`: shift an instant by whole 24-hour days. */
  function AddDays(t: int, days: int): int {
    t + days * DayMs
  }

  /** Adding a day commutes with taking the start of the day. */
  lemma StartOfDayNextDay(t: int)
    ensures StartOfDay(AddDays(t, 1)) == AddDays(StartOfDay(t), 1)
  {
    var r := StartOfDay(t);
    assert (r + DayMs + OffsetMs) % DayMs == (r + OffsetMs) % DayMs;
    StartOfDayUnique(AddDays(t, 1), r + DayMs);
  }

  /** Day of the week in Krasnoyarsk, 0 = Sunday ... 6 = Saturday;
      the business day that began 1970-01-01 was a Thursday (4). */
  function DayOfWeek(t: int): (r: int)
    ensures 0 <= r < 7
  {
    ((t + OffsetMs) / DayMs + 4) % 7
  }

  lemma DayOfWeekOfEpochDay()
    ensures DayOfWeek(-OffsetMs) == 4
  {
  }

  /** The next day is the next weekday, wrapping Saturday to Sunday. */
  lemma DayOfWeekNextDay(t: int)
    ensures DayOfWeek(AddDays(t, 1)) == (DayOfWeek(t) + 1) % 7
  {
    var q := (t + OffsetMs) / DayMs;
    DivIsFloor(t + OffsetMs, q);
    DivIsFloor(t + DayMs + OffsetMs, q + 1);
    assert (t + DayMs + OffsetMs) / DayMs == q + 1;
  }

  /** Any instant of a business day has that day's weekday. */
  lemma DayOfWeekOfStartOfDay(t: int)
    ensures DayOfWeek(StartOfDay(t)) == DayOfWeek(t)
  {
    var q := (t + OffsetMs) / DayMs;
    DivIsFloor(StartOfDay(t) + OffsetMs, q);
  }

  // ---------------------------------------------------------------------
  // Strings: JavaScript whitespace, trimming and `Number(...)` on digits
  // ---------------------------------------------------------------------

  /** The characters `String.prototype.trim` removes: WhiteSpace and
      LineTerminator of ECMAScript, including the Unicode space separators. */
  predicate IsJsSpace(c: char) {
    || c == '\t' || c == '\n' || c == '\U{000B}' || c == '\U{000C}' || c == '\r'
    || c == ' ' || c == '\U{00A0}' || c == '\U{1680}'
    || ('\U{2000}' <= c <= '\U{200A}')
    || c == '\U{2028}' || c == '\U{2029}' || c == '\U{202F}' || c == '\U{205F}'
    || c == '\U{3000}' || c == '\U{FEFF}'
  }

  function TrimStart(s: string): (r: string)
    ensures |r| <= |s| && r == s[|s| - |r|..]
    ensures forall k :: 0 <= k < |s| - |r| ==> IsJsSpace(s[k])
    ensures |r| > 0 ==> !IsJsSpace(r[0])
  {
    if |s| > 0 && IsJsSpace(s[0]) then TrimStart(s[1..]) else s
  }

  function TrimEnd(s: string): (r: string)
    ensures |r| <= |s| && r == s[..|r|]
    ensures forall k :: |r| <= k < |s| ==> IsJsSpace(s[k])
    ensures |r| > 0 ==> !IsJsSpace(r[|r| - 1])
  {
    if |s| > 0 && IsJsSpace(s[|s| - 1]) then TrimEnd(s[..|s| - 1]) else s
  }

  /** `String.prototype.trim`. */
  function Trim(s: string): (r: string)
    ensures |r| > 0 ==> !IsJsSpace(r[0]) && !IsJsSpace(r[|r| - 1])
    ensures r == [] <==> forall k :: 0 <= k < |s| ==> IsJsSpace(s[k])
  {
    var a := TrimStart(s);
    var r := TrimEnd(a);
    assert |r| > 0 ==> r[0] == a[0];
    assert r == [] ==> a == [];
    r
  }

  /** A string that neither begins nor ends in whitespace is its own trim. */
  lemma TrimOfTrimmed(s: string)
    requires |s| > 0 ==> !IsJsSpace(s[0]) && !IsJsSpace(s[|s| - 1])
    ensures Trim(s) == s
  {
  }

  predicate IsDigit(c: char) {
    '0' <= c <= '9'
  }

  predicate AllDigits(s: string) {
    forall k :: 0 <= k < |s| ==> IsDigit(s[k])
  }

  /** The decimal value of a string of ASCII digits (the empty string is 0). */
  function DigitsValue(s: string): (n: nat)
    requires AllDigits(s)
  {
    if s == [] then 0
    else DigitsValue(s[..|s| - 1]) * 10 + (s[|s| - 1] as int - '0' as int)
  }

  /**
   * `Number(str)` on decimal text, as `Date.UTC` then reads it: surrounding
   * whitespace is ignored, an empty string is 0, an optional sign is
   * followed by digits with an optional fraction (digits on at least one
   * side of the point), and the value is truncated toward zero. Everything
   * else is NaN (None).
   */
  function JsNumber(s: string): Option<int> {
    var t := Trim(s);
    if t == [] then Some(0)
    else if t[0] == '-' then
      (var v := UnsignedDecimal(t[1..]); if v.Some? then Some(-(v.value as int)) else None)
    else if t[0] == '+' then UnsignedDecimal(t[1..])
    else UnsignedDecimal(t)
  }

  /** Digits, optionally a point and more digits, at least one digit in
      all: the whole part; None for any other text. */
  function UnsignedDecimal(t: string): (r: Option<nat>)
    ensures r.Some? ==> |t| > 0
  {
    var p := IndexOf(t, '.');
    var whole := t[..p];
    var fraction := if p < |t| then t[p + 1..] else [];
    if AllDigits(whole) && AllDigits(fraction) && (|whole| > 0 || |fraction| > 0)
    then Some(DigitsValue(whole)) else None
  }

  /** A run of digits reads as its value. */
  lemma JsNumberOfDigits(s: string)
    requires |s| > 0 && AllDigits(s)
    ensures JsNumber(s) == Some(DigitsValue(s))
  {
    TrimOfTrimmed(s);
    assert IsDigit(s[0]);
    assert UnsignedDecimal(s) == Some(DigitsValue(s)) by {
      assert IndexOf(s, '.') == |s|;
      assert s[..|s|] == s;
    }
  }

  /** A fraction is cut off: digits, a point and digits read as the
      whole part. */
  lemma JsNumberTruncates(whole: string, fraction: string)
    requires AllDigits(whole) && AllDigits(fraction) && |whole| > 0
    ensures JsNumber(whole + "." + fraction) == Some(DigitsValue(whole))
  {
    var t := whole + "." + fraction;
    UnsignedDecimalOfFraction(whole, fraction);
    assert t[0] == whole[0] && IsDigit(t[0]);
    assert IsDigit(t[|t| - 1]) || t[|t| - 1] == '.';
    TrimOfDecimal(t);
  }

  /** A leading minus negates whatever the rest reads as, so the value is
      still truncated toward zero. */
  lemma JsNumberNegates(s: string, n: nat)
    requires |s| > 1 && s[0] == '-' && UnsignedDecimal(s[1..]) == Some(n)
    ensures JsNumber(s) == Some(-(n as int))
  {
    DecimalEnds(s[1..]);
    assert s[|s| - 1] == s[1..][|s[1..]| - 1];
    TrimOfDecimal(s);
    JsNumberOfMinus(s, n);
  }

  /** A decimal ends in a digit or in its point. */
  lemma DecimalEnds(t: string)
    requires UnsignedDecimal(t).Some?
    ensures IsDigit(t[|t| - 1]) || t[|t| - 1] == '.'
  {
    var p := IndexOf(t, '.');
    if p == |t| {
      assert t[..p] == t;
    } else if p + 1 < |t| {
      assert t[p + 1..][|t| - p - 2] == t[|t| - 1];
    }
  }

  /** Trimmed text that starts with a minus reads as the negated rest. */
  lemma JsNumberOfMinus(s: string, n: nat)
    requires Trim(s) == s && |s| > 0 && s[0] == '-' && UnsignedDecimal(s[1..]) == Some(n)
    ensures JsNumber(s) == Some(-(n as int))
  {
  }

  /** Digits, a point and digits: the whole part. */
  lemma UnsignedDecimalOfFraction(whole: string, fraction: string)
    requires AllDigits(whole) && AllDigits(fraction) && |whole| > 0
    ensures UnsignedDecimal(whole + "." + fraction) == Some(DigitsValue(whole))
  {
    var t := whole + "." + fraction;
    IndexOfAfterDigits(t, |whole|);
    assert t[..|whole|] == whole && t[|whole| + 1..] == fraction;
  }

  /** The first point of digits-then-point is at the point. */
  lemma IndexOfAfterDigits(t: string, n: nat)
    requires n < |t| && t[n] == '.' && forall k :: 0 <= k < n ==> IsDigit(t[k])
    ensures IndexOf(t, '.') == n
  {
    if n > 0 {
      IndexOfAfterDigits(t[1..], n - 1);
    }
  }

  /** Text that starts with a digit or a minus and ends with a digit or a
      point has no whitespace at either end. */
  lemma TrimOfDecimal(s: string)
    requires |s| > 0 && (IsDigit(s[0]) || s[0] == '-') && (IsDigit(s[|s| - 1]) || s[|s| - 1] == '.')
    ensures Trim(s) == s
  {
    TrimOfTrimmed(s);
  }


  /** Index of the first `c` in `s`, or `|s|` when there is none. */
  function IndexOf(s: string, c: char): (i: nat)
    ensures i <= |s|
    ensures i < |s| ==> s[i] == c
    ensures forall j :: 0 <= j < i ==> s[j] != c
  {
    if s == [] then 0
    else if s[0] == c then 0
    else 1 + IndexOf(s[1..], c)
  }

  /**
   * `const [hStr, mStr] = hhmm.split(':')` followed by `Number` on both
   * parts: the hour is the text before the first colon, the minute the text
   * between the first and the second colon (or the end). Without a colon the
   * minute is `undefined`, which is NaN.
   */
  function ParseTime(hhmm: string): Option<(int, int)> {
    var i := IndexOf(hhmm, ':');
    if i == |hhmm| then None
    else
      var rest := hhmm[i + 1..];
      var h := JsNumber(hhmm[..i]);
      var m := JsNumber(rest[..IndexOf(rest, ':')]);
      if h.Some? && m.Some? then Some((h.value, m.value)) else None
  }

  /**
   * `buildKrasnoyarskDateTimeForDay`: the instant of wall-clock time `hhmm`
   * on the business day containing `day`. None is JavaScript's Invalid Date.
   */
  function BuildDateTimeForDay(day: int, hhmm: string): (r: Option<int>)
    ensures r.Some? <==> ParseTime(hhmm).Some?
    ensures r.Some? ==> r.value == StartOfDay(day) + WallClockMs(ParseTime(hhmm).value.0, ParseTime(hhmm).value.1)
  {
    match ParseTime(hhmm)
    case Some((h, m)) => Some(StartOfDay(day) + WallClockMs(h, m))
    case None => None
  }

  /** Milliseconds from midnight to the wall-clock time `h`:`m`. */
  function WallClockMs(h: int, m: int): int {
    h * HourMs + m * MinuteMs
  }

  /** Two decimal digits of `n`, as in "09". */
  function TwoDigits(n: nat): (s: string)
    requires n < 100
  {
    [('0' as int + n / 10) as char, ('0' as int + n % 10) as char]
  }

  /** The canonical "HH:MM" text of a wall-clock time. */
  function HHMM(h: nat, m: nat): string
    requires h < 100 && m < 100
  {
    TwoDigits(h) + ":" + TwoDigits(m)
  }

  lemma TwoDigitsValue(n: nat)
    requires n < 100
    ensures AllDigits(TwoDigits(n))
    ensures DigitsValue(TwoDigits(n)) == n
    ensures Trim(TwoDigits(n)) == TwoDigits(n)
  {
    var s := TwoDigits(n);
    assert AllDigits(s) by {
      assert IsDigit(s[0]) && IsDigit(s[1]);
    }
    assert DigitsValue(s[..1]) == n / 10 by {
      assert s[..1][..0] == [];
      assert s[..1] == [s[0]];
    }
    assert DigitsValue(s) == DigitsValue(s[..1]) * 10 + n % 10;
    TrimOfTrimmed(s);
  }

  /** Parsing the canonical "HH:MM" text gives back its hour and minute. */
  lemma ParseTimeOfHHMM(h: nat, m: nat)
    requires h < 100 && m < 100
    ensures ParseTime(HHMM(h, m)) == Some((h, m))
  {
    var s := HHMM(h, m);
    TwoDigitsValue(h);
    TwoDigitsValue(m);
    JsNumberOfDigits(TwoDigits(h));
    JsNumberOfDigits(TwoDigits(m));
    assert s[2] == ':' && IsDigit(s[0]) && IsDigit(s[1]);
    assert IndexOf(s, ':') == 2;
    assert s[..2] == TwoDigits(h);
    var rest := s[3..];
    assert rest == TwoDigits(m);
    assert IndexOf(rest, ':') == 2;
    assert rest[..2] == rest;
  }

  /**
   * A valid "HH:MM" time places the session at the start of the business
   * day plus that many hours and minutes, on that same business day.
   */
  lemma BuildDateTimeForValidTime(day: int, h: nat, m: nat)
    requires h <= 23 && m <= 59
    ensures BuildDateTimeForDay(day, HHMM(h, m)) == Some(StartOfDay(day) + WallClockMs(h, m))
  {
    ParseTimeOfHHMM(h, m);
    BuildDateTimeOfParsed(day, HHMM(h, m), h, m);
  }

  lemma BuildDateTimeOfParsed(day: int, s: string, h: int, m: int)
    requires ParseTime(s) == Some((h, m))
    ensures BuildDateTimeForDay(day, s) == Some(StartOfDay(day) + WallClockMs(h, m))
  {
  }

  /** A session built from a valid "HH:MM" time falls on the business day
      it was generated for. */
  lemma BuildDateTimeSameDay(day: int, h: nat, m: nat)
    requires h <= 23 && m <= 59
    ensures BuildDateTimeForDay(day, HHMM(h, m)).Some?
    ensures StartOfDay(BuildDateTimeForDay(day, HHMM(h, m)).value) == StartOfDay(day)
  {
    ParseTimeOfHHMM(h, m);
    ParsedTimeSameDay(day, HHMM(h, m), h, m);
  }

  lemma ParsedTimeSameDay(day: int, s: string, h: nat, m: nat)
    requires h <= 23 && m <= 59
    requires ParseTime(s) == Some((h, m))
    ensures BuildDateTimeForDay(day, s).Some?
    ensures StartOfDay(BuildDateTimeForDay(day, s).value) == StartOfDay(day)
  {
    BuildDateTimeOfParsed(day, s, h, m);
    WallClockWithinDay(h, m);
    SameDayWithin(day, WallClockMs(h, m));
  }

  lemma SameDayWithin(day: int, w: int)
    requires 0 <= w < DayMs
    ensures StartOfDay(StartOfDay(day) + w) == StartOfDay(day)
  {
    StartOfDayUnique(StartOfDay(day) + w, StartOfDay(day));
  }

  lemma WallClockWithinDay(h: nat, m: nat)
    requires h <= 23 && m <= 59
    ensures 0 <= WallClockMs(h, m) < DayMs
  {
    assert h * HourMs <= 23 * HourMs by {
      assert h * HourMs == h * 3600000;
    }
    assert m * MinuteMs == m * 60000;
  }

  // ---------------------------------------------------------------------
  // Zone suffixes and the "+07:00" normalisation of datetime-local input
  // ---------------------------------------------------------------------

  predicate IsSign(c: char) {
    c == '+' || c == '-'
  }

  /**
   * The regular expression `([zZ]|[+-]\d{2}:?\d{2})$`: the text ends in
   * Z or z, in a signed "HH:MM" offset, or in a signed "HHMM" offset.
   */
  predicate HasTimezoneSuffix(s: string) {
    var n := |s|;
    || (n >= 1 && (s[n - 1] == 'Z' || s[n - 1] == 'z'))
    || (n >= 6 && IsSign(s[n - 6]) && IsDigit(s[n - 5]) && IsDigit(s[n - 4])
        && s[n - 3] == ':' && IsDigit(s[n - 2]) && IsDigit(s[n - 1]))
    || (n >= 5 && IsSign(s[n - 5]) && IsDigit(s[n - 4]) && IsDigit(s[n - 3])
        && IsDigit(s[n - 2]) && IsDigit(s[n - 1]))
  }

  const KrasnoyarskOffset: string := "+07:00"

  /** Whatever precedes it, the business offset is a recognised suffix. */
  lemma OffsetIsSuffix(x: string)
    ensures HasTimezoneSuffix(x + KrasnoyarskOffset)
  {
    var s := x + KrasnoyarskOffset;
    var n := |s|;
    assert s[n - 6..] == KrasnoyarskOffset;
    assert s[n - 6] == '+' && s[n - 3] == ':';
  }

  /** What the form layer appends to a datetime-local value without a zone:
      seconds when the value is exactly "YYYY-MM-DDTHH:MM" long, then the offset. */
  function WithBusinessOffset(raw: string): string {
    (if |raw| == 16 then raw + ":00" else raw) + KrasnoyarskOffset
  }

  /**
   * `toKrasnoyarskOffsetDateTime` of the admin application: blank input
   * gives "", input already carrying a zone is returned trimmed, anything
   * else gets the business offset.
   */
  function ToOffsetDateTime(value: string): (r: string)
    ensures r == [] <==> Trim(value) == []
    ensures r != [] ==> HasTimezoneSuffix(r)
    ensures HasTimezoneSuffix(Trim(value)) ==> r == Trim(value)
    ensures Trim(value) != [] && !HasTimezoneSuffix(Trim(value)) ==>
      r == (if |Trim(value)| == 16 then Trim(value) + ":00" + KrasnoyarskOffset else Trim(value) + KrasnoyarskOffset)
  {
    var raw := Trim(value);
    if raw == [] then []
    else if HasTimezoneSuffix(raw) then raw
    else
      OffsetIsSuffix(if |raw| == 16 then raw + ":00" else raw);
      assert raw + ":00" + KrasnoyarskOffset == (raw + ":00") + KrasnoyarskOffset;
      WithBusinessOffset(raw)
  }

  /** The normalisation is idempotent: its output is trimmed and zoned. */
  lemma ToOffsetDateTimeIdempotent(value: string)
    ensures ToOffsetDateTime(ToOffsetDateTime(value)) == ToOffsetDateTime(value)
  {
    var r := ToOffsetDateTime(value);
    var raw := Trim(value);
    if r != [] {
      assert r[0] == raw[0];
      assert !IsJsSpace(r[|r| - 1]) by {
        if !HasTimezoneSuffix(raw) {
          assert r[|r| - 1] == '0';
        }
      }
      TrimOfTrimmed(r);
    }
  }

  /** A date argument of the API: an already-built date, or form text. */
  datatype DateInput = DateValue(ms: int) | Text(text: string)

  /** What `parseKrasnoyarskDateTime` hands back: the same instant, the
      Invalid Date, or the result of `new Date(text)` on the given text
      (the ISO parser itself is not part of this model). */
  datatype ParsedDate = Instant(ms: int) | InvalidDate | ParseIso(text: string)

  /** `parseKrasnoyarskDateTime` of the API. */
  function ParseKrasnoyarskDateTime(value: DateInput): (r: ParsedDate)
    ensures value.DateValue? ==> r == Instant(value.ms)
    ensures value.Text? && Trim(value.text) == [] ==> r == InvalidDate
    ensures value.Text? && HasTimezoneSuffix(Trim(value.text)) ==> r == ParseIso(Trim(value.text))
    ensures r.ParseIso? ==> HasTimezoneSuffix(r.text)
  {
    match value
    case DateValue(ms) => Instant(ms)
    case Text(s) =>
      var raw := Trim(s);
      if raw == [] then InvalidDate
      else if HasTimezoneSuffix(raw) then ParseIso(raw)
      else
        OffsetIsSuffix(if |raw| == 16 then raw + ":00" else raw);
        ParseIso(WithBusinessOffset(raw))
  }

  /** The API and the admin application normalise form text identically:
      the API parses exactly the string the admin form would send. */
  lemma ServerAndAdminAgree(s: string)
    ensures ParseKrasnoyarskDateTime(Text(s)) ==
      (if ToOffsetDateTime(s) == [] then InvalidDate else ParseIso(ToOffsetDateTime(s)))
  {
  }
}

=== FILE: wrappers.dfy ===
/** Failure-compatible wrappers shared by every module of the ledger model. */
module Wrappers {

  /** A value that may be absent (a nullable column, an optional DTO field). */
  datatype Option<+T> = None | Some(value: T) {

    function GetOr(default: T): T {
      match this
      case Some(v) => v
      case None => default
    }
  }

  /** The outcome of an operation: a value, or the error the service throws. */
  datatype Result<+T, +E> = Ok(value: T) | Err(error: E) {

    predicate IsFailure() {
      Err?
    }

    function PropagateFailure<U>(): Result<U, E>
      requires Err?
    {
      Err(error)
    }

    function Extract(): T
      requires Ok?
    {
      value
    }
  }
}
